=== FILE: README.md ===
# Scholar recommendation for grant proposals — a Dafny model

The system collects open funding opportunities and recommends the scholars
of a university whose work fits them best.

- **Gathering proposals.** Opportunities come from the Grants.gov XML and
  CSV exports. They are filtered to the ones still open and written out per
  agency.
- **Agency pages.** The NSF and NIH extractors read each opportunity's own
  page into a title, a department, an introduction and a description.
- **Scholar data.** Profiles and publications are read from the
  university's scholar service.
- **The analytical table.** The scholar data is turned into keyword tokens,
  one row per scholar.
- **Ranking.** `recommend` reads one proposal and extracts its keywords. It
  scores every scholar on fifteen channel × field pairs with the counter
  cosine similarity, sums the scores, sorts them, and returns the top *k*
  scholars.

This project models that pipeline in Dafny 4.11, one module per source
file:

| module | source file |
|---|---|
| `Helpers` | `helpers.py` (with `Wrappers`, `Seqs` and `Text` for shared Python value operations) |
| `Cosine` | `counter_cosine_similarity` in `helpers.py` |
| `Keywords` | `automatic_keyword_generator.py` |
| `Markup` | the clean-up the two agency extractors share |
| `Nsf` | `Agency_proposal_extractor/NSF_Extractor.py` |
| `Nih` | `Agency_proposal_extractor/NIH_Extractor.py` |
| `Proposals` | `extract_proposals.py` |
| `TitlesDb` | `extract_proposals_titles_db.py` |
| `Profiles` | `user_profile_creation.py` |
| `Publications` | `extract_publications.py` |
| `Analytical` | `create_analytical_data.py` |
| `Ranker` | `model.py` |
| `RecommendScholars` | the command line of `recommend_scholars.py` |

How the Python is modelled:

- **Classes.** Each class whose methods set attributes is a Dafny `class`.
  Its methods have `modifies` clauses and are proved against
  specification functions.
- **Loops.** The source's loops are methods with a `while` or `for`
  loop and its invariants.
- **Exceptions.** A raised exception is an `Err` carrying its Python
  exception class.
- **Missing values.** A pandas NaN is `None`.
- **Dictionaries.** A Python `dict` is a `map` or, where the later key wins,
  an association list.

`recommend_scholars.py` repeats `get_column_names` and the
`Top_Scholar_Identifier` class of `model.py` line for line, apart from
`output_path`: model.py:63 prefixes the script's own directory, while
recommend_scholars.py:61 uses the configured path as it is, so the two read
their tables from different places. File reads are parameters of the model,
so both are modelled once, in `Ranker`. `RecommendScholars` models only that file's
`main`.

## Model

| member | source | states |
|---|---|---|
| Wrappers.AllSome | create_analytical_data.py:86-92 | the list of values exists exactly when every cell is present, and then holds them in order |
| Wrappers.PresentMembers | create_analytical_data.py:94-98 | `[x for x in cells if not pd.isna(x)]` keeps exactly the present values |
| Wrappers.PresentAppend | create_analytical_data.py:94-98 | dropping missing cells distributes over concatenation |
| Wrappers.Collect | helpers.py:268-292 | a list of outcomes succeeds exactly when every element does; otherwise it fails with an error one of them raised |
| Seqs.Map | helpers.py:268-292 | a list comprehension keeps length and applies the function at each index |
| Seqs.FilterMembers | extract_proposals.py:182-184 | a boolean row filter keeps exactly the rows satisfying the predicate |
| Seqs.FilterCount | extract_proposals.py:194-195 | a boolean row filter keeps every matching row with its multiplicity and drops the rest |
| Seqs.FilterAppend | helpers.py:167 | filtering distributes over concatenation, so order is kept |
| Seqs.Distinct | helpers.py:333 | the distinct values hold exactly the input's values, each once |
| Seqs.SliceEnd | model.py:181-182 | the length of `xs[:k]` for non-negative and negative `k` |
| Seqs.FlattenMembers | extract_publications.py:152 | the concatenation of frames holds exactly the rows of the frames |
| Text.Lower | helpers.py:104-114 | `str.lower` keeps length and lowers each character without changing which are alphanumeric |
| Text.AlnumOnly | helpers.py:127 | `re.sub('[^A-Za-z0-9]+', '', s)` leaves only alphanumeric characters |
| Text.SubEmptyIsAlnumOnly | helpers.py:127 | substituting the empty string for each non-alphanumeric run is deleting them |
| Text.SubKeepsAlnum | helpers.py:218 | substituting a separator for each non-alphanumeric run keeps the alphanumeric characters in order |
| Text.SubSpaceCollapsed | helpers.py:218 | after substituting one space per run, no two spaces are adjacent |
| Text.SubCharsFrom | helpers.py:218 | every character of the substituted text comes from the input or the replacement |
| Text.WordsShape | helpers.py:154 | every piece of `str.split()` is a non-empty run of non-space characters of the input |
| Text.JoinSplit | user_profile_creation.py:141 | `sep.join(s.split(sep)) == s` |
| Text.SplitJoin | user_profile_creation.py:168 | splitting a `sep`-joined list whose items hold no `sep` gives the list back |
| Text.SplitCharPieces | extract_proposals.py:97-100 | the pieces of `s.split(c)` hold no `c`, and there are two or more exactly when `c` occurs |
| Helpers.UrlSubKept | helpers.py:97-101 | the URL substitution leaves only letters, digits, spaces and tabs |
| Helpers.RemoveUrlsShape | helpers.py:88-102 | `' '.join(re.sub(...).split())` is single-spaced with no leading or trailing space |
| Helpers.RemoveStopwordsExact | helpers.py:157-168 | stop-word removal drops every stop word and keeps every other token with its count and order |
| Helpers.RemoveLettersExact | helpers.py:196-207 | short-token removal keeps exactly the tokens longer than `size`, with their counts and order |
| Helpers.PreProcessing.constructor | helpers.py:77-86 | stores the text; no processed text yet |
| Helpers.PreProcessing.RemoveUrls | helpers.py:88-102 | replaces the processed text with its URL-stripped, re-spaced form |
| Helpers.PreProcessing.TextLowercase | helpers.py:104-114 | the processed text becomes the lower-cased original text |
| Helpers.PreProcessing.RemoveNumbers | helpers.py:116-128 | the processed text keeps only its alphanumeric characters |
| Helpers.PreProcessing.Tokenize | helpers.py:144-155 | the processed text becomes its whitespace tokens |
| Helpers.PreProcessing.RemoveStopwords | helpers.py:157-168 | the token list loses its stop words |
| Helpers.PreProcessing.Lemmatize | helpers.py:170-182 | every token is replaced by its lemma, in place |
| Helpers.PreProcessing.RemoveLetters | helpers.py:196-207 | the token list keeps the tokens longer than `size` |
| Helpers.PreProcessing.RemoveCharacters | helpers.py:209-219 | each non-alphanumeric run becomes one space, and the result has no double space |
| Helpers.Tokenize | helpers.py:222-243 | the method runs lower, clean, split, stop-word and length filters, then lemmatisation, giving the specified token list |
| Helpers.SurvivorShape | helpers.py:222-243 | every token before lemmatisation is non-empty, lower-case alphanumeric, longer than `k` and not a stop word |
| Helpers.SurvivorsExact | helpers.py:222-243 | before lemmatisation, a word survives with its full count exactly when it is neither a stop word nor of length at most `k` |
| Helpers.LemmaAfterFilter | helpers.py:239-241 | filters apply before lemmatisation: "Cats" gives "cat" although "cat" has only three letters |
| Helpers.TokensClean | helpers.py:222-243 | with a lemmatiser that adds no space, no token holds a space |
| Helpers.JoinStored | create_analytical_data.py:37-44 | space-joining space-free tokens stores them so that `split(" ")` gives them back |
| Helpers.GetKeys | helpers.py:36-71 | Spacy, Yake and Rake give keywords; BERT and gensim raise; any other generator gives `None` |
| Helpers.Parallelize | helpers.py:268-292 | the pool's result lists `func` of each argument in input order |
| Helpers.CreateTokens | helpers.py:425-444 | applies `func` to each (value, index label) pair of the column, in order |
| Helpers.FormattedDate | helpers.py:369-372 | a blank cell becomes today; any other cell becomes its parsed date, or `ValueError` when parsing fails |
| Helpers.FormattedDates | helpers.py:357-372 | the column converts exactly when every cell does, element by element; otherwise some cell raised |
| Helpers.MergeMembers | helpers.py:375-392 | an inner merge holds exactly the pairs of a left and a right row with equal keys |
| Helpers.MergeAppend | helpers.py:375-392 | an inner merge keeps the left frame's order |
| Helpers.LeftMergeMembers | extract_proposals.py:174-179 | a left merge pairs each left row with every matching right row, or with none when nothing matches |
| Helpers.LeftMergeKeeps | extract_proposals.py:174-179 | a left merge loses no left row |
| Cosine.Terms | helpers.py:333 | the term set is exactly the union of both counters' keys, each once |
| Cosine.SumPermutation | helpers.py:333-336 | the sums over a set are independent of the order the set is iterated in |
| Cosine.CauchySchwarz | helpers.py:334-336 | the dot product squared is at most the product of the squared norms |
| Cosine.NormAtLeast | helpers.py:335-336 | each norm is at least the square of any one count |
| Cosine.EmptyBag | helpers.py:334-336 | an empty counter has zero norm and zero dot product |
| Cosine.SameBag | helpers.py:334-336 | a counter against itself has dot product equal to both norms |
| Cosine.DisjointBags | helpers.py:334 | counters with no common term have zero dot product |
| Cosine.BagNorms | helpers.py:335-337 | a norm is zero exactly when its word list is empty, which is the division by zero |
| Cosine.BagCosine | helpers.py:328-339 | the score is defined exactly when neither word list is empty |
| Cosine.CounterCosine | helpers.py:313-339 | keyed by the user id; the exception path (no counter, or an empty one) gives 0 |
| Cosine.ScoreInRange | helpers.py:337 | every score lies in [0, 100] |
| Cosine.ValueUnique | helpers.py:335-337 | the score (a quotient of square roots) is a single real number |
| Cosine.OrderFree | helpers.py:330-331 | the score depends only on the word counts, not their order |
| Cosine.SelfScore | helpers.py:313-339 | a non-empty list scored against itself gives 100 |
| Cosine.DisjointScore | helpers.py:313-339 | lists with no common word give 0 |
| Keywords.Spacy | automatic_keyword_generator.py:136-156 | the loop over the tagged tokens gives the specified keyword list |
| Keywords.SpacyPrefix | automatic_keyword_generator.py:148-154 | each token adds its text exactly when it is kept |
| Keywords.SpacyExact | automatic_keyword_generator.py:148-154 | kept tokens appear in document order at their position |
| Keywords.SpacyKeptTexts | automatic_keyword_generator.py:150-151 | no keyword is a stop word or occurs in the punctuation string |
| Keywords.PunctuationPieces | automatic_keyword_generator.py:150 | `in punctuation` is a substring test: "()" and "{\|}" are filtered |
| Keywords.DropDigitsShape | automatic_keyword_generator.py:104-105 | dropping digits leaves letters and spaces and keeps every letter |
| Keywords.RakeCleanShape | automatic_keyword_generator.py:102-105 | a cleaned phrase holds only letters and spaces and keeps the phrase's letters in order |
| Keywords.RakeKeywordsShape | automatic_keyword_generator.py:90-108 | a keyword is exactly a cleaned ranked phrase longer than one character |
| Keywords.RakeKeepsOrder | automatic_keyword_generator.py:102-106 | Rake keeps the ranking order |
| Keywords.YakeKeywords | automatic_keyword_generator.py:88 | Yake returns each scored phrase's text, in order |
| Markup.CloseAt | Agency_proposal_extractor/NIH_Extractor.py:29 | locates the first `>` |
| Markup.SubTagsNoTag | Agency_proposal_extractor/NIH_Extractor.py:29 | a text without `<` is unchanged by the tag substitution |
| Markup.SubTagsChars | Agency_proposal_extractor/NIH_Extractor.py:29 | the tag substitution adds no character except spaces |
| Markup.DropSpaces | Agency_proposal_extractor/NIH_Extractor.py:30 | a suffix of the input that does not start with a space |
| Markup.CollapseShape | Agency_proposal_extractor/NIH_Extractor.py:30 | `re.sub(' +', ' ', s)` leaves no two adjacent spaces and adds no other character |
| Markup.CollapseSingleSpaced | Agency_proposal_extractor/NIH_Extractor.py:30 | collapsing is the identity on single-spaced text |
| Markup.DeleteCharShape | Agency_proposal_extractor/NIH_Extractor.py:31 | `s.replace(c, "")` removes every `c` and nothing else |
| Markup.RemoveTags | Agency_proposal_extractor/NSF_Extractor.py:36-39 | tags removed, no no-break space left |
| Markup.CleanText | Agency_proposal_extractor/NSF_Extractor.py:46-50 | no no-break space; every non-space character comes from the input |
| Markup.CleanTextFixes | Agency_proposal_extractor/NSF_Extractor.py:46-50 | text already clean is returned unchanged |
| Markup.TakeLine | Agency_proposal_extractor/NIH_Extractor.py:83 | the first line is a prefix up to the first line break |
| Markup.SplitLines | Agency_proposal_extractor/NIH_Extractor.py:83 | no piece of `splitlines()` holds a line break |
| Markup.SplitLinesOneLine | Agency_proposal_extractor/NIH_Extractor.py:83 | text without breaks is one line, or none when empty |
| Markup.JoinNoBreak | Agency_proposal_extractor/NIH_Extractor.py:83 | joining break-free lines with a break-free separator has no break |
| Markup.JoinLines | Agency_proposal_extractor/NIH_Extractor.py:83 | `sep.join(s.splitlines())` holds no line break |
| Markup.FinalTableRows | Agency_proposal_extractor/NIH_Extractor.py:181-196 | the left merge on the URL keeps every page row: with each grant that names its URL, or with empty grant columns |
| Nsf.ProcessedTokensExact | Agency_proposal_extractor/NSF_Extractor.py:25-33 | `processing` keeps each token with its count unless it is "national", "science", "foundation" or all digits |
| Nsf.ProcessedTokensClean | Agency_proposal_extractor/NSF_Extractor.py:25-33 | no processed token holds a space |
| Nsf.Processing | Agency_proposal_extractor/NSF_Extractor.py:25-33 | the processed string splits back into the processed tokens |
| Nsf.SectionIndicesHeaders | Agency_proposal_extractor/NSF_Extractor.py:131-139 | every recorded index is in range and is a section header |
| Nsf.SectionIndicesSorted | Agency_proposal_extractor/NSF_Extractor.py:131-139 | the indices are in non-decreasing order |
| Nsf.SectionIndicesComplete | Agency_proposal_extractor/NSF_Extractor.py:131-139 | every section header is recorded |
| Nsf.IndexInside | Agency_proposal_extractor/NSF_Extractor.py:141-144 | a recorded index is a valid element index |
| Nsf.SectionIndicesStep | Agency_proposal_extractor/NSF_Extractor.py:133-139 | one loop step appends the current element's hits |
| Nsf.FindSections | Agency_proposal_extractor/NSF_Extractor.py:131-139 | the loop builds the specified index list |
| Nsf.IntroDescShape | Agency_proposal_extractor/NSF_Extractor.py:124-146 | succeeds exactly when there are three headers; no header lies strictly inside either slice |
| Nsf.PageRowOf | Agency_proposal_extractor/NSF_Extractor.py:148-166 | the four fields are all present or all NaN; present exactly when the page, its department table and three headers exist, and then they are the processed title and department and the two section texts |
| Nsf.MissingTitleIsNone | Agency_proposal_extractor/NSF_Extractor.py:104-110 | a page without `<title>` gets the processed text "None" as its title |
| Nsf.NSFExtractor.constructor | Agency_proposal_extractor/NSF_Extractor.py:58-75 | stores the URLs, grant data and file name |
| Nsf.NSFExtractor.GetResponse | Agency_proposal_extractor/NSF_Extractor.py:77-102 | the fetched page becomes the soup; a failed request leaves the soup |
| Nsf.NSFExtractor.GetIntroDesc | Agency_proposal_extractor/NSF_Extractor.py:124-146 | the method returns the specified introduction and description, or `IndexError` |
| Nsf.NSFExtractor.ExtractPageInfo | Agency_proposal_extractor/NSF_Extractor.py:148-166 | returns the specified page row |
| Nsf.NSFExtractor.ExtractAll | Agency_proposal_extractor/NSF_Extractor.py:168-224 | the final table is the URL merge of the page rows with the grant data |
| Nih.Dept | Agency_proposal_extractor/NIH_Extractor.py:83 | the department text holds no line break |
| Nih.OrganisationAsWritten | Agency_proposal_extractor/NIH_Extractor.py:80-105 | raises `NameError` exactly when the first lookup fails; otherwise agrees with the intended function |
| Nih.Organisation | Agency_proposal_extractor/NIH_Extractor.py:81-103 | the first non-empty department reached; `None` only when no lookup succeeded or all three were empty |
| Nih.FundingStart | Agency_proposal_extractor/NIH_Extractor.py:115-116 | the index of the first funding anchor, or none when absent |
| Nih.ThroughOther | Agency_proposal_extractor/NIH_Extractor.py:119-122 | the prefix up to and including the first element linking to Section VIII |
| Nih.ThroughOtherUpTo | Agency_proposal_extractor/NIH_Extractor.py:119-122 | that prefix is unique |
| Nih.Description | Agency_proposal_extractor/NIH_Extractor.py:107-128 | one line, no no-break space, made of the collected texts' characters, or "" when the anchor is missing |
| Nih.PageRowAsWritten | Agency_proposal_extractor/NIH_Extractor.py:142-150 | keeps the URL |
| Nih.PageRowOf | Agency_proposal_extractor/NIH_Extractor.py:142-150 | a description exactly for a fetched page that is not a 404; the organisation only with it |
| Nih.AsWrittenLosesDescription | Agency_proposal_extractor/NIH_Extractor.py:80-105 | a page with fewer than two data columns gets an all-NaN row as written, but keeps its description as intended |
| Nih.AsWrittenAgrees | Agency_proposal_extractor/NIH_Extractor.py:142-150 | on every other page the two agree |
| Nih.NIHExtractor.constructor | Agency_proposal_extractor/NIH_Extractor.py:39-55 | stores the URLs, grant data and file name |
| Nih.NIHExtractor.GetResponse | Agency_proposal_extractor/NIH_Extractor.py:57-72 | the fetched page becomes the soup |
| Nih.NIHExtractor.GetDescription | Agency_proposal_extractor/NIH_Extractor.py:107-128 | the loop over the elements gives the specified description |
| Nih.NIHExtractor.ExtractPageInfo | Agency_proposal_extractor/NIH_Extractor.py:130-150 | returns the intended page row |
| Nih.NIHExtractor.ExtractAll | Agency_proposal_extractor/NIH_Extractor.py:152-202 | the final table is the URL merge of the page rows with the grant data |
| Proposals.MetaRowOf | extract_proposals.py:97-100 | the URL and number cells of a hyperlink cell; `IndexError` exactly when it holds no `"` |
| Proposals.HyperlinkRoundTrip | extract_proposals.py:97-100 | reading a `=HYPERLINK("url","number")` cell gives back its URL and number |
| Proposals.Metadata | extract_proposals.py:97-100 | every row converts, in order, or the column raises |
| Proposals.RecordShape | extract_proposals.py:145-152 | one entry per tag, holding the tag's text or "" |
| Proposals.DateColumn | extract_proposals.py:167-172 | a date column converts exactly when it exists and every cell converts |
| Proposals.Dated | extract_proposals.py:167-172 | each row gets its three converted dates |
| Proposals.ProcessedRows | extract_proposals.py:167-179 | every merged row is an XML row with its converted close date |
| Proposals.ProcessedKeepsAll | extract_proposals.py:174-179 | the left merge loses no XML row |
| Proposals.OpenRowsExact | extract_proposals.py:182-184 | the open proposals are exactly the rows closing after today, with their counts |
| Proposals.BlankCloseNeverOpen | extract_proposals.py:167-184 | a blank close date becomes today, so that row is never open |
| Proposals.AgencyRowsExact | extract_proposals.py:194-195 | an agency's file holds exactly its open rows |
| Proposals.WriteAgencies | extract_proposals.py:194-199 | fails with `KeyError` exactly when an agency has no file name or the column is missing; other files are untouched |
| Proposals.AgencyFile | extract_proposals.py:194-199 | the last agency written to a file name owns it |
| Proposals.GrantsDataExtractor.constructor | extract_proposals.py:29-57 | each empty argument falls back to its configuration default |
| Proposals.GrantsDataExtractor.ExtractCSVData | extract_proposals.py:59-100 | the metadata is the converted column, or unchanged on error |
| Proposals.GrantsDataExtractor.ExtractXMLData | extract_proposals.py:102-154 | the nested loop gives one record per opportunity |
| Proposals.GrantsDataExtractor.ProcessXMLData | extract_proposals.py:156-184 | the merged data and the open subset, or nothing changed on error |
| Proposals.GrantsDataExtractor.SaveXMLData | extract_proposals.py:186-210 | the agency files, then the grants and open files |
| TitlesDb.SuffixKeys | extract_proposals_titles_db.py:13-17 | four keys per title |
| TitlesDb.SuffixKeyWords | extract_proposals_titles_db.py:13-17 | key `j` is the title without its first `j` words |
| TitlesDb.ShortTitleEmptyKey | extract_proposals_titles_db.py:13-17 | a title of at most three words stores the empty key |
| TitlesDb.WordsOfJoin | extract_proposals_titles_db.py:13-14 | splitting a space-joined list of words gives it back |
| TitlesDb.AddRowKeys | extract_proposals_titles_db.py:14-17 | a row adds exactly its keys, mapped to its number and agency, and keeps every other key |
| TitlesDb.AddRowsKeys | extract_proposals_titles_db.py:12-17 | the keys are exactly the old keys plus every row's suffix keys |
| TitlesDb.AddRowsSize | extract_proposals_titles_db.py:12-17 | at most four new keys per row |
| TitlesDb.LastWriterWins | extract_proposals_titles_db.py:12-17 | a key maps to the last row that wrote it |
| TitlesDb.UnwrittenKept | extract_proposals_titles_db.py:12-17 | a key no row writes keeps its value |
| TitlesDb.AddRowsValues | extract_proposals_titles_db.py:12-17 | every value is old or comes from a row |
| TitlesDb.TitlesDbShape | extract_proposals_titles_db.py:6-27 | every entry is "nih" or "nsf" with a number from that agency's table |
| TitlesDb.NsfWins | extract_proposals_titles_db.py:22-27 | an NSF title overwrites an NIH one with the same key |
| TitlesDb.BuildTitlesDb | extract_proposals_titles_db.py:6-27 | the two loops build the specified dictionary |
| Profiles.LastValueLast | user_profile_creation.py:28-32 | a JSON lookup finds the key's last occurrence, or nothing |
| Profiles.Strings | user_profile_creation.py:167-168 | joinable exactly when every item is a string |
| Profiles.JoinBarsSplits | user_profile_creation.py:167-168 | the "\|\|"-joined labels split back into the labels |
| Profiles.UserIdsExact | user_profile_creation.py:348-349 | the ids are exactly the records' present ids, in order |
| Profiles.GettersOnLists | user_profile_creation.py:159-184 | the keyword and organisation strings and the publication count of a well-formed record |
| Profiles.CountedLabels | user_profile_creation.py:208-214 | no list gives count 0 |
| Profiles.CountedLabelsExact | user_profile_creation.py:199-231 | labels are joined and counted exactly when every item has a string label; otherwise `(None, 0)` |
| Profiles.PositionLabelsShape | user_profile_creation.py:134-140 | the loop stops at the first position missing a label, so the courses are one ahead at most |
| Profiles.DepartmentInfo | user_profile_creation.py:129-143 | no positions gives `(None, None)`; otherwise both or neither |
| Profiles.PartialDepartments | user_profile_creation.py:134-141 | a position without a parent keeps its course and ends both lists |
| Profiles.PositionsPrefix | user_profile_creation.py:134-140 | how many courses and departments precede the failing position |
| Profiles.FallbackAsWritten | user_profile_creation.py:314-332 | fifteen rows of column names |
| Profiles.ProfileFrame | user_profile_creation.py:272-333 | one row for the user exactly when the record has a name and a title; otherwise none |
| Profiles.FallbackAddsRows | user_profile_creation.py:314-332 | a record without a name adds fifteen non-profile rows as written, none as intended |
| Profiles.ProfileRows | user_profile_creation.py:368-369 | at most one row per id (intended fallback) |
| Profiles.ProfileRowsShape | user_profile_creation.py:368-372 | every row is the profile of a requested id (intended fallback) |
| Profiles.ProfileRowsCons | user_profile_creation.py:368-369 | the first id raises, or contributes its frame before the rest (intended fallback) |
| Profiles.ProfileRowsComplete | user_profile_creation.py:368-372 | complete records give exactly one row per id, in order (intended fallback) |
| Profiles.LoopStep | user_profile_creation.py:368-369 | at each id, the rows and fields still to come: a non-string id raises `TypeError` with the fields untouched, a non-JSON answer raises `ValueError` after setting the URL, otherwise its frame is added and both fields are set |
| Profiles.FieldsAfterLast | user_profile_creation.py:62-84 | after a run in which every profile is fetched, the object holds the last id's URL and record |
| Profiles.CollectPositions | user_profile_creation.py:134-140 | the loop builds the specified label lists |
| Profiles.ExtractUserProfiles.constructor | user_profile_creation.py:39-60 | stores the profile URL and file name |
| Profiles.ExtractUserProfiles.ExtractInfo | user_profile_creation.py:62-84 | the URL is `url + user_id`; the record is replaced when the answer is JSON |
| Profiles.ExtractUserProfiles.GetLabelList | user_profile_creation.py:199-231 | the loop gives the specified joined labels and count |
| Profiles.ExtractUserProfiles.GetResearch | user_profile_creation.py:199-214 | joined research labels and their count |
| Profiles.ExtractUserProfiles.GetAwards | user_profile_creation.py:216-231 | joined award labels and their count |
| Profiles.ExtractUserProfiles.GetDepartmentInfo | user_profile_creation.py:120-143 | the specified courses and departments |
| Profiles.ExtractUserProfiles.GetProfile | user_profile_creation.py:272-333 | `ValueError` for an answer that is not JSON; otherwise the intended frame; the URL is always set and the record replaced exactly when the answer is JSON |
| Profiles.ExtractUserProfiles.ProfilesLoop | user_profile_creation.py:368-369 | the loop gives the frames of every id or the first exception, and leaves the fields as `get_profile` did for the last id it reached |
| Profiles.ExtractUserProfiles.ExtractProfiles | user_profile_creation.py:335-380 | `IndexError` with fewer than two ids, then the concatenated frames (intended fallback) or the first exception; the URL and record fields are untouched when it raises before its loop, and otherwise are those `get_profile` left for the last id it reached |
| Publications.IdsBeforeShape | extract_publications.py:68-69 | ids are collected up to the first entry without one |
| Publications.PublicationIdsExact | extract_publications.py:62-76 | an unparsable cell gives `[]`; a list of entries with ids gives those ids |
| Publications.MergeDictsLast | extract_publications.py:131 | the merged dictionary's keys come from every dictionary, with the last writer's value |
| Publications.UserPubDictLast | extract_publications.py:121-131 | each user maps to the ids of their last row |
| Publications.UserPubDictKeys | extract_publications.py:121-131 | the keys are exactly the users |
| Publications.PubListShape | extract_publications.py:136 | one pair per distinct user, holding the dictionary's value |
| Publications.UserPublications | extract_publications.py:78-110 | one row per publication id, or one row with no publication; all rows for the user |
| Publications.RowIdsAreIds | extract_publications.py:97-107 | the rows' ids are the requested ids, in order |
| Publications.Saved | extract_publications.py:144-183 | saved exactly when the frames exist and hold every selected column; then one line per row holding that row's values in the 23 selected columns, in order, NaN where a row lacks one |
| Publications.OtherKeysDropped | extract_publications.py:153-175 | keys of an answer outside the selected columns do not reach the saved line |
| Publications.NoPublicationsNotSaved | extract_publications.py:152-175 | when nobody has a publication the column selection raises |
| Publications.ExtractPublications.constructor | extract_publications.py:25-48 | 0 cores means every CPU |
| Publications.ExtractPublications.GetPublicationIds | extract_publications.py:50-76 | a one-key dictionary mapping the user to the ids |
| Publications.ExtractPublications.CreateUserPublicationData | extract_publications.py:78-110 | the loop gives the specified rows |
| Publications.ExtractPublications.CreateUnivPublicationData | extract_publications.py:112-142 | one frame per distinct user |
| Publications.ExtractPublications.SaveUserPublications | extract_publications.py:144-183 | the saved table, projected onto the selected columns, or the error |
| Analytical.UserKeywords | create_analytical_data.py:25-44 | a missing cell gives ""; otherwise the string splits back into the keyword tokens |
| Analytical.UserOKeywords | create_analytical_data.py:47-64 | the same for the overview tokens |
| Analytical.OrgTokensExact | create_analytical_data.py:119-125 | organisation tokens lose the extra stop words and keep the rest with their counts |
| Analytical.OrgTokensClean | create_analytical_data.py:119-125 | no organisation token holds a space |
| Analytical.UserOrgKeywords | create_analytical_data.py:106-125 | a missing cell gives ""; otherwise the string splits back into the organisation tokens |
| Analytical.PublicationDate | create_analytical_data.py:206-215 | NaN stays NaN; a date parses or raises |
| Analytical.InsertPub | create_analytical_data.py:217-220 | inserting into a newest-first list keeps it newest-first and adds exactly one element |
| Analytical.InsertPubStep | create_analytical_data.py:217-220 | one step of that insertion |
| Analytical.SortNewestFirst | create_analytical_data.py:217-220 | a newest-first permutation of the group |
| Analytical.GroupsShape | create_analytical_data.py:217-227 | one non-empty group per user, holding exactly that user's rows, newest first |
| Analytical.PubInfoOf | create_analytical_data.py:67-103 | an empty group raises `IndexError`; otherwise both cells are keyed by the user and are blank when a lookup fails |
| Analytical.TitleKeysExact | create_analytical_data.py:86-92 | a title key is exactly a Spacy keyword longer than three characters |
| Analytical.ListWordsMembers | create_analytical_data.py:96 | the words are exactly the space pieces of the listed keywords |
| Analytical.WordKeysExact | create_analytical_data.py:94-98 | a keyword key is exactly such a word longer than three characters |
| Analytical.MissingTitleBlanks | create_analytical_data.py:86-92 | a missing title among the top ones blanks both cells |
| Analytical.AnalyticalDataOk | create_analytical_data.py:198-256 | the table is built exactly when every publication date parses |
| Analytical.PairIds | create_analytical_data.py:229-242 | the pairs are keyed by the users in order |
| Analytical.PubInfoRows | create_analytical_data.py:236-244 | the inner merge has a row for exactly those users |
| Analytical.PubInfoIds | create_analytical_data.py:206-244 | exactly the users with a publication get a row |
| Analytical.SplitData | create_analytical_data.py:222-227 | the loop builds the specified groups |
| Analytical.AdTableExact | create_analytical_data.py:245-249 | the analytical table is exactly the user-id inner merge |
| Analytical.AnalyticalDataCreator.constructor | create_analytical_data.py:139-166 | 0 cores means every CPU |
| Analytical.AnalyticalDataCreator.CreateUserTokenData | create_analytical_data.py:168-196 | one token row per user |
| Analytical.AnalyticalDataCreator.CreatePublicationData | create_analytical_data.py:198-256 | the specified tables, or nothing changed on error |
| Ranker.FlattenTriples | model.py:24-33 | row-major layout of a list of triples |
| Ranker.ColumnNames | model.py:24-33 | fifteen names, `<channel>_<field>_sim`, channel-major |
| Ranker.Configure | model.py:42-75 | unknown agencies raise `KeyError`; each zero or empty argument takes its default |
| Ranker.FindProposal | model.py:77-104 | the first row with that number after `fillna`, or `IndexError` when none |
| Ranker.SectionKeysOf | model.py:106-132 | keywords longer than three characters; `TypeError` for an unknown generator |
| Ranker.ProposalKeys | model.py:106-132 | succeeds exactly for the three working generators |
| Ranker.Tasks | model.py:147-158 | one task per scholar |
| Ranker.SimilarityLists | model.py:147-158 | fifteen lists in column order |
| Ranker.ScoreLists | model.py:161-167 | each task is scored |
| Ranker.SimRowAt | model.py:169-175 | a row's fifteen scores in column order, the scholar's id and their sum as the total |
| Ranker.SimRows | model.py:169-175 | one row per scholar |
| Ranker.ScoreListsShape | model.py:147-167 | fifteen lists of one score per scholar |
| Ranker.Table | model.py:169-178 | one row per scholar |
| Ranker.TableLayout | model.py:169-178 | cell (r, 3c+f) is scholar r's cosine for channel c against field f |
| Ranker.SumRealsRange | model.py:178 | a sum of scores in [0, 100] is bounded |
| Ranker.TotalInRange | model.py:178 | every total lies in [0, 1500] |
| Ranker.Insert | model.py:180 | inserting adds one row |
| Ranker.InsertShape | model.py:180 | inserting keeps the order and adds exactly one row |
| Ranker.InsertStep | model.py:180 | one step of that insertion |
| Ranker.SortDesc | model.py:180 | sorting keeps the length |
| Ranker.SortDescShape | model.py:180 | a descending permutation |
| Ranker.PrefixIsTop | model.py:181-182 | the prefix of a descending list dominates the rest |
| Ranker.RankedIsTop | model.py:180-182 | the top k are the k highest totals, descending |
| Ranker.Select | model.py:185-188 | `KeyError` exactly when an id has no scholar row; otherwise only those ids |
| Ranker.SelectedIds | model.py:185-188 | each selected row has the id it was selected by |
| Ranker.SelectInOrder | model.py:185-188 | unique scholar rows are returned in ranking order |
| Ranker.StripQuotesExact | model.py:229 | removes exactly the quote characters, keeping the rest in order |
| Ranker.BuildRecords | model.py:225-234 | one record per row, in order |
| Ranker.TopScholarsCount | model.py:134-190 | min(k, n) scholars in ranking order |
| Ranker.TopScholarIdentifier.constructor | model.py:42-75 | stores the configuration |
| Ranker.TopScholarIdentifier.ReadData | model.py:77-104 | the tables and the found proposal, or `IndexError` |
| Ranker.TopScholarIdentifier.GetSectionKeys | model.py:106-132 | the specified section keys |
| Ranker.TopScholarIdentifier.BuildSimilarityLists | model.py:147-158 | the loops build the fifteen lists |
| Ranker.TopScholarIdentifier.ComputeScores | model.py:161-167 | the loop scores every list |
| Ranker.TopScholarIdentifier.GetTopScholars | model.py:134-190 | the sorted table, the top ids and the selected scholars |
| Ranker.Recommend | model.py:193-247 | no configuration exits; otherwise the configuration error, the pipeline's error, or one record per recommended scholar |
| RecommendScholars.DefaultArgs | recommend_scholars.py:197-239 | the command-line defaults: `config.yml`, top 0, no proposal id, the `Spacy` generator, 0 cores |
| RecommendScholars.ParseAgency | recommend_scholars.py:228-238 | an agency outside the choices exits |
| RecommendScholars.Run | recommend_scholars.py:192-274 | the specified command-line outcome; a configuration that cannot be loaded raises `NameError`, because `sys` is never imported |
| RecommendScholars.AgencyAlwaysKnown | recommend_scholars.py:228-238 | an accepted agency that fails the configuration has no data file |

## Left out

- NLP libraries are parameters of the model. spaCy's tagger, NLTK's
  stop-word list, the lemmatiser, RAKE's ranking and YAKE's scoring are
  supplied by the caller.
- `word_tokenize` is modelled as `str.split()`. It only ever sees
  `[a-z0-9 ]` text here, so the contraction splitting it would do there is
  left out.
- `str.lower` lowers ASCII letters only.
- `Cosine.CounterCosine`: does not compute the floating-point score. The
  score is kept as an exact integer dot product and two squared norms. A
  real `v` is the score when `v ≥ 0` and `v² · ‖a‖² · ‖b‖² = 10000 · dot²`.
  The ranking takes the score through a `value` function with that
  property. Floating-point rounding is not modelled.
- `Ranker.SortDesc`: pandas' sort is not stable, so the order among equal
  totals is not modelled. The contract states only descending order and
  permutation.
- **I/O is abstracted.** HTTP requests, BeautifulSoup parsing, reading and
  writing CSV, YAML and JSON, zip extraction and `os` calls become function
  parameters (`fetch`, `parse`, `dumps`). Saved files are modelled as the
  values that would be written. In particular `get_request`
  (extract_publications.py:100) and `extract_json` (user_profile_creation.py:53,
  :345) are the `fetch` parameters, and `save_pandas_to_csv`
  (user_profile_creation.py:374, create_analytical_data.py:251,
  recommend_scholars.py:269) is the returned table.
- The second request inside the NSF `get_response` is folded into the
  `fetch` parameter.
- `multiprocessing.Pool` is modelled as a sequential map. `parallelize`
  keeps input order.
- The BERT and gensim generators are reachable through `get_keys`; their
  bodies are not modelled beyond the error they raise, as `GetKeys` states.
- **Dead code.** `stemming` and `remove_punctuation` are never called, so
  they are not modelled.
- `Analytical.SortNewestFirst`: pandas' default sort is not stable, so the
  order among publications with equal dates is not modelled. `GroupOf` and
  `TitlesOf` inherit this: which titles are the first `topN` among equal
  dates is not determined by the model.
- `Helpers.UrlSub`: `\w` and `\S` are treated as ASCII classes. Python 3
  treats them as Unicode, so on text such as `café_x://y` the model and the
  source can differ.
- `Publications.RecordOf`: one `None` answer of `fetch` stands for both a
  request that raises in `get_request` (uncaught, so the script ends) and an
  answer that is not JSON (caught, recorded as `{"id": idx}`); the model
  covers only the second outcome.
- `Analytical.AnalyticalDataCreator.constructor`: the source looks up the
  extra stop words with the module-level `args.univ_name`
  (create_analytical_data.py:166), which exists only when the file is run as
  a script, not with its own `univ_name` argument. The model takes the stop
  words as the parameter `extraStopwords`, which matches a run of the script.
- `Publications.Saved`: an answer with its own `user_id` key would make the
  concatenated table hold two `user_id` columns; the model's `user_id` cell
  is always the scholar's id.
- `Markup.FinalTable`, `Analytical.AdTable`: a NaN URL or NaN `User_id` key
  is not representable, so the pandas behaviour of matching NaN with NaN in
  a merge is not modelled.
- The simple getters `get_name`, `get_email`, `get_title`, `get_overview`,
  `get_netid`, `get_department` and `get_publications` are lookups, folded
  into `Profiles.ProfileOf`. `get_department` is never called.
- `get_top_scholars` ignores its `ntop_` argument and uses `top_k`, as the
  model does.
- `set` iteration order: `list(set(...))` is modelled by first-appearance
  order.
- Non-scalar pandas cells and JSON floats are not modelled.
- The NSF title is processed and then discarded by the merge's column
  projection, which the model keeps.
- `TitlesDb`: the final `json.dumps` and the autocomplete comment are left
  out.
- `app.py` and `main_extractor.py` are not part of this model.

## Findings

| source | as written | input that shows it | evidently intended | confidence | as-written member | corrected member |
|---|---|---|---|---|---|---|
| Agency_proposal_extractor/NIH_Extractor.py:80-105 | when the first `findAll(...)[1]` raises, the handler returns `dept`, which is unbound; the `UnboundLocalError` escapes to `extract_page_info`, which returns an all-NaN row | a page that answers 200 with fewer than two `col-md-8 datacolumn` divs | the organisation is missing, and the description is still extracted | not executed | Nih.AsWrittenLosesDescription | Nih.PageRowOf |
| user_profile_creation.py:314-332 | the fallback `pd.DataFrame({'columns': [...]})` is a fifteen-row frame of column names, which is concatenated into the scholars table | a scholar record with no `name` key | an empty frame with those columns, adding no row | not executed | Profiles.FallbackAddsRows | Profiles.ProfileFrame |

=== FILE: analytical.dfy ===
/** create_analytical_data.py: builds the analytical dataset the ranker
  * reads. Each scholar's profile keywords, overview and organisation become
  * space-separated tokens; each scholar's publications, newest first, give
  * keywords from the titles and from the publication keyword lists; the two
  * tables are joined on the user id, so only scholars with publications
  * remain. */
module Analytical {
  import opened Wrappers
  import opened Text
  import opened Seqs
  import Helpers

  /** A row of the scholars table: the id and the profile cells (`None` for NaN). */
  datatype UserRow = UserRow(userId: string, netid: Option<string>, email: Option<string>,
                             keywords: Option<string>, overview: Option<string>,
                             organizations: Option<string>)

  /** A row of `sub_df`: the id columns and the three token texts. */
  datatype SubRow = SubRow(userId: string, netid: Option<string>, email: Option<string>,
                           keywords: string, overview: string, organization: string)

  /** A row of the publications table; `keywords` holds the text of a Python list of phrases. */
  datatype PubRow = PubRow(userId: string, publicationDate: Option<string>,
                           title: Option<string>, keywords: Option<string>)

  /** A row of `pub_info`. */
  datatype PubInfo = PubInfo(userId: string, pubKeyword: string, pubTitle: string)

  /** A row of the analytical dataset: the scholar's tokens and publication keywords. */
  datatype AnalyticalRow = AnalyticalRow(user: SubRow, pubKeyword: string, pubTitle: string)

  // ---------------------------------------------------------------------
  // Profile tokens

  /** The tokens of a `||`-separated keyword list. */
  function KeywordTokens(userKey: string, nlp: Helpers.Nlp): seq<string>
  {
    Helpers.Tokens(Join(" ", Split(userKey, "||")), 3, nlp)
  }

  /** `user_keywords`: the keywords joined with spaces instead of `||`,
    * tokenized, and joined with spaces; an empty cell gives "". */
  function UserKeywords(userKey: Option<string>, nlp: Helpers.Nlp): (r: string)
    ensures userKey.None? ==> r == ""
    ensures userKey.Some? && Helpers.NoSpaceLemmas(nlp) ==> Helpers.StoredAs(r, KeywordTokens(userKey.value, nlp))
  {
    match userKey
    case None => ""
    case Some(key) =>
      var ts := KeywordTokens(key, nlp);
      Helpers.TokensClean(Join(" ", Split(key, "||")), 3, nlp);
      Helpers.JoinStored(ts);
      Join(" ", ts)
  }

  /** `user_o_keywords`: the overview tokenized and joined with spaces; an empty cell gives "". */
  function UserOKeywords(overview: Option<string>, nlp: Helpers.Nlp): (r: string)
    ensures overview.None? ==> r == ""
    ensures overview.Some? && Helpers.NoSpaceLemmas(nlp) ==> Helpers.StoredAs(r, Helpers.Tokens(overview.value, 3, nlp))
  {
    match overview
    case None => ""
    case Some(text) =>
      var ts := Helpers.Tokens(text, 3, nlp);
      Helpers.TokensClean(text, 3, nlp);
      Helpers.JoinStored(ts);
      Join(" ", ts)
  }

  function NotExtra(extraStopwords: seq<string>): string -> bool
  {
    (t: string) => t !in extraStopwords
  }

  /** The organisation tokens that are not university-specific stop words. */
  function OrgTokens(organisation: string, extraStopwords: seq<string>, nlp: Helpers.Nlp): seq<string>
  {
    Filter(NotExtra(extraStopwords), Helpers.Tokens(organisation, 3, nlp))
  }

  /** The filter drops exactly the extra stop words and keeps every other
    * token as often as tokenize produced it. */
  lemma OrgTokensExact(organisation: string, extraStopwords: seq<string>, nlp: Helpers.Nlp, t: string)
    ensures multiset(OrgTokens(organisation, extraStopwords, nlp))[t]
            == if t in extraStopwords then 0 else multiset(Helpers.Tokens(organisation, 3, nlp))[t]
  {
    FilterCount(NotExtra(extraStopwords), Helpers.Tokens(organisation, 3, nlp), t);
  }

  lemma OrgTokensClean(organisation: string, extraStopwords: seq<string>, nlp: Helpers.Nlp)
    ensures (forall j :: 0 <= j < |Helpers.Tokens(organisation, 3, nlp)| ==> Clean(Helpers.Tokens(organisation, 3, nlp)[j], " "))
            ==> forall j :: 0 <= j < |OrgTokens(organisation, extraStopwords, nlp)| ==> Clean(OrgTokens(organisation, extraStopwords, nlp)[j], " ")
  {
    var ts := OrgTokens(organisation, extraStopwords, nlp);
    forall j | 0 <= j < |ts| ensures ts[j] in Helpers.Tokens(organisation, 3, nlp) {
      FilterMembers(NotExtra(extraStopwords), Helpers.Tokens(organisation, 3, nlp), ts[j]);
    }
  }

  /** `user_org_keywords`: the organisation's tokens minus the extra stop
    * words, joined with spaces; an empty cell gives "". */
  function UserOrgKeywords(organisation: Option<string>, extraStopwords: seq<string>, nlp: Helpers.Nlp): (r: string)
    ensures organisation.None? ==> r == ""
    ensures organisation.Some? && Helpers.NoSpaceLemmas(nlp)
            ==> Helpers.StoredAs(r, OrgTokens(organisation.value, extraStopwords, nlp))
  {
    match organisation
    case None => ""
    case Some(text) =>
      var ts := OrgTokens(text, extraStopwords, nlp);
      Helpers.TokensClean(text, 3, nlp);
      OrgTokensClean(text, extraStopwords, nlp);
      Helpers.JoinStored(ts);
      Join(" ", ts)
  }

  /** The `sub_df` row of a scholar. */
  function SubRowOf(u: UserRow, extraStopwords: seq<string>, nlp: Helpers.Nlp): SubRow
  {
    SubRow(u.userId, u.netid, u.email, UserKeywords(u.keywords, nlp), UserOKeywords(u.overview, nlp),
           UserOrgKeywords(u.organizations, extraStopwords, nlp))
  }

  function SubRowFor(extraStopwords: seq<string>, nlp: Helpers.Nlp): UserRow -> SubRow
  {
    (u: UserRow) => SubRowOf(u, extraStopwords, nlp)
  }

  // ---------------------------------------------------------------------
  // Publications, newest first

  /** A publication with its parsed date (`None` for NaN). */
  type DatedPub = (PubRow, Option<int>)

  /** `get_datetime(date, False)`: NaN stays NaN; any other text is parsed
    * with the fixed format and raises `ValueError` when it does not match. */
  function PublicationDate(cell: Option<string>, parse: string -> Option<int>): (r: Result<Option<int>>)
    ensures cell.None? ==> r == Ok(None)
    ensures r.Err? <==> cell.Some? && parse(cell.value).None?
    ensures r.Ok? && cell.Some? ==> r.value == parse(cell.value)
  {
    match cell
    case None => Ok(None)
    case Some(text) =>
      match parse(text)
      case None => Err(ValueError)
      case Some(d) => Ok(Some(d))
  }

  function DateOf(parse: string -> Option<int>): PubRow -> Result<Option<int>>
  {
    (p: PubRow) => PublicationDate(p.publicationDate, parse)
  }

  /** `sort_values('publication_dt', ascending=False)` puts `a` no later than `b`. */
  predicate NewerOrSame(a: Option<int>, b: Option<int>)
  {
    b.None? || (a.Some? && a.value >= b.value)
  }

  predicate NewestFirst(xs: seq<DatedPub>)
  {
    forall i, j :: 0 <= i < j < |xs| ==> NewerOrSame(xs[i].1, xs[j].1)
  }

  function InsertPub(x: DatedPub, sorted: seq<DatedPub>): (r: seq<DatedPub>)
    requires NewestFirst(sorted)
    ensures |r| == |sorted| + 1
    ensures NewestFirst(r)
    ensures multiset(r) == multiset(sorted) + multiset{x}
  {
    if sorted == [] || NewerOrSame(x.1, sorted[0].1) then
      [x] + sorted
    else
      var rest := InsertPub(x, sorted[1..]);
      InsertPubStep(x, sorted, rest);
      [sorted[0]] + rest
  }

  lemma InsertPubStep(x: DatedPub, sorted: seq<DatedPub>, rest: seq<DatedPub>)
    requires sorted != [] && NewestFirst(sorted) && !NewerOrSame(x.1, sorted[0].1)
    requires NewestFirst(rest) && multiset(rest) == multiset(sorted[1..]) + multiset{x}
    ensures NewestFirst([sorted[0]] + rest)
    ensures multiset([sorted[0]] + rest) == multiset(sorted) + multiset{x}
  {
    assert sorted == [sorted[0]] + sorted[1..];
    forall j | 0 <= j < |rest| ensures NewerOrSame(sorted[0].1, rest[j].1) {
      assert rest[j] in multiset(rest);
      if rest[j] != x {
        assert rest[j] in sorted[1..];
        var i :| 0 <= i < |sorted[1..]| && sorted[1..][i] == rest[j];
        assert sorted[i + 1] == rest[j];
      }
    }
    var r := [sorted[0]] + rest;
    forall i, j | 0 <= i < j < |r| ensures NewerOrSame(r[i].1, r[j].1) {
      if i > 0 {
        assert r[i] == rest[i - 1] && r[j] == rest[j - 1];
      } else {
        assert r[j] == rest[j - 1];
      }
    }
  }

  /** A scholar's publications, newest first, undated ones last. The order
    * among equal dates is not modelled. */
  function SortNewestFirst(xs: seq<DatedPub>): (r: seq<DatedPub>)
    ensures |r| == |xs|
    ensures NewestFirst(r)
    ensures multiset(r) == multiset(xs)
  {
    if xs == [] then []
    else
      assert xs == [xs[0]] + xs[1..];
      InsertPub(xs[0], SortNewestFirst(xs[1..]))
  }

  function IdOf(d: DatedPub): string { d.0.userId }

  function OfUser(id: string): DatedPub -> bool
  {
    (d: DatedPub) => d.0.userId == id
  }

  /** `article_data.loc[id]`: the scholar's publications, sorted. */
  function GroupOf(rows: seq<DatedPub>, id: string): seq<DatedPub>
  {
    SortNewestFirst(Filter(OfUser(id), rows))
  }

  /** `pub_df["user_id"].unique()`. */
  function UserIds(rows: seq<DatedPub>): seq<string>
  {
    Distinct(Map(IdOf, rows))
  }

  function GroupAt(rows: seq<DatedPub>): string -> seq<DatedPub>
  {
    (id: string) => GroupOf(rows, id)
  }

  /** `split_data`: one group per user id, in order of first appearance. */
  function Groups(rows: seq<DatedPub>): seq<seq<DatedPub>>
  {
    Map(GroupAt(rows), UserIds(rows))
  }

  /** Every group is non-empty, holds exactly its scholar's publications
    * (each as often as in the table), and is newest first. */
  lemma GroupsShape(rows: seq<DatedPub>, i: nat)
    requires i < |UserIds(rows)|
    ensures |Groups(rows)| == |UserIds(rows)|
    ensures Groups(rows)[i] != []
    ensures forall d :: d in Groups(rows)[i] ==> IdOf(d) == UserIds(rows)[i]
    ensures multiset(Groups(rows)[i]) == multiset(Filter(OfUser(UserIds(rows)[i]), rows))
    ensures NewestFirst(Groups(rows)[i])
  {
    var id := UserIds(rows)[i];
    var g := Groups(rows)[i];
    assert g == GroupOf(rows, id);
    var ids := Map(IdOf, rows);
    assert id in ids;
    var j :| 0 <= j < |ids| && ids[j] == id;
    FilterMembers(OfUser(id), rows, rows[j]);
    assert rows[j] in multiset(g);
    forall d | d in g ensures IdOf(d) == id {
      assert d in multiset(Filter(OfUser(id), rows));
      FilterMembers(OfUser(id), rows, d);
    }
  }

  // ---------------------------------------------------------------------
  // get_author_pubinfo

  /** The default number of titles used. */
  const TopN: int := 5

  /** The title cells used: the first `top_n` of the sorted group, or all of them. */
  function TitlesOf(group: seq<DatedPub>, topN: int, topTitle: bool): seq<Option<string>>
  {
    var used := if topTitle then group[..SliceEnd(|group|, topN)] else group;
    Map((d: DatedPub) => d.0.title, used)
  }

  /** `get_keys(text, generator="Spacy", ntop=top_n)`. */
  function SpacyKeys(text: string, topN: int, lib: Helpers.KeywordLibrary): seq<string>
  {
    match Helpers.GetKeys(text, 1, topN, "Spacy", lib)
    case Keys(ks) => ks
    case _ => []
  }

  /** The title keys: the Spacy keywords of the joined titles longer than
    * three characters, once each; `None` when a title cell is NaN (the join raises). */
  function TitleKeys(titles: seq<Option<string>>, topN: int, lib: Helpers.KeywordLibrary): Option<seq<string>>
  {
    match AllSome(titles)
    case None => None
    case Some(ts) => Some(Distinct(Helpers.LongTokens(SpacyKeys(Join(" ", ts), topN, lib), 3)))
  }

  function SplitOnSpace(phrase: string): seq<string> { Split(phrase, " ") }

  /** The words of the keyword lists: each phrase split on spaces. */
  function ListWords(lists: seq<seq<string>>): seq<string>
  {
    Flatten(Map(SplitOnSpace, Flatten(lists)))
  }

  /** The publication keys: the words of every keyword list longer than
    * three characters, once each; `None` when a cell is no list literal
    * (`literal_eval` raises). */
  function WordKeys(cells: seq<Option<string>>, literalEval: string -> Option<seq<string>>): Option<seq<string>>
  {
    match AllSome(Map(literalEval, Present(cells)))
    case None => None
    case Some(lists) => Some(Distinct(Helpers.LongTokens(ListWords(lists), 3)))
  }

  function KeywordCellOf(d: DatedPub): Option<string> { d.0.keywords }

  /** `({user: title_keys}, {user: word_keys})`. */
  type PubPair = ((string, string), (string, string))

  /** `get_author_pubinfo(scholar_df, i, top_n, top_title)`: the user id is
    * read before the `try`, so an empty group raises `IndexError`; any
    * failure inside gives "" for both texts. */
  function PubInfoOf(group: seq<DatedPub>, topN: int, topTitle: bool, lib: Helpers.KeywordLibrary,
                     literalEval: string -> Option<seq<string>>): (r: Result<PubPair>)
    ensures r.Err? <==> group == []
    ensures r.Err? ==> r.error == IndexError
    ensures r.Ok? ==> r.value.0.0 == IdOf(group[0]) && r.value.1.0 == IdOf(group[0])
    ensures r.Ok? && (TitleKeys(TitlesOf(group, topN, topTitle), topN, lib).None?
                      || WordKeys(Map(KeywordCellOf, group), literalEval).None?)
            ==> r.value.0.1 == "" && r.value.1.1 == ""
    ensures r.Ok? && TitleKeys(TitlesOf(group, topN, topTitle), topN, lib).Some?
                  && WordKeys(Map(KeywordCellOf, group), literalEval).Some?
            ==> r.value.0.1 == Join(" ", TitleKeys(TitlesOf(group, topN, topTitle), topN, lib).value)
                && r.value.1.1 == Join(" ", WordKeys(Map(KeywordCellOf, group), literalEval).value)
  {
    if group == [] then Err(IndexError)
    else
      var user := IdOf(group[0]);
      match (TitleKeys(TitlesOf(group, topN, topTitle), topN, lib), WordKeys(Map(KeywordCellOf, group), literalEval))
      case (Some(titleKeys), Some(wordKeys)) => Ok(((user, Join(" ", titleKeys)), (user, Join(" ", wordKeys))))
      case _ => Ok(((user, ""), (user, "")))
  }

  /** The title keys are distinct (they come from a set); a text is one
    * exactly when it is a Spacy keyword of the joined titles longer than
    * three characters. */
  lemma TitleKeysExact(titles: seq<Option<string>>, topN: int, lib: Helpers.KeywordLibrary, k: string)
    requires TitleKeys(titles, topN, lib).Some?
    ensures k in TitleKeys(titles, topN, lib).value
            <==> |k| > 3 && k in SpacyKeys(Join(" ", AllSome(titles).value), topN, lib)
  {
    var spacy := SpacyKeys(Join(" ", AllSome(titles).value), topN, lib);
    Helpers.RemoveLettersExact(spacy, [], 3, k);
    assert k in Helpers.LongTokens(spacy, 3) <==> multiset(Helpers.LongTokens(spacy, 3))[k] > 0;
  }

  /** The words of the keyword lists. */
  lemma {:induction false} ListWordsMembers(lists: seq<seq<string>>, k: string)
    ensures k in ListWords(lists) <==> exists p :: p in Flatten(lists) && k in Split(p, " ")
  {
    var phrases := Flatten(lists);
    var pieces := Map(SplitOnSpace, phrases);
    FlattenMembers(pieces, k);
    if k in ListWords(lists) {
      var i :| 0 <= i < |pieces| && k in pieces[i];
      assert phrases[i] in phrases && k in Split(phrases[i], " ");
    }
    if exists p :: p in phrases && k in Split(p, " ") {
      var p :| p in phrases && k in Split(p, " ");
      var i :| 0 <= i < |phrases| && phrases[i] == p;
      assert k in pieces[i];
    }
  }

  /** The publication keys are distinct; a text is one exactly when it is a
    * word, longer than three characters, of a phrase of the keyword lists. */
  lemma WordKeysExact(cells: seq<Option<string>>, literalEval: string -> Option<seq<string>>, k: string)
    requires WordKeys(cells, literalEval).Some?
    ensures var lists := AllSome(Map(literalEval, Present(cells))).value;
            k in WordKeys(cells, literalEval).value
            <==> |k| > 3 && exists p :: p in Flatten(lists) && k in Split(p, " ")
  {
    var lists := AllSome(Map(literalEval, Present(cells))).value;
    var words := ListWords(lists);
    Helpers.RemoveLettersExact(words, [], 3, k);
    assert k in Helpers.LongTokens(words, 3) <==> multiset(Helpers.LongTokens(words, 3))[k] > 0;
    ListWordsMembers(lists, k);
  }

  /** A publication with a NaN title among the newest `top_n` blanks both
    * texts, even when its keyword lists are fine. */
  lemma MissingTitleBlanks(group: seq<DatedPub>, topN: int, lib: Helpers.KeywordLibrary,
                           literalEval: string -> Option<seq<string>>, i: nat)
    requires i < |group| && i < topN && group[i].0.title.None?
    ensures PubInfoOf(group, topN, true, lib, literalEval) == Ok(((IdOf(group[0]), ""), (IdOf(group[0]), "")))
  {
    var titles := TitlesOf(group, topN, true);
    assert titles[i].None?;
  }

  // ---------------------------------------------------------------------
  // Joining the tables

  function KeyRow(p: PubPair): (string, string) { p.1 }
  function TitleRow(p: PubPair): (string, string) { p.0 }
  function RowKey(row: (string, string)): string { row.0 }

  function InfoOf(m: ((string, string), (string, string))): PubInfo
  {
    PubInfo(m.0.0, m.0.1, m.1.1)
  }

  /** `pub_info`: `key_df` and `title_df` merged on the user id. */
  function PubInfoTable(pairs: seq<PubPair>): seq<PubInfo>
  {
    Map(InfoOf, Helpers.MergeDatabases(Map(KeyRow, pairs), Map(TitleRow, pairs), RowKey, RowKey))
  }

  function SubId(s: SubRow): string { s.userId }
  function InfoId(p: PubInfo): string { p.userId }

  function RowOf(m: (SubRow, PubInfo)): AnalyticalRow
  {
    AnalyticalRow(m.0, m.1.pubKeyword, m.1.pubTitle)
  }

  /** `ad`: `sub_df` and `pub_info` merged on the user id. */
  function AdTable(sub: seq<SubRow>, info: seq<PubInfo>): seq<AnalyticalRow>
  {
    Map(RowOf, Helpers.MergeDatabases(sub, info, SubId, InfoId))
  }

  function InfoOfGroup(topN: int, topTitle: bool, lib: Helpers.KeywordLibrary,
                       literalEval: string -> Option<seq<string>>): seq<DatedPub> -> Result<PubPair>
  {
    (g: seq<DatedPub>) => PubInfoOf(g, topN, topTitle, lib, literalEval)
  }

  /** `create_publication_data` from `sub_df` and the publications table:
    * `pub_info` and the analytical rows, or the exception that stops it. */
  function AnalyticalData(sub: seq<SubRow>, pubs: seq<PubRow>, parse: string -> Option<int>,
                          lib: Helpers.KeywordLibrary, literalEval: string -> Option<seq<string>>)
    : Result<(seq<PubInfo>, seq<AnalyticalRow>)>
  {
    match Collect(Map(DateOf(parse), pubs))
    case Err(e) => Err(e)
    case Ok(dates) =>
      var groups := Groups(Helpers.Zip(pubs, dates));
      match Collect(Map(InfoOfGroup(TopN, true, lib, literalEval), groups))
      case Err(e) => Err(e)
      case Ok(pairs) =>
        var info := PubInfoTable(pairs);
        Ok((info, AdTable(sub, info)))
  }

  /** The dataset is built exactly when every publication date parses: the
    * groups are never empty, so `get_author_pubinfo` never raises. */
  lemma AnalyticalDataOk(sub: seq<SubRow>, pubs: seq<PubRow>, parse: string -> Option<int>,
                         lib: Helpers.KeywordLibrary, literalEval: string -> Option<seq<string>>)
    ensures AnalyticalData(sub, pubs, parse, lib, literalEval).Ok?
            <==> forall i :: 0 <= i < |pubs| ==> PublicationDate(pubs[i].publicationDate, parse).Ok?
  {
    var dated := Collect(Map(DateOf(parse), pubs));
    if dated.Ok? {
      var rows := Helpers.Zip(pubs, dated.value);
      var groups := Groups(rows);
      forall i | 0 <= i < |groups| ensures InfoOfGroup(TopN, true, lib, literalEval)(groups[i]).Ok? {
        GroupsShape(rows, i);
      }
    }
  }

  /** `get_author_pubinfo` labels each group's texts with the group's user id. */
  lemma PairIds(rows: seq<DatedPub>, pairs: seq<PubPair>, lib: Helpers.KeywordLibrary,
                literalEval: string -> Option<seq<string>>)
    requires Collect(Map(InfoOfGroup(TopN, true, lib, literalEval), Groups(rows))) == Ok(pairs)
    ensures |pairs| == |UserIds(rows)|
    ensures forall i :: 0 <= i < |pairs| ==> pairs[i].0.0 == UserIds(rows)[i] && pairs[i].1.0 == UserIds(rows)[i]
  {
    var ids := UserIds(rows);
    var groups := Groups(rows);
    forall i | 0 <= i < |pairs| ensures pairs[i].0.0 == ids[i] && pairs[i].1.0 == ids[i] {
      GroupsShape(rows, i);
      assert groups[i][0] in groups[i];
      assert pairs[i] == PubInfoOf(groups[i], TopN, true, lib, literalEval).value;
    }
  }

  /** Merging `key_df` with `title_df` keeps one row per group, since the ids are distinct. */
  lemma PubInfoRows(ids: seq<string>, pairs: seq<PubPair>, id: string)
    requires |pairs| == |ids|
    requires forall i :: 0 <= i < |pairs| ==> pairs[i].0.0 == ids[i] && pairs[i].1.0 == ids[i]
    ensures (exists p :: p in PubInfoTable(pairs) && p.userId == id) <==> id in ids
  {
    var keys := Map(KeyRow, pairs);
    var titles := Map(TitleRow, pairs);
    var merged := Helpers.MergeDatabases(keys, titles, RowKey, RowKey);
    if exists p :: p in PubInfoTable(pairs) && p.userId == id {
      var p :| p in PubInfoTable(pairs) && p.userId == id;
      var m :| 0 <= m < |merged| && InfoOf(merged[m]) == p;
      Helpers.MergeMembers(keys, titles, RowKey, RowKey, merged[m]);
      var i :| 0 <= i < |keys| && keys[i] == merged[m].0;
      assert id == ids[i];
    }
    if id in ids {
      var g :| 0 <= g < |ids| && ids[g] == id;
      var m := (keys[g], titles[g]);
      Helpers.MergeMembers(keys, titles, RowKey, RowKey, m);
      var n :| 0 <= n < |merged| && merged[n] == m;
      assert PubInfoTable(pairs)[n] == InfoOf(m);
    }
  }

  /** `pub_info` has a row for a user id exactly when the publications table has one. */
  lemma PubInfoIds(pubs: seq<PubRow>, dates: seq<Option<int>>, pairs: seq<PubPair>, lib: Helpers.KeywordLibrary,
                   literalEval: string -> Option<seq<string>>, id: string)
    requires |dates| == |pubs|
    requires Collect(Map(InfoOfGroup(TopN, true, lib, literalEval), Groups(Helpers.Zip(pubs, dates)))) == Ok(pairs)
    ensures (exists p :: p in PubInfoTable(pairs) && p.userId == id) <==> exists i :: 0 <= i < |pubs| && pubs[i].userId == id
  {
    var rows := Helpers.Zip(pubs, dates);
    PairIds(rows, pairs, lib, literalEval);
    PubInfoRows(UserIds(rows), pairs, id);
    var ids := Map(IdOf, rows);
    if id in ids {
      var j :| 0 <= j < |rows| && ids[j] == id;
      assert pubs[j].userId == id;
    }
    if exists i :: 0 <= i < |pubs| && pubs[i].userId == id {
      var i :| 0 <= i < |pubs| && pubs[i].userId == id;
      assert ids[i] == id;
    }
  }

  /** `split_data`: the loop over the unique user ids, one group each. */
  method SplitData(rows: seq<DatedPub>) returns (splitData: seq<seq<DatedPub>>)
    ensures splitData == Groups(rows)
  {
    var ids := UserIds(rows);
    splitData := [];
    var i := 0;
    while i < |ids|
      invariant 0 <= i <= |ids|
      invariant splitData == Map(GroupAt(rows), ids[..i])
    {
      assert ids[..i + 1] == ids[..i] + [ids[i]];
      splitData := splitData + [GroupOf(rows, ids[i])];
      i := i + 1;
    }
    assert ids[..i] == ids;
  }

  /** A row of the dataset is a `sub_df` row with a `pub_info` row of the
    * same id, and every such combination is a row: a scholar without
    * publications is left out. */
  lemma AdTableExact(sub: seq<SubRow>, info: seq<PubInfo>, s: SubRow, pubKeyword: string, pubTitle: string)
    ensures AnalyticalRow(s, pubKeyword, pubTitle) in AdTable(sub, info)
            <==> s in sub && PubInfo(s.userId, pubKeyword, pubTitle) in info
  {
    var merged := Helpers.MergeDatabases(sub, info, SubId, InfoId);
    var row := AnalyticalRow(s, pubKeyword, pubTitle);
    if row in AdTable(sub, info) {
      var n :| 0 <= n < |merged| && RowOf(merged[n]) == row;
      Helpers.MergeMembers(sub, info, SubId, InfoId, merged[n]);
    }
    if s in sub && PubInfo(s.userId, pubKeyword, pubTitle) in info {
      var m := (s, PubInfo(s.userId, pubKeyword, pubTitle));
      Helpers.MergeMembers(sub, info, SubId, InfoId, m);
      var n :| 0 <= n < |merged| && merged[n] == m;
      assert AdTable(sub, info)[n] == row;
    }
  }

  // ---------------------------------------------------------------------
  // Analytical_Data_Creator

  class AnalyticalDataCreator {
    const nCores: int
    const extraStopwords: seq<string>
    const nlp: Helpers.Nlp
    const userDf: seq<UserRow>
    const pubDf: seq<PubRow>
    var subDf: Option<seq<SubRow>>
    var pubInfo: seq<PubInfo>
    var ad: seq<AnalyticalRow>

    /** `__init__`: `n_cores` 0 means the configured CPU count; the tables
      * and the university's stop words are read from the configuration. */
    constructor(nCores: int, cpuCount: int, extraStopwords: seq<string>, nlp: Helpers.Nlp,
                userDf: seq<UserRow>, pubDf: seq<PubRow>)
      ensures this.nCores == if nCores == 0 then cpuCount else nCores
      ensures this.extraStopwords == extraStopwords && this.nlp == nlp
      ensures this.userDf == userDf && this.pubDf == pubDf
      ensures subDf.None? && pubInfo == [] && ad == []
    {
      this.nCores := if nCores == 0 then cpuCount else nCores;
      this.extraStopwords := extraStopwords;
      this.nlp := nlp;
      this.userDf := userDf;
      this.pubDf := pubDf;
      subDf := None;
      pubInfo := [];
      ad := [];
    }

    /** `create_user_token_data`: the three token columns, computed cell by
      * cell, next to the id columns. */
    method CreateUserTokenData()
      modifies this`subDf
      ensures subDf == Some(Map(SubRowFor(extraStopwords, nlp), userDf))
    {
      var labels := seq(|userDf|, i => i);
      var userTokens := Helpers.CreateTokens(Map((u: UserRow) => u.keywords, userDf), labels,
                                             (p: (Option<string>, int)) => UserKeywords(p.0, nlp), nCores);
      var overviewTokens := Helpers.CreateTokens(Map((u: UserRow) => u.overview, userDf), labels,
                                                 (p: (Option<string>, int)) => UserOKeywords(p.0, nlp), nCores);
      var orgTokens := Helpers.CreateTokens(Map((u: UserRow) => u.organizations, userDf), labels,
                                            (p: (Option<string>, int)) => UserOrgKeywords(p.0, extraStopwords, nlp), nCores);
      var rows := seq(|userDf|, i requires 0 <= i < |userDf| =>
        SubRow(userDf[i].userId, userDf[i].netid, userDf[i].email, userTokens[i], overviewTokens[i], orgTokens[i]));
      assert forall i :: 0 <= i < |userDf| ==> rows[i] == SubRowOf(userDf[i], extraStopwords, nlp);
      assert rows == Map(SubRowFor(extraStopwords, nlp), userDf);
      subDf := Some(rows);
    }

    /** `create_publication_data`: dates, groups of publications newest
      * first, one `get_author_pubinfo` call per group, and the two inner
      * joins. An unparseable date raises before anything is stored. */
    method CreatePublicationData(parse: string -> Option<int>, lib: Helpers.KeywordLibrary,
                                 literalEval: string -> Option<seq<string>>)
      returns (r: Result<seq<AnalyticalRow>>)
      requires subDf.Some?
      modifies this`pubInfo, this`ad
      ensures subDf == old(subDf)
      ensures var data := AnalyticalData(subDf.value, pubDf, parse, lib, literalEval);
              (data.Err? ==> r == Err(data.error) && pubInfo == old(pubInfo) && ad == old(ad))
              && (data.Ok? ==> r == Ok(data.value.1) && pubInfo == data.value.0 && ad == data.value.1)
    {
      ghost var data := AnalyticalData(subDf.value, pubDf, parse, lib, literalEval);
      var dates := Collect(Map(DateOf(parse), pubDf));
      if dates.Err? {
        assert data == Err(dates.error);
        return Err(dates.error);
      }
      var rows := Helpers.Zip(pubDf, dates.value);
      var splitData := SplitData(rows);
      var f := InfoOfGroup(TopN, true, lib, literalEval);
      var pubTokens := Helpers.Parallelize(nCores, f, splitData);
      assert pubTokens == Map(f, splitData);
      var pairs := Collect(pubTokens);
      if pairs.Err? {
        assert data == Err(pairs.error);
        return Err(pairs.error);
      }
      assert data == Ok((PubInfoTable(pairs.value), AdTable(subDf.value, PubInfoTable(pairs.value))));
      pubInfo := PubInfoTable(pairs.value);
      ad := AdTable(subDf.value, pubInfo);
      r := Ok(ad);
    }
  }
}

=== FILE: cosine.dfy ===
/** `counter_cosine_similarity` (helpers.py): the cosine of two term bags,
  * times 100. The scholar side is the bag of `counterA.split(" ")`, the
  * proposal side the bag of the keyword list `counterB`; sums run over the
  * union of their terms. The square roots are not computed: a similarity is
  * kept as the integer dot product and squared norms, and `IsValue` says which
  * real number it stands for. */
module Cosine {
  import opened Wrappers
  import opened Text
  import opened Seqs

  /** The three sums of the source: dot product and the two squared magnitudes. */
  datatype Totals = Totals(dot: nat, normA: nat, normB: nat)

  /** One more term with counts `x` (first bag) and `y` (second bag). */
  function Add(t: Totals, x: nat, y: nat): Totals
  {
    Totals(t.dot + x * y, t.normA + x * x, t.normB + y * y)
  }

  function Plus(t: Totals, u: Totals): Totals
  {
    Totals(t.dot + u.dot, t.normA + u.normA, t.normB + u.normB)
  }

  /** The three sums of `f` over `terms`. */
  function Sum(terms: seq<string>, f: string -> Totals): Totals
  {
    if terms == [] then Totals(0, 0, 0) else Plus(Sum(terms[1..], f), f(terms[0]))
  }

  /** What one term adds: `c1[k] * c2[k]`, `c1[k]**2` and `c2[k]**2`. */
  function Contribution(a: multiset<string>, b: multiset<string>): string -> Totals
  {
    k => Totals(a[k] * b[k], a[k] * a[k], b[k] * b[k])
  }

  /** `sum(c1.get(k, 0) * c2.get(k, 0) for k in terms)` and the two sums of
    * squares, in one pass over `terms`. Python's integers are exact, so the
    * order the set yields its terms in does not change the sums
    * (`SumPermutation`). */
  function SumOver(terms: seq<string>, a: multiset<string>, b: multiset<string>): Totals
  {
    Sum(terms, Contribution(a, b))
  }

  lemma SumOverStep(terms: seq<string>, a: multiset<string>, b: multiset<string>)
    requires terms != []
    ensures SumOver(terms, a, b) == Add(SumOver(terms[1..], a, b), a[terms[0]], b[terms[0]])
  {
  }

  /** `set(c1).union(c2)` for the bags of `words` and `keys`: every term of
    * either bag, once. */
  function Terms(words: seq<string>, keys: seq<string>): (ts: seq<string>)
    ensures forall k :: k in ts <==> k in multiset(words) || k in multiset(keys)
    ensures forall i, j :: 0 <= i < j < |ts| ==> ts[i] != ts[j]
  {
    Distinct(words + keys)
  }

  /** The outcome of one call: `Failed` is the `{user_id: 0}` of the exception
    * handler; `Ratio(d, na, nb)` is the value `d / (sqrt(na) * sqrt(nb)) * 100`. */
  datatype Similarity = Failed | Ratio(dot: nat, normA: nat, normB: nat)

  /** What every similarity the function returns satisfies: a ratio has
    * non-zero magnitudes and obeys the Cauchy-Schwarz inequality. */
  predicate WellFormed(s: Similarity)
  {
    s.Ratio? ==> s.normA > 0 && s.normB > 0 && s.dot * s.dot <= s.normA * s.normB
  }

  /** `v` is the number the similarity stands for: 0 for a failure, otherwise
    * the non-negative `v` with `v * sqrt(na * nb) == 100 * d`, squared. */
  ghost predicate IsValue(s: Similarity, v: real)
  {
    match s
    case Failed => v == 0.0
    case Ratio(d, na, nb) => v >= 0.0 && v * v * ((na * nb) as real) == 10000.0 * ((d * d) as real)
  }

  /** The algebraic step of Cauchy-Schwarz: adding one term keeps dot^2 <= |A|^2 |B|^2.
    * With u = |A|^2 y^2 and v = |B|^2 x^2: (u + v)^2 >= 4uv >= (2 dot x y)^2, so u + v >= 2 dot x y. */
  lemma AddKeepsBound(t: Totals, x: nat, y: nat)
    requires t.dot * t.dot <= t.normA * t.normB
    ensures Add(t, x, y).dot * Add(t, x, y).dot <= Add(t, x, y).normA * Add(t, x, y).normB
  {
    var d, p, q := t.dot, t.normA, t.normB;
    var x2, y2, z := x * x, y * y, x * y;
    var u, v := p * y2, q * x2;
    Square4(u, v);
    Rearrange(p, q, x, y);
    MulMono(d * d, p * q, z * z);
    Rearrange(d, d, z, 1);
    assert (2 * d * z) * (2 * d * z) == 4 * ((d * d) * (z * z)) by { Rearrange(2, d, z, 2 * d * z); }
    SquareMono(u + v, 2 * d * z);
    Expand(d, z);
    Expand2(p, x2, q, y2);
  }

  lemma Square4(u: int, v: int)
    ensures (u + v) * (u + v) == (u - v) * (u - v) + 4 * (u * v)
    ensures (u - v) * (u - v) >= 0
  {
  }

  lemma Rearrange(p: int, q: int, x: int, y: int)
    ensures (p * (y * y)) * (q * (x * x)) == (p * q) * ((x * y) * (x * y))
  {
  }

  lemma Expand(d: int, z: int)
    ensures (d + z) * (d + z) == d * d + 2 * d * z + z * z
  {
  }

  lemma Expand2(p: int, x2: int, q: int, y2: int)
    ensures (p + x2) * (q + y2) == p * q + p * y2 + q * x2 + x2 * y2
  {
  }

  lemma MulMono(a: int, b: int, c: int)
    requires a <= b && 0 <= c
    ensures a * c <= b * c
  {
  }

  lemma SquareMono(m: int, n: int)
    requires 0 <= m && 0 <= n && n * n <= m * m
    ensures n <= m
  {
    if n > m {
      assert n * n - m * m == (n - m) * (n + m);
      MulMono(1, n - m, n + m);
    }
  }

  /** Cauchy-Schwarz over any list of terms: dot^2 <= |A|^2 * |B|^2. */
  lemma {:induction false} CauchySchwarz(terms: seq<string>, a: multiset<string>, b: multiset<string>)
    ensures SumOver(terms, a, b).dot * SumOver(terms, a, b).dot
            <= SumOver(terms, a, b).normA * SumOver(terms, a, b).normB
  {
    if terms != [] {
      SumOverStep(terms, a, b);
      CauchySchwarz(terms[1..], a, b);
      AddKeepsBound(SumOver(terms[1..], a, b), a[terms[0]], b[terms[0]]);
    }
  }

  /** Each listed term's squared count is part of its bag's squared magnitude. */
  lemma {:induction false} NormAtLeast(terms: seq<string>, a: multiset<string>, b: multiset<string>, k: string)
    requires k in terms
    ensures SumOver(terms, a, b).normA >= a[k] * a[k]
    ensures SumOver(terms, a, b).normB >= b[k] * b[k]
  {
    SumOverStep(terms, a, b);
    if terms[0] != k {
      NormAtLeast(terms[1..], a, b, k);
    }
  }

  /** An empty bag has squared magnitude 0, and so has its dot product with any bag. */
  lemma EmptyBag(terms: seq<string>, a: multiset<string>, b: multiset<string>)
    ensures a == multiset{} ==> SumOver(terms, a, b).normA == 0 && SumOver(terms, a, b).dot == 0
    ensures b == multiset{} ==> SumOver(terms, a, b).normB == 0 && SumOver(terms, a, b).dot == 0
  {
    if a == multiset{} {
      EmptyFirst(terms, b);
    }
    if b == multiset{} {
      EmptySecond(terms, a);
    }
  }

  lemma {:induction false} EmptyFirst(terms: seq<string>, b: multiset<string>)
    ensures SumOver(terms, multiset{}, b).normA == 0 && SumOver(terms, multiset{}, b).dot == 0
  {
    if terms != [] {
      SumOverStep(terms, multiset{}, b);
      EmptyFirst(terms[1..], b);
      var none: multiset<string> := multiset{};
      assert none[terms[0]] == 0;
    }
  }

  lemma {:induction false} EmptySecond(terms: seq<string>, a: multiset<string>)
    ensures SumOver(terms, a, multiset{}).normB == 0 && SumOver(terms, a, multiset{}).dot == 0
  {
    if terms != [] {
      SumOverStep(terms, a, multiset{});
      EmptySecond(terms[1..], a);
      var none: multiset<string> := multiset{};
      assert none[terms[0]] == 0;
    }
  }

  /** A bag compared with itself: the dot product equals both squared magnitudes. */
  lemma {:induction false} SameBag(terms: seq<string>, a: multiset<string>)
    ensures SumOver(terms, a, a).dot == SumOver(terms, a, a).normA == SumOver(terms, a, a).normB
  {
    if terms != [] {
      SumOverStep(terms, a, a);
      SameBag(terms[1..], a);
    }
  }

  /** Bags without a common term have dot product 0. */
  lemma {:induction false} DisjointBags(terms: seq<string>, a: multiset<string>, b: multiset<string>)
    requires forall k :: k in a ==> k !in b
    ensures SumOver(terms, a, b).dot == 0
  {
    if terms != [] {
      SumOverStep(terms, a, b);
      DisjointBags(terms[1..], a, b);
      assert a[terms[0]] == 0 || b[terms[0]] == 0;
    }
  }

  /** Taking out any one term and adding it last gives the same sums. */
  lemma {:induction false} SumRemove(terms: seq<string>, i: nat, f: string -> Totals)
    requires i < |terms|
    ensures Sum(terms, f) == Plus(Sum(terms[..i] + terms[i + 1..], f), f(terms[i]))
  {
    if i == 0 {
      assert terms[..0] + terms[1..] == terms[1..];
    } else {
      var tail := terms[1..];
      var r := tail[..i - 1] + tail[i..];
      SumRemove(tail, i - 1, f);
      assert tail[i - 1] == terms[i];
      var rest := terms[..i] + terms[i + 1..];
      assert rest == [terms[0]] + r;
      assert rest[1..] == r;
    }
  }

  /** The sums do not depend on the order the terms come in. */
  lemma {:induction false} SumPermutation(ts: seq<string>, us: seq<string>, f: string -> Totals)
    requires forall i, j :: 0 <= i < j < |ts| ==> ts[i] != ts[j]
    requires forall i, j :: 0 <= i < j < |us| ==> us[i] != us[j]
    requires forall k :: k in ts <==> k in us
    ensures Sum(ts, f) == Sum(us, f)
    decreases |ts|
  {
    if ts == [] {
      if us != [] {
        HeadIsMember(us);
        assert false;
      }
    } else {
      var k := ts[0];
      assert k in us;
      var i :| 0 <= i < |us| && us[i] == k;
      var rest := us[..i] + us[i + 1..];
      RemoveAt(us, i, rest);
      assert ts[..0] + ts[1..] == ts[1..];
      RemoveAt(ts, 0, ts[1..]);
      SumPermutation(ts[1..], rest, f);
      SumRemove(us, i, f);
    }
  }

  /** Taking one element out of a list without repeats leaves a list without
    * repeats holding every other element. */
  lemma RemoveAt(us: seq<string>, i: nat, rest: seq<string>)
    requires i < |us| && rest == us[..i] + us[i + 1..]
    requires forall p, q :: 0 <= p < q < |us| ==> us[p] != us[q]
    ensures forall p, q :: 0 <= p < q < |rest| ==> rest[p] != rest[q]
    ensures forall x :: x in rest <==> x in us && x != us[i]
  {
    forall m | 0 <= m < |rest| ensures rest[m] == us[if m < i then m else m + 1] {
      if m >= i {
        assert rest[m] == us[i + 1..][m - i];
      }
    }
    forall p, q | 0 <= p < q < |rest| ensures rest[p] != rest[q] {
      var p' := if p < i then p else p + 1;
      var q' := if q < i then q else q + 1;
      assert rest[p] == us[p'] && rest[q] == us[q'];
    }
    forall x ensures x in rest <==> x in us && x != us[i] {
      if x in rest {
        var m :| 0 <= m < |rest| && rest[m] == x;
        var m' := if m < i then m else m + 1;
        assert us[m'] == x && m' != i;
      }
      if x in us && x != us[i] {
        var n :| 0 <= n < |us| && us[n] == x;
        if n < i { assert rest[n] == x; } else { assert rest[n - 1] == x; }
      }
    }
  }

  lemma HeadIsMember(us: seq<string>)
    requires us != []
    ensures us[0] in us
  {
  }

  /** A bag has a non-zero squared magnitude exactly when it is not empty. */
  lemma BagNorms(words: seq<string>, keys: seq<string>)
    ensures SumOver(Terms(words, keys), multiset(words), multiset(keys)).normA > 0 <==> words != []
    ensures SumOver(Terms(words, keys), multiset(words), multiset(keys)).normB > 0 <==> keys != []
  {
    var ts, c1, c2 := Terms(words, keys), multiset(words), multiset(keys);
    EmptyBag(ts, c1, c2);
    if words != [] {
      assert words[0] in c1;
      NormAtLeast(ts, c1, c2, words[0]);
      SquarePositive(c1[words[0]]);
    }
    if keys != [] {
      assert keys[0] in c2;
      NormAtLeast(ts, c1, c2, keys[0]);
      SquarePositive(c2[keys[0]]);
    }
  }

  lemma SquarePositive(x: nat)
    requires x > 0
    ensures x * x > 0
  {
  }

  /** The similarity of the bag of `words` and the bag of `keys`: `Failed`
    * on a zero denominator, that is when either bag is empty. */
  function BagCosine(words: seq<string>, keys: seq<string>): (s: Similarity)
    ensures WellFormed(s)
    ensures s.Failed? <==> words == [] || keys == []
  {
    var t := SumOver(Terms(words, keys), multiset(words), multiset(keys));
    CauchySchwarz(Terms(words, keys), multiset(words), multiset(keys));
    BagNorms(words, keys);
    if t.normA * t.normB == 0 then Failed else Ratio(t.dot, t.normA, t.normB)
  }

  /** `counter_cosine_similarity(user_id, counterA, counterB)`. The scholar's
    * text `counterA` is `None` when the table cell is NaN: NaN has no `split`,
    * and the handler answers 0. `split(" ")` always yields at least one piece,
    * so only an empty keyword list makes the denominator 0. The result is
    * always the one-key dict `{user_id: score}`. */
  function CounterCosine(userId: string, counterA: Option<string>, counterB: seq<string>): (r: (string, Similarity))
    ensures r.0 == userId
    ensures WellFormed(r.1)
    ensures r.1.Failed? <==> counterA.None? || counterB == []
  {
    match counterA
    case None => (userId, Failed)
    case Some(text) => (userId, BagCosine(Split(text, " "), counterB))
  }

  /** The score lies in [0, 100]. */
  lemma ScoreInRange(s: Similarity, v: real)
    requires WellFormed(s) && IsValue(s, v)
    ensures 0.0 <= v <= 100.0
  {
    if s.Ratio? {
      var n := (s.normA * s.normB) as real;
      var d2 := (s.dot * s.dot) as real;
      assert 0.0 < n && d2 <= n;
      if v > 100.0 {
        RealMulStrict(v, 100.0, v);
        RealMulStrict(v, 100.0, 100.0);
        RealMulStrict(v * v, 10000.0, n);
      }
    }
  }

  lemma RealMulStrict(a: real, b: real, c: real)
    requires a > b && c > 0.0
    ensures a * c > b * c
  {
  }

  lemma PositiveProduct(a: real, b: real)
    requires a > 0.0 && b > 0.0
    ensures a * b > 0.0
  {
  }

  lemma SquareStrict(v: real, w: real)
    requires 0.0 <= v < w
    ensures v * v < w * w
  {
    PositiveProduct(w - v, w + v);
    assert (w - v) * (w + v) == w * w - v * v;
  }

  /** A similarity stands for exactly one number. */
  lemma ValueUnique(s: Similarity, v: real, w: real)
    requires WellFormed(s) && IsValue(s, v) && IsValue(s, w)
    ensures v == w
  {
    if s.Ratio? {
      var n := (s.normA * s.normB) as real;
      assert v * v * n == w * w * n;
      if v * v < w * w {
        RealMulStrict(w * w, v * v, n);
      } else if w * w < v * v {
        RealMulStrict(v * v, w * w, n);
      }
      if v < w {
        SquareStrict(v, w);
      } else if w < v {
        SquareStrict(w, v);
      }
    }
  }

  /** The score ignores the order of the words and of the keywords. */
  lemma OrderFree(words1: seq<string>, words2: seq<string>, keys1: seq<string>, keys2: seq<string>)
    requires multiset(words1) == multiset(words2)
    requires multiset(keys1) == multiset(keys2)
    ensures BagCosine(words1, keys1) == BagCosine(words2, keys2)
  {
    SumPermutation(Terms(words1, keys1), Terms(words2, keys2), Contribution(multiset(words1), multiset(keys1)));
  }

  /** A non-empty bag compared with itself scores exactly 100. */
  lemma SelfScore(words: seq<string>, v: real)
    requires words != []
    requires IsValue(BagCosine(words, words), v)
    ensures v == 100.0
  {
    SameBag(Terms(words, words), multiset(words));
    var s := BagCosine(words, words);
    var n := s.normA;
    assert s == Ratio(n, n, n);
    assert IsValue(s, 100.0);
    ValueUnique(s, v, 100.0);
  }

  /** Bags without a common term score 0. */
  lemma DisjointScore(words: seq<string>, keys: seq<string>, v: real)
    requires forall k :: k in words ==> k !in keys
    requires IsValue(BagCosine(words, keys), v)
    ensures v == 0.0
  {
    forall k | k in multiset(words) ensures k !in multiset(keys) {
      assert k in words;
    }
    DisjointBags(Terms(words, keys), multiset(words), multiset(keys));
    var s := BagCosine(words, keys);
    if s.Ratio? {
      assert s.dot == 0;
      var n := (s.normA * s.normB) as real;
      assert v * v * n == 0.0;
      if v > 0.0 {
        SquareStrict(0.0, v);
        RealMulStrict(v * v, 0.0, n);
      }
    }
  }
}

=== FILE: helpers.dfy ===
/** helpers.py: the text normaliser (`PreProcessing` and `tokenize`), the
  * keyword-generator dispatch `get_keys`, the order-preserving `parallelize`
  * and `create_tokens`, and the blank rule of `get_formatted_date`.
  * NLTK's stop-word list and WordNet lemmatizer are inputs (`Nlp`);
  * `word_tokenize` is Python's whitespace split. */
module Helpers {
  import opened Wrappers
  import opened Text
  import opened Seqs
  import Keywords

  /** The NLTK resources the normaliser uses: the English stop words and the lemmatizer. */
  datatype Nlp = Nlp(stopWords: set<string>, lemmatize: string -> string)

  /** `PreProcessing.new_text`: absent until `text_lowercase`, a string, and
    * a token list from `tokenize` on. */
  datatype Doc = Unset | Str(s: string) | Toks(ts: seq<string>)

  // ---------------------------------------------------------------------
  // The steps, as functions on values

  predicate IsWordChar(c: char) { IsAlnum(c) || c == '_' }

  predicate NotSpace(c: char) { !IsSpace(c) }

  /** The length of the longest prefix of `s` whose characters satisfy `p`. */
  function RunLength(s: string, p: char -> bool): (n: nat)
    ensures n <= |s|
    ensures forall i :: 0 <= i < n ==> p(s[i])
    ensures n == |s| || !p(s[n])
  {
    if s == [] || !p(s[0]) then 0 else 1 + RunLength(s[1..], p)
  }

  /** The characters `remove_urls` leaves alone: `[0-9A-Za-z \t]`. */
  predicate UrlKept(c: char) { IsAlnum(c) || c == ' ' || c == '\t' }

  /** `re.sub("(@[A-Za-z0-9]+)|([^0-9A-Za-z \t])|(\w+:\/\/\S+)", " ", s)`:
    * scanning left to right, a mention `@name`, a single character outside
    * `[0-9A-Za-z \t]`, or a link `word://rest` becomes one space; the
    * alternatives are tried in that order at each position. */
  function UrlSub(s: string): (r: string)
    decreases |s|
  {
    if s == [] then []
    else if s[0] == '@' && |s| > 1 && IsAlnum(s[1]) then
      " " + UrlSub(s[1 + RunLength(s[1..], IsAlnum)..])
    else if !UrlKept(s[0]) then
      " " + UrlSub(s[1..])
    else
      var w := RunLength(s, IsWordChar);
      if 0 < w && w + 3 < |s| && s[w..w + 3] == "://" && !IsSpace(s[w + 3]) then
        " " + UrlSub(s[w + 3 + RunLength(s[w + 3..], NotSpace)..])
      else
        [s[0]] + UrlSub(s[1..])
  }

  lemma {:induction false} UrlSubKept(s: string)
    ensures forall i :: 0 <= i < |UrlSub(s)| ==> UrlKept(UrlSub(s)[i])
    decreases |s|
  {
    if s == [] {
    } else if s[0] == '@' && |s| > 1 && IsAlnum(s[1]) {
      UrlSubKept(s[1 + RunLength(s[1..], IsAlnum)..]);
    } else if !UrlKept(s[0]) {
      UrlSubKept(s[1..]);
    } else {
      var w := RunLength(s, IsWordChar);
      if 0 < w && w + 3 < |s| && s[w..w + 3] == "://" && !IsSpace(s[w + 3]) {
        UrlSubKept(s[w + 3 + RunLength(s[w + 3..], NotSpace)..]);
      } else {
        UrlSubKept(s[1..]);
      }
    }
  }

  /** `remove_urls`: the substitution above, then `' '.join(...split())`. */
  function RemoveUrlsText(s: string): string
  {
    Join(" ", Words(UrlSub(s)))
  }

  /** A text in `' '.join(words)` form over `[A-Za-z0-9]` words: collapsed,
    * and no space at either end. */
  predicate Normalized(s: string)
  {
    Collapsed(s) && (s != [] ==> s[0] != ' ' && s[|s| - 1] != ' ')
  }

  lemma {:induction false} JoinNormalized(ws: seq<string>)
    requires forall j :: 0 <= j < |ws| ==> ws[j] != [] && forall i :: 0 <= i < |ws[j]| ==> IsAlnum(ws[j][i])
    ensures Normalized(Join(" ", ws))
  {
    if |ws| > 1 {
      JoinNormalized(ws[1..]);
      var rest := Join(" ", ws[1..]);
      assert ws[1..][0] == ws[1];
      assert rest != [] by { JoinStarts(ws[1..]); }
      JoinStarts(ws[1..]);
      var r := ws[0] + " " + rest;
      assert Join(" ", ws) == r;
      forall i | 0 <= i < |r| ensures IsAlnum(r[i]) || r[i] == ' ' {
        if i < |ws[0]| { assert r[i] == ws[0][i]; }
        else if i > |ws[0]| { assert r[i] == rest[i - |ws[0]| - 1]; }
      }
      forall i | 0 <= i < |r| - 1 ensures r[i] != ' ' || r[i + 1] != ' ' {
        if i < |ws[0]| - 1 { assert r[i] == ws[0][i]; }
        else if i == |ws[0]| - 1 { assert r[i] == ws[0][i]; }
        else if i == |ws[0]| { assert r[i + 1] == rest[0]; }
        else { assert r[i] == rest[i - |ws[0]| - 1] && r[i + 1] == rest[i - |ws[0]|]; }
      }
    } else if |ws| == 1 {
      assert Join(" ", ws) == ws[0];
    }
  }

  lemma JoinStarts(ws: seq<string>)
    requires |ws| > 0 && ws[0] != []
    ensures Join(" ", ws) != [] && Join(" ", ws)[0] == ws[0][0]
  {
  }

  /** After `remove_urls` the text holds only `[A-Za-z0-9]` and single spaces,
    * with no space at either end. */
  lemma RemoveUrlsShape(s: string)
    ensures Normalized(RemoveUrlsText(s))
  {
    var t := UrlSub(s);
    UrlSubKept(t);
    UrlSubKept(s);
    WordsShape(t);
    var ws := Words(t);
    forall j, i | 0 <= j < |ws| && 0 <= i < |ws[j]| ensures IsAlnum(ws[j][i]) {
      assert IsWordOf(ws[j], t);
      assert ws[j][i] in t;
    }
    JoinNormalized(ws);
  }

  function NotStopword(stopWords: set<string>): string -> bool
  {
    t => t !in stopWords
  }

  function LongerThan(size: int): string -> bool
  {
    t => |t| > size
  }

  /** `remove_stopwords`: `[i for i in new_text if i not in stop_words]`. */
  function WithoutStopwords(ts: seq<string>, stopWords: set<string>): seq<string>
  {
    Filter(NotStopword(stopWords), ts)
  }

  /** `remove_letters(size)`: `[i for i in new_text if len(i) > size]`. */
  function LongTokens(ts: seq<string>, size: int): seq<string>
  {
    Filter(LongerThan(size), ts)
  }

  /** `remove_stopwords` keeps exactly the non-stop-words, with their
    * duplicates, and in their original order. */
  lemma RemoveStopwordsExact(ts: seq<string>, more: seq<string>, stopWords: set<string>, t: string)
    ensures multiset(WithoutStopwords(ts, stopWords))[t] == if t in stopWords then 0 else multiset(ts)[t]
    ensures WithoutStopwords(ts + more, stopWords) == WithoutStopwords(ts, stopWords) + WithoutStopwords(more, stopWords)
  {
    FilterCount(NotStopword(stopWords), ts, t);
    FilterAppend(NotStopword(stopWords), ts, more);
  }

  /** `remove_letters(size)` keeps exactly the tokens strictly longer than
    * `size`, with their duplicates, in order: a token of length `size` goes. */
  lemma RemoveLettersExact(ts: seq<string>, more: seq<string>, size: int, t: string)
    ensures multiset(LongTokens(ts, size))[t] == if |t| > size then multiset(ts)[t] else 0
    ensures LongTokens(ts + more, size) == LongTokens(ts, size) + LongTokens(more, size)
  {
    FilterCount(LongerThan(size), ts, t);
    FilterAppend(LongerThan(size), ts, more);
  }

  // ---------------------------------------------------------------------
  // The PreProcessing object

  /** `PreProcessing`: holds the original text and the working `new_text`,
    * which each step replaces. A step that needs a string (or a token list)
    * requires one: on anything else the Python method raises. */
  class PreProcessing {
    const text: string
    var newText: Doc

    constructor (text: string)
      ensures this.text == text && newText == Unset
    {
      this.text := text;
      newText := Unset;
    }

    /** `remove_urls`. */
    method RemoveUrls() returns (r: string)
      requires newText.Str?
      modifies this
      ensures r == RemoveUrlsText(old(newText).s) && newText == Str(r)
    {
      r := RemoveUrlsText(newText.s);
      newText := Str(r);
    }

    /** `text_lowercase`: lowercases the ORIGINAL text, whatever `new_text` held. */
    method TextLowercase() returns (r: string)
      modifies this
      ensures r == Lower(text) && newText == Str(r)
    {
      r := Lower(text);
      newText := Str(r);
    }

    /** `remove_numbers`: despite its name, deletes every character outside `[A-Za-z0-9]`. */
    method RemoveNumbers() returns (r: string)
      requires newText.Str?
      modifies this
      ensures r == AlnumOnly(old(newText).s) && newText == Str(r)
    {
      SubEmptyIsAlnumOnly(newText.s);
      r := SubNonAlnum(newText.s, "");
      newText := Str(r);
    }

    /** `tokenize`: `word_tokenize(new_text)`. */
    method Tokenize() returns (r: seq<string>)
      requires newText.Str?
      modifies this
      ensures r == Words(old(newText).s) && newText == Toks(r)
    {
      r := Words(newText.s);
      newText := Toks(r);
    }

    /** `remove_stopwords`. */
    method RemoveStopwords(stopWords: set<string>) returns (r: seq<string>)
      requires newText.Toks?
      modifies this
      ensures r == WithoutStopwords(old(newText).ts, stopWords) && newText == Toks(r)
    {
      r := WithoutStopwords(newText.ts, stopWords);
      newText := Toks(r);
    }

    /** `lemmatize`: one lemma per token. */
    method Lemmatize(lemmatize: string -> string) returns (r: seq<string>)
      requires newText.Toks?
      modifies this
      ensures r == Map(lemmatize, old(newText).ts) && newText == Toks(r)
    {
      r := Map(lemmatize, newText.ts);
      newText := Toks(r);
    }

    /** `remove_letters(size)`. */
    method RemoveLetters(size: int) returns (r: seq<string>)
      requires newText.Toks?
      modifies this
      ensures r == LongTokens(old(newText).ts, size) && newText == Toks(r)
    {
      r := LongTokens(newText.ts, size);
      newText := Toks(r);
    }

    /** `remove_characters`: each run outside `[A-Za-z0-9]` becomes one space. */
    method RemoveCharacters() returns (r: string)
      requires newText.Str?
      modifies this
      ensures r == SubNonAlnum(old(newText).s, " ") && newText == Str(r)
      ensures Collapsed(r)
    {
      SubSpaceCollapsed(newText.s);
      r := SubNonAlnum(newText.s, " ");
      newText := Str(r);
    }
  }

  // ---------------------------------------------------------------------
  // tokenize(phrase, k)

  /** The text `tokenize` splits: lowercased, then runs outside `[A-Za-z0-9]` made one space. */
  function Cleaned(phrase: string): string
  {
    SubNonAlnum(Lower(phrase), " ")
  }

  /** The tokens that reach the lemmatizer. */
  function Survivors(phrase: string, k: int, stopWords: set<string>): seq<string>
  {
    LongTokens(WithoutStopwords(Words(Cleaned(phrase)), stopWords), k)
  }

  /** What `tokenize(phrase, k)` returns. */
  function Tokens(phrase: string, k: int, nlp: Nlp): seq<string>
  {
    Map(nlp.lemmatize, Survivors(phrase, k, nlp.stopWords))
  }

  /** `tokenize(phrase, k=3)`: lowercase, remove special characters, split,
    * remove stop words, keep tokens longer than `k`, lemmatize. */
  method Tokenize(phrase: string, k: int, nlp: Nlp) returns (tokens: seq<string>)
    ensures tokens == Tokens(phrase, k, nlp)
  {
    var p := new PreProcessing(phrase);
    var s := p.TextLowercase();
    s := p.RemoveCharacters();
    var ts := p.Tokenize();
    ts := p.RemoveStopwords(nlp.stopWords);
    ts := p.RemoveLetters(k);
    tokens := p.Lemmatize(nlp.lemmatize);
  }

  /** Every token that reaches the lemmatizer is non-empty, drawn from
    * `[a-z0-9]`, longer than `k` and not a stop word. */
  lemma SurvivorShape(phrase: string, k: int, stopWords: set<string>, j: nat)
    requires j < |Survivors(phrase, k, stopWords)|
    ensures Survivors(phrase, k, stopWords)[j] != []
    ensures forall i :: 0 <= i < |Survivors(phrase, k, stopWords)[j]| ==> IsLowerAlnum(Survivors(phrase, k, stopWords)[j][i])
    ensures |Survivors(phrase, k, stopWords)[j]| > k
    ensures Survivors(phrase, k, stopWords)[j] !in stopWords
  {
    var c := Cleaned(phrase);
    var ws := Words(c);
    var kept := WithoutStopwords(ws, stopWords);
    var t := Survivors(phrase, k, stopWords)[j];
    FilterAll(LongerThan(k), kept);
    FilterMembers(LongerThan(k), kept, t);
    FilterMembers(NotStopword(stopWords), ws, t);
    WordsShape(c);
    SubSpaceCollapsed(Lower(phrase));
    forall i | 0 <= i < |t| ensures IsLowerAlnum(t[i]) {
      assert t[i] in c;
      SubCharsFrom(Lower(phrase), " ", t[i]);
      var m :| 0 <= m < |c| && c[m] == t[i];
      assert IsAlnum(c[m]);
    }
  }

  /** The survivors are exactly the split words that are neither stop words
    * nor `k` characters or shorter, each as often as it was split off, in order. */
  lemma SurvivorsExact(phrase: string, k: int, stopWords: set<string>, t: string)
    ensures multiset(Survivors(phrase, k, stopWords))[t]
            == if t in stopWords || |t| <= k then 0 else multiset(Words(Cleaned(phrase)))[t]
  {
    var ws := Words(Cleaned(phrase));
    RemoveStopwordsExact(ws, [], stopWords, t);
    RemoveLettersExact(WithoutStopwords(ws, stopWords), [], k, t);
  }

  /** The length filter runs before the lemmatizer, so a lemma can be `k`
    * characters or shorter: with a lemmatizer that maps "cats" to "cat",
    * `tokenize("Cats", 3)` returns `["cat"]`. */
  lemma LemmaAfterFilter(nlp: Nlp)
    requires nlp.lemmatize("cats") == "cat" && "cats" !in nlp.stopWords
    ensures Tokens("Cats", 3, nlp) == ["cat"]
  {
    assert Lower("Cats") == "cats";
    assert SubNonAlnum("cats", " ") == "cats";
    WordsOfWord("cats");
    assert WithoutStopwords(["cats"], nlp.stopWords) == ["cats"];
    assert LongTokens(["cats"], 3) == ["cats"];
  }

  /** The lemmatizer never puts a space into a word. */
  ghost predicate NoSpaceLemmas(nlp: Nlp)
  {
    forall w :: Clean(nlp.lemmatize(w), " ")
  }

  lemma TokensClean(phrase: string, k: int, nlp: Nlp)
    ensures NoSpaceLemmas(nlp)
            ==> forall j :: 0 <= j < |Tokens(phrase, k, nlp)| ==> Clean(Tokens(phrase, k, nlp)[j], " ")
  {
  }

  /** What a space-joined token text gives back when it is split on spaces,
    * as `counter_cosine` does: the tokens themselves, or "" for none. */
  predicate StoredAs(r: string, ts: seq<string>)
  {
    if ts == [] then r == "" else Split(r, " ") == ts
  }

  lemma JoinStored(ts: seq<string>)
    ensures (forall j :: 0 <= j < |ts| ==> Clean(ts[j], " ")) ==> StoredAs(Join(" ", ts), ts)
  {
    if ts != [] && forall j :: 0 <= j < |ts| ==> Clean(ts[j], " ") {
      SplitJoin(ts, " ");
    }
  }

  // ---------------------------------------------------------------------
  // get_keys

  /** The keyword libraries: spaCy's tagger and stop words, RAKE's ranked
    * phrases, and YAKE's (keyword, score) pairs for given n-gram size and count. */
  datatype KeywordLibrary = KeywordLibrary(
    tag: string -> seq<Keywords.Token>,
    spacyStopWords: set<string>,
    rankedPhrases: string -> seq<string>,
    yake: (string, int, int) -> seq<(string, real)>)

  /** What `get_keys` gives back: a keyword list, `None`, or an exception. */
  datatype KeysOutcome = Keys(keys: seq<string>) | NoGenerator | Raises(error: Raised)

  const GeneratorNames: set<string> := {"Spacy", "BERT", "gensim", "Yake", "Rake"}

  /** `get_keys(text, ngram, ntop, generator)`. "BERT" raises (its model is
    * never loaded) and so does "gensim" (the generator has no `Gensim`
    * method); any name outside the five gives `None`. */
  function GetKeys(text: string, ngram: int, ntop: int, generator: string, lib: KeywordLibrary): (r: KeysOutcome)
    ensures r.NoGenerator? <==> generator !in GeneratorNames
    ensures r.Raises? <==> generator == "BERT" || generator == "gensim"
    ensures r.Keys? ==> generator in {"Spacy", "Yake", "Rake"}
  {
    if generator == "Spacy" then Keys(Keywords.SpacyKeywords(lib.tag(Lower(text)), lib.spacyStopWords))
    else if generator == "BERT" then Raises(NameError)
    else if generator == "gensim" then Raises(AttributeError)
    else if generator == "Yake" then Keys(Keywords.YakeKeywords(lib.yake(text, ngram, ntop)))
    else if generator == "Rake" then Keys(Keywords.RakeKeywords(lib.rankedPhrases(text)))
    else NoGenerator
  }

  // ---------------------------------------------------------------------
  // parallelize and create_tokens

  /** `parallelize(n_cores, func, arg1)`: `func` applied to each argument
    * tuple, the results appended in argument order whatever the number of workers. */
  method Parallelize<A, R>(nCores: int, func: A -> R, arg1: seq<A>) returns (dataList: seq<R>)
    ensures |dataList| == |arg1|
    ensures forall i :: 0 <= i < |arg1| ==> dataList[i] == func(arg1[i])
  {
    dataList := [];
    var i := 0;
    while i < |arg1|
      invariant 0 <= i <= |arg1|
      invariant |dataList| == i
      invariant forall j :: 0 <= j < i ==> dataList[j] == func(arg1[j])
    {
      dataList := dataList + [func(arg1[i])];
      i := i + 1;
    }
  }

  /** Python's `zip`: pairs up to the shorter list. */
  function Zip<A, B>(xs: seq<A>, ys: seq<B>): (r: seq<(A, B)>)
    ensures |r| == if |xs| < |ys| then |xs| else |ys|
    ensures forall i :: 0 <= i < |r| ==> r[i] == (xs[i], ys[i])
  {
    seq(if |xs| < |ys| then |xs| else |ys|, i requires 0 <= i < |xs| && 0 <= i < |ys| => (xs[i], ys[i]))
  }

  /** `create_tokens(df, func, column_name, n_cores)`: `func(value, label)`
    * for each cell of the column and its index label, in row order. */
  method CreateTokens<V, L, R>(column: seq<V>, labels: seq<L>, func: ((V, L)) -> R, nCores: int)
    returns (dataList: seq<R>)
    requires |labels| == |column|
    ensures |dataList| == |column|
    ensures forall i :: 0 <= i < |column| ==> dataList[i] == func((column[i], labels[i]))
  {
    var list := Zip(column, labels);
    dataList := Parallelize(nCores, func, list);
  }

  // ---------------------------------------------------------------------
  // get_formatted_date

  /** `x.strip()` is empty. */
  predicate IsBlank(x: string)
  {
    forall i :: 0 <= i < |x| ==> IsSpace(x[i])
  }

  /** One cell of `get_formatted_date`: a blank cell is today's date, any
    * other is parsed with the format (a parse failure raises `ValueError`).
    * Dates are day numbers; `parse` stands for `strptime(x, format_)`. */
  function FormattedDate(x: string, parse: string -> Option<int>, today: int): (r: Result<int>)
    ensures IsBlank(x) ==> r == Ok(today)
    ensures !IsBlank(x) && parse(x).Some? ==> r == Ok(parse(x).value)
    ensures !IsBlank(x) && parse(x).None? ==> r == Err(ValueError)
  {
    if !IsBlank(x) then
      match parse(x)
      case Some(d) => Ok(d)
      case None => Err(ValueError)
    else Ok(today)
  }

  /** `get_formatted_date(data)` over a column: the first failing cell makes
    * the whole call raise. */
  function FormattedDates(xs: seq<string>, parse: string -> Option<int>, today: int): (r: Result<seq<int>>)
    ensures r.Ok? ==> |r.value| == |xs|
    ensures r.Ok? ==> forall i :: 0 <= i < |xs| ==> FormattedDate(xs[i], parse, today) == Ok(r.value[i])
    ensures r.Err? ==> exists i :: 0 <= i < |xs| && FormattedDate(xs[i], parse, today).Err?
  {
    Collect(Map((x: string) => FormattedDate(x, parse, today), xs))
  }

  // ---------------------------------------------------------------------
  // merge_databases

  /** The rows of `right` whose key is the key of `a`, each paired with `a`, in order. */
  function MatchesOf<A, B, K(==)>(a: A, right: seq<B>, lk: A -> K, rk: B -> K): seq<(A, B)>
  {
    if right == [] then []
    else if rk(right[0]) == lk(a) then [(a, right[0])] + MatchesOf(a, right[1..], lk, rk)
    else MatchesOf(a, right[1..], lk, rk)
  }

  /** `merge_databases(dset1, dset2, on, how="inner")`: every pair of a left
    * row and a right row with equal keys, grouped by left row in left order. */
  function MergeDatabases<A, B, K(==)>(left: seq<A>, right: seq<B>, lk: A -> K, rk: B -> K): seq<(A, B)>
  {
    if left == [] then [] else MatchesOf(left[0], right, lk, rk) + MergeDatabases(left[1..], right, lk, rk)
  }

  lemma {:induction false} MatchesOfMembers<A, B, K>(a: A, right: seq<B>, lk: A -> K, rk: B -> K, p: (A, B))
    ensures p in MatchesOf(a, right, lk, rk) <==> p.0 == a && p.1 in right && rk(p.1) == lk(a)
  {
    if right != [] {
      MatchesOfMembers(a, right[1..], lk, rk, p);
      assert right == [right[0]] + right[1..];
    }
  }

  /** A pair is in the inner join exactly when its left row is in `left`, its
    * right row in `right`, and their keys agree: a left row whose key has no
    * right row is dropped. */
  lemma {:induction false} MergeMembers<A, B, K>(left: seq<A>, right: seq<B>, lk: A -> K, rk: B -> K, p: (A, B))
    ensures p in MergeDatabases(left, right, lk, rk) <==> p.0 in left && p.1 in right && lk(p.0) == rk(p.1)
  {
    if left != [] {
      MatchesOfMembers(left[0], right, lk, rk, p);
      MergeMembers(left[1..], right, lk, rk, p);
      assert left == [left[0]] + left[1..];
    }
  }

  /** Left order is kept: the join of a longer left table extends the join. */
  lemma {:induction false} MergeAppend<A, B, K>(left: seq<A>, more: seq<A>, right: seq<B>, lk: A -> K, rk: B -> K)
    ensures MergeDatabases(left + more, right, lk, rk) == MergeDatabases(left, right, lk, rk) + MergeDatabases(more, right, lk, rk)
  {
    if left == [] {
      assert left + more == more;
    } else {
      assert (left + more)[0] == left[0];
      assert (left + more)[1..] == left[1..] + more;
      MergeAppend(left[1..], more, right, lk, rk);
    }
  }

  function Matched<A, B>(m: (A, B)): (A, Option<B>) { (m.0, Some(m.1)) }

  /** The left-join rows of one left row: its matches, or the row alone with NaN. */
  function LeftRowsOf<A, B, K(==)>(a: A, right: seq<B>, lk: A -> K, rk: B -> K): seq<(A, Option<B>)>
  {
    var ms := MatchesOf(a, right, lk, rk);
    if ms == [] then [(a, None)] else Map(Matched, ms)
  }

  /** `pd.merge(dset1, dset2, left_on, right_on, how="left")`: the inner-join
    * pairs, plus every left row without a match paired with NaN, in left order. */
  function LeftMerge<A, B, K(==)>(left: seq<A>, right: seq<B>, lk: A -> K, rk: B -> K): seq<(A, Option<B>)>
  {
    if left == [] then [] else LeftRowsOf(left[0], right, lk, rk) + LeftMerge(left[1..], right, lk, rk)
  }

  lemma MatchesOfEmpty<A, B, K>(a: A, right: seq<B>, lk: A -> K, rk: B -> K)
    ensures MatchesOf(a, right, lk, rk) == [] <==> forall b :: b in right ==> rk(b) != lk(a)
  {
    if MatchesOf(a, right, lk, rk) == [] {
      forall b | b in right ensures rk(b) != lk(a) {
        MatchesOfMembers(a, right, lk, rk, (a, b));
      }
    } else {
      var m := MatchesOf(a, right, lk, rk)[0];
      MatchesOfMembers(a, right, lk, rk, m);
    }
  }

  lemma LeftRowsOfMembers<A, B, K>(a: A, right: seq<B>, lk: A -> K, rk: B -> K, p: (A, Option<B>))
    ensures p in LeftRowsOf(a, right, lk, rk) <==>
            p.0 == a && if p.1.Some? then p.1.value in right && rk(p.1.value) == lk(a)
                        else forall b :: b in right ==> rk(b) != lk(a)
  {
    var ms := MatchesOf(a, right, lk, rk);
    MatchesOfEmpty(a, right, lk, rk);
    if p.1.Some? {
      MatchesOfMembers(a, right, lk, rk, (p.0, p.1.value));
      if p in Map(Matched, ms) {
        var i :| 0 <= i < |ms| && Matched(ms[i]) == p;
      }
      if (p.0, p.1.value) in ms {
        var i :| 0 <= i < |ms| && ms[i] == (p.0, p.1.value);
        assert Map(Matched, ms)[i] == p;
      }
    } else if ms != [] {
      assert p !in Map(Matched, ms);
    }
  }

  /** A row of the left join is a left row with a right row of the same key,
    * or a left row no right row matches, with NaN: every left row is kept. */
  lemma {:induction false} LeftMergeMembers<A, B, K>(left: seq<A>, right: seq<B>, lk: A -> K, rk: B -> K, p: (A, Option<B>))
    ensures p in LeftMerge(left, right, lk, rk) <==>
            p.0 in left && if p.1.Some? then p.1.value in right && rk(p.1.value) == lk(p.0)
                           else forall b :: b in right ==> rk(b) != lk(p.0)
  {
    if left != [] {
      LeftRowsOfMembers(left[0], right, lk, rk, p);
      LeftMergeMembers(left[1..], right, lk, rk, p);
      assert left == [left[0]] + left[1..];
    }
  }

  /** The left join keeps every left row at least once. */
  lemma {:induction false} LeftMergeKeeps<A, B, K>(left: seq<A>, right: seq<B>, lk: A -> K, rk: B -> K)
    ensures |LeftMerge(left, right, lk, rk)| >= |left|
    ensures forall a :: a in left ==> exists p :: p in LeftMerge(left, right, lk, rk) && p.0 == a
  {
    if left != [] {
      LeftMergeKeeps(left[1..], right, lk, rk);
      var rows := LeftRowsOf(left[0], right, lk, rk);
      var ms := MatchesOf(left[0], right, lk, rk);
      if ms != [] {
        MatchesOfMembers(left[0], right, lk, rk, ms[0]);
      }
      assert rows[0].0 == left[0];
      forall a | a in left ensures exists p :: p in LeftMerge(left, right, lk, rk) && p.0 == a {
        if a == left[0] {
          assert rows[0] in LeftMerge(left, right, lk, rk);
        } else {
          assert a in left[1..];
          var p :| p in LeftMerge(left[1..], right, lk, rk) && p.0 == a;
          assert p in LeftMerge(left, right, lk, rk);
        }
      }
    }
  }
}

=== FILE: keywords.dfy ===
/** The post-processing that `Keyword_generator` (automatic_keyword_generator.py)
  * applies to what the keyword libraries return. The libraries themselves
  * (spaCy's tagger, RAKE's ranked phrases, YAKE's scored keywords) are inputs. */
module Keywords {
  import opened Text
  import opened Seqs

  /** A spaCy token: its text and its coarse part-of-speech tag. */
  datatype Token = Token(text: string, pos: string)

  /** Python's `string.punctuation`. */
  const Punctuation: string := "!\"#$%&'()*+,-./:;<=>?@[\\]^_`{|}~"

  /** The tags `Spacy` keeps. */
  const PosTags: seq<string> := ["PROPN", "ADJ", "NOUN"]

  /** Python's `t in s` for two strings: `t` occurs in `s` as a contiguous piece. */
  predicate Occurs(t: string, s: string)
    decreases |s|
  {
    t <= s || (s != [] && Occurs(t, s[1..]))
  }

  /** The test of the `Spacy` loop: skip stop words and any text found inside
    * `string.punctuation`, keep the proper nouns, adjectives and nouns. */
  predicate SpacyKeeps(t: Token, stopWords: set<string>)
  {
    !(t.text in stopWords || Occurs(t.text, Punctuation)) && t.pos in PosTags
  }

  function TextOf(t: Token): string { t.text }

  /** The keywords `Spacy` returns for a tagged document. */
  function SpacyKeywords(doc: seq<Token>, stopWords: set<string>): seq<string>
  {
    Map(TextOf, Filter((t: Token) => SpacyKeeps(t, stopWords), doc))
  }

  /** `Keyword_generator.Spacy`: walks the document, skipping stop words and
    * punctuation, appending the text of every PROPN, ADJ and NOUN token. */
  method Spacy(doc: seq<Token>, stopWords: set<string>) returns (result: seq<string>)
    ensures result == SpacyKeywords(doc, stopWords)
  {
    result := [];
    var i := 0;
    while i < |doc|
      invariant 0 <= i <= |doc|
      invariant result == SpacyKeywords(doc[..i], stopWords)
    {
      var token := doc[i];
      SpacyPrefix(doc, i, stopWords);
      if token.text in stopWords || Occurs(token.text, Punctuation) {
        i := i + 1;
        continue;
      }
      if token.pos in PosTags {
        result := result + [token.text];
      }
      i := i + 1;
    }
    assert doc[..i] == doc;
  }

  lemma SpacyPrefix(doc: seq<Token>, i: nat, stopWords: set<string>)
    requires i < |doc|
    ensures SpacyKeywords(doc[..i + 1], stopWords)
         == SpacyKeywords(doc[..i], stopWords) + (if SpacyKeeps(doc[i], stopWords) then [doc[i].text] else [])
  {
    var keep := (t: Token) => SpacyKeeps(t, stopWords);
    assert doc[..i + 1] == doc[..i] + [doc[i]];
    FilterAppend(keep, doc[..i], [doc[i]]);
  }

  /** The `Spacy` filter keeps, in document order, exactly the texts of the
    * tokens that pass the test: a kept text occurs as often as the passing
    * tokens carrying it. */
  lemma {:induction false} SpacyExact(doc: seq<Token>, stopWords: set<string>, i: nat)
    requires i < |doc|
    ensures |SpacyKeywords(doc, stopWords)| == |SpacyKeywords(doc[..i], stopWords)|
            + |SpacyKeywords(doc[i..], stopWords)|
    ensures SpacyKeeps(doc[i], stopWords)
            ==> SpacyKeywords(doc, stopWords)[|SpacyKeywords(doc[..i], stopWords)|] == doc[i].text
  {
    var keep := (t: Token) => SpacyKeeps(t, stopWords);
    assert doc == doc[..i] + doc[i..];
    FilterAppend(keep, doc[..i], doc[i..]);
    assert doc[i..] == [doc[i]] + doc[i + 1..];
  }

  /** Every kept keyword is a non-stop-word that is no piece of the punctuation string. */
  lemma SpacyKeptTexts(doc: seq<Token>, stopWords: set<string>, j: nat)
    requires j < |SpacyKeywords(doc, stopWords)|
    ensures SpacyKeywords(doc, stopWords)[j] !in stopWords
    ensures !Occurs(SpacyKeywords(doc, stopWords)[j], Punctuation)
  {
    var keep := (t: Token) => SpacyKeeps(t, stopWords);
    FilterAll(keep, doc);
  }

  /** A text that starts at some position of `s` occurs in `s`. */
  lemma {:induction false} OccursAt(t: string, s: string, i: nat)
    requires i <= |s| && t <= s[i..]
    ensures Occurs(t, s)
    decreases i
  {
    if i > 0 {
      assert s[1..][i - 1..] == s[i..];
      OccursAt(t, s[1..], i - 1);
    }
  }

  /** Because `in` tests for a piece of the punctuation string, a token like
    * `()` or `{|}` is dropped along with single punctuation marks. */
  lemma PunctuationPieces()
    ensures Occurs("()", Punctuation)
    ensures Occurs("{|}", Punctuation)
  {
    OccursAt("()", Punctuation, 7);
    OccursAt("{|}", Punctuation, 28);
  }

  /** The RAKE clean-up of one ranked phrase: each run outside
    * `[A-Za-z0-9]` becomes one space, then every digit is deleted. */
  function RakeClean(phrase: string): (r: string)
  {
    DropDigits(SubNonAlnum(phrase, " "))
  }

  function DropDigits(s: string): (r: string)
  {
    if s == [] then [] else if IsDigit(s[0]) then DropDigits(s[1..]) else [s[0]] + DropDigits(s[1..])
  }

  predicate IsLetter(c: char) { 'A' <= c <= 'Z' || 'a' <= c <= 'z' }

  /** The ASCII letters of a text, in order. */
  function Letters(s: string): string
  {
    if s == [] then [] else if IsLetter(s[0]) then [s[0]] + Letters(s[1..]) else Letters(s[1..])
  }

  lemma {:induction false} DropDigitsShape(s: string)
    requires forall i :: 0 <= i < |s| ==> IsAlnum(s[i]) || s[i] == ' '
    ensures forall i :: 0 <= i < |DropDigits(s)| ==> IsLetter(DropDigits(s)[i]) || DropDigits(s)[i] == ' '
    ensures Letters(DropDigits(s)) == Letters(s)
  {
    if s != [] {
      DropDigitsShape(s[1..]);
    }
  }

  lemma {:induction false} LettersOfAlnum(s: string)
    ensures Letters(AlnumOnly(s)) == Letters(s)
  {
    if s != [] {
      LettersOfAlnum(s[1..]);
    }
  }

  lemma {:induction false} LettersAppend(a: string, b: string)
    ensures Letters(a + b) == Letters(a) + Letters(b)
  {
    if a == [] {
      assert a + b == b;
    } else {
      assert (a + b)[1..] == a[1..] + b;
      LettersAppend(a[1..], b);
    }
  }

  lemma {:induction false} LettersOfSub(s: string)
    ensures Letters(SubNonAlnum(s, " ")) == Letters(s)
  {
    SubKeepsAlnum(s, " ");
    LettersOfAlnum(SubNonAlnum(s, " "));
    LettersOfAlnum(s);
  }

  /** A cleaned phrase holds only ASCII letters and spaces, and keeps every
    * letter of the phrase, in order. */
  lemma RakeCleanShape(phrase: string)
    ensures forall i :: 0 <= i < |RakeClean(phrase)| ==> IsLetter(RakeClean(phrase)[i]) || RakeClean(phrase)[i] == ' '
    ensures Letters(RakeClean(phrase)) == Letters(phrase)
  {
    SubSpaceCollapsed(phrase);
    DropDigitsShape(SubNonAlnum(phrase, " "));
    LettersOfSub(phrase);
  }

  function LongerThanOne(s: string): bool { |s| > 1 }

  /** `Keyword_generator.Rake` after the library call: clean each ranked
    * phrase, keep the results longer than one character, in rank order. */
  function RakeKeywords(ranked: seq<string>): (r: seq<string>)
  {
    Filter(LongerThanOne, Map(RakeClean, ranked))
  }

  /** Every RAKE keyword is longer than one character and made of ASCII
    * letters and spaces; it is the clean-up of a ranked phrase, and every
    * clean-up longer than one character is kept. */
  lemma RakeKeywordsShape(ranked: seq<string>, k: string)
    ensures k in RakeKeywords(ranked) <==> |k| > 1 && exists i :: 0 <= i < |ranked| && k == RakeClean(ranked[i])
    ensures k in RakeKeywords(ranked) ==> forall i :: 0 <= i < |k| ==> IsLetter(k[i]) || k[i] == ' '
  {
    var cleaned := Map(RakeClean, ranked);
    FilterMembers(LongerThanOne, cleaned, k);
    if k in cleaned {
      var i :| 0 <= i < |cleaned| && cleaned[i] == k;
      RakeCleanShape(ranked[i]);
    }
    if exists i :: 0 <= i < |ranked| && k == RakeClean(ranked[i]) {
      var i :| 0 <= i < |ranked| && k == RakeClean(ranked[i]);
      assert cleaned[i] == k;
    }
  }

  /** Rank order is kept: cleaning a longer list of phrases extends the keywords. */
  lemma RakeKeepsOrder(ranked: seq<string>, more: seq<string>)
    ensures RakeKeywords(ranked + more) == RakeKeywords(ranked) + RakeKeywords(more)
  {
    assert Map(RakeClean, ranked + more) == Map(RakeClean, ranked) + Map(RakeClean, more);
    FilterAppend(LongerThanOne, Map(RakeClean, ranked), Map(RakeClean, more));
  }

  function KeywordOf(pair: (string, real)): string { pair.0 }

  /** `Keyword_generator.Yake` after the library call: the keyword of each
    * (keyword, score) pair, in the extractor's order. */
  function YakeKeywords(scored: seq<(string, real)>): (r: seq<string>)
    ensures |r| == |scored|
    ensures forall i :: 0 <= i < |scored| ==> r[i] == scored[i].0
  {
    Map(KeywordOf, scored)
  }
}

=== FILE: markup.dfy ===
/** The text clean-up the two agency extractors share (NSF_Extractor.py and
  * NIH_Extractor.py): `re.sub(r'<[^>]+>', ' ', s)`, `re.sub(' +', ' ', s)`,
  * `s.replace("\xa0", "")` and `s.splitlines()`, and the table both build
  * from their page rows. */
module Markup {
  import opened Wrappers
  import opened Seqs
  import opened Text
  import Helpers

  /** The no-break space U+00A0. */
  const Nbsp: char := '\U{a0}'

  /** The position of the first '>' in `s`, or `|s|` when there is none. */
  function CloseAt(s: string): (k: nat)
    ensures k <= |s|
    ensures k < |s| ==> s[k] == '>'
    ensures forall i :: 0 <= i < k ==> s[i] != '>'
  {
    if s == [] || s[0] == '>' then 0 else 1 + CloseAt(s[1..])
  }

  /** A tag `<[^>]+>` starts at the head of `s`: a '<', at least one
    * character other than '>', then a '>'. */
  predicate TagAtHead(s: string)
  {
    s != [] && s[0] == '<' && 0 < CloseAt(s[1..]) < |s| - 1
  }

  /** `re.sub(r'<[^>]+>', ' ', s)`: scanning left to right, each tag becomes one space. */
  function SubTags(s: string): (r: string)
    ensures |r| <= |s|
    decreases |s|
  {
    if s == [] then []
    else if TagAtHead(s) then " " + SubTags(s[1..][CloseAt(s[1..]) + 1..])
    else [s[0]] + SubTags(s[1..])
  }

  /** A text without '<' has no tag. */
  lemma {:induction false} SubTagsNoTag(s: string)
    requires '<' !in s
    ensures SubTags(s) == s
  {
    if s != [] {
      assert s == [s[0]] + s[1..];
      SubTagsNoTag(s[1..]);
    }
  }

  /** Every character of the result comes from `s`, or is the space of a tag. */
  lemma {:induction false} SubTagsChars(s: string, c: char)
    requires c in SubTags(s) && c != ' '
    ensures c in s
    decreases |s|
  {
    if TagAtHead(s) {
      var rest := s[1..][CloseAt(s[1..]) + 1..];
      SubTagsChars(rest, c);
      assert forall x :: x in rest ==> x in s;
    } else if c != s[0] {
      SubTagsChars(s[1..], c);
    }
  }

  /** Drops the leading run of spaces. */
  function DropSpaces(s: string): (r: string)
    ensures |r| <= |s| && r == s[|s| - |r|..]
    ensures r == [] || r[0] != ' '
  {
    if s == [] || s[0] != ' ' then s else DropSpaces(s[1..])
  }

  /** `re.sub(' +', ' ', s)`: each run of spaces becomes one space. */
  function CollapseSpaces(s: string): (r: string)
    ensures |r| <= |s|
    ensures r == [] <==> s == []
    ensures s != [] ==> r[0] == s[0]
    decreases |s|
  {
    if s == [] then []
    else if s[0] == ' ' then " " + CollapseSpaces(DropSpaces(s[1..]))
    else [s[0]] + CollapseSpaces(s[1..])
  }

  /** No two spaces are adjacent. */
  predicate SingleSpaced(s: string)
  {
    forall i :: 0 <= i < |s| - 1 ==> s[i] != ' ' || s[i + 1] != ' '
  }

  /** After the collapse no two spaces are adjacent, and no character other
    * than a space is added. */
  lemma {:induction false} CollapseShape(s: string)
    ensures SingleSpaced(CollapseSpaces(s))
    ensures forall c :: c in CollapseSpaces(s) && c != ' ' ==> c in s
    decreases |s|
  {
    if s == [] {
    } else if s[0] == ' ' {
      var t := DropSpaces(s[1..]);
      CollapseShape(t);
      assert CollapseSpaces(s) == " " + CollapseSpaces(t);
      assert forall x :: x in t ==> x in s;
    } else {
      CollapseShape(s[1..]);
      assert CollapseSpaces(s) == [s[0]] + CollapseSpaces(s[1..]);
    }
  }

  /** A text with no two adjacent spaces is left as it is. */
  lemma {:induction false} CollapseSingleSpaced(s: string)
    requires SingleSpaced(s)
    ensures CollapseSpaces(s) == s
    decreases |s|
  {
    if s != [] {
      if s[0] == ' ' {
        assert s[1..] == [] || s[1] != ' ';
        assert DropSpaces(s[1..]) == s[1..];
      }
      CollapseSingleSpaced(s[1..]);
    }
  }

  function NotChar(c: char): char -> bool
  {
    (x: char) => x != c
  }

  /** `s.replace(c, "")`: every `c` deleted, the rest kept in order. */
  function DeleteChar(s: string, c: char): (r: string)
    ensures |r| <= |s|
  {
    Filter(NotChar(c), s)
  }

  lemma DeleteCharShape(s: string, c: char)
    ensures c !in DeleteChar(s, c)
    ensures forall x :: x in DeleteChar(s, c) ==> x in s
    ensures c !in s ==> DeleteChar(s, c) == s
  {
    FilterMembers(NotChar(c), s, c);
    forall x | x in DeleteChar(s, c) ensures x in s {
      FilterMembers(NotChar(c), s, x);
    }
    if c !in s {
      FilterKeepsAll(NotChar(c), s);
    }
  }

  /** NSF's `remove_tags(text)`: every tag becomes a space and every U+00A0 is deleted. */
  function RemoveTags(text: string): (r: string)
    ensures |r| <= |text|
    ensures Nbsp !in r
  {
    DeleteCharShape(SubTags(text), Nbsp);
    DeleteChar(SubTags(text), Nbsp)
  }

  /** `clean_text(text)` (the same in both extractors): tags become spaces,
    * runs of spaces collapse to one, then every U+00A0 is deleted. */
  function CleanText(text: string): (r: string)
    ensures |r| <= |text|
    ensures Nbsp !in r
    ensures forall c :: c in r && c != ' ' ==> c in text
  {
    CollapseShape(SubTags(text));
    DeleteCharShape(CollapseSpaces(SubTags(text)), Nbsp);
    forall c | c in DeleteChar(CollapseSpaces(SubTags(text)), Nbsp) && c != ' ' ensures c in text {
      SubTagsChars(text, c);
    }
    DeleteChar(CollapseSpaces(SubTags(text)), Nbsp)
  }

  /** A text with no '<', no two adjacent spaces and no U+00A0 is already clean. */
  lemma CleanTextFixes(text: string)
    requires '<' !in text && SingleSpaced(text) && Nbsp !in text
    ensures CleanText(text) == text
  {
    SubTagsNoTag(text);
    CollapseSingleSpaced(text);
    DeleteCharShape(text, Nbsp);
  }

  // ---------------------------------------------------------------------
  // str.splitlines()

  /** The line boundaries of `str.splitlines()`. */
  predicate IsLineBreak(c: char)
  {
    c == '\n' || c == '\r' || c == '\U{b}' || c == '\U{c}' || c == '\U{1c}' || c == '\U{1d}'
    || c == '\U{1e}' || c == '\U{85}' || c == '\U{2028}' || c == '\U{2029}'
  }

  /** The longest prefix without a line boundary. */
  function TakeLine(s: string): (l: string)
    ensures |l| <= |s| && l == s[..|l|]
    ensures forall i :: 0 <= i < |l| ==> !IsLineBreak(l[i])
    ensures |l| < |s| ==> IsLineBreak(s[|l|])
  {
    if s == [] || IsLineBreak(s[0]) then [] else [s[0]] + TakeLine(s[1..])
  }

  /** `s.splitlines()`: the lines, "\r\n" counting as one boundary, and no
    * empty line after a final boundary. */
  function SplitLines(s: string): (ls: seq<string>)
    ensures forall j :: 0 <= j < |ls| ==> forall i :: 0 <= i < |ls[j]| ==> !IsLineBreak(ls[j][i])
    decreases |s|
  {
    if s == [] then []
    else
      var line := TakeLine(s);
      var rest := s[|line|..];
      if rest == [] then [line]
      else if |rest| >= 2 && rest[0] == '\r' && rest[1] == '\n' then [line] + SplitLines(rest[2..])
      else [line] + SplitLines(rest[1..])
  }

  /** A text without line boundaries is one line (or none, when empty). */
  lemma {:induction false} TakeLineAll(s: string)
    requires forall i :: 0 <= i < |s| ==> !IsLineBreak(s[i])
    ensures TakeLine(s) == s
  {
    if s != [] {
      TakeLineAll(s[1..]);
    }
  }

  lemma SplitLinesOneLine(s: string)
    requires forall i :: 0 <= i < |s| ==> !IsLineBreak(s[i])
    ensures SplitLines(s) == if s == [] then [] else [s]
  {
    TakeLineAll(s);
  }

  /** Joining the lines never brings back a boundary. */
  lemma {:induction false} JoinNoBreak(sep: string, ls: seq<string>)
    requires forall i :: 0 <= i < |sep| ==> !IsLineBreak(sep[i])
    requires forall j :: 0 <= j < |ls| ==> forall i :: 0 <= i < |ls[j]| ==> !IsLineBreak(ls[j][i])
    ensures forall i :: 0 <= i < |Join(sep, ls)| ==> !IsLineBreak(Join(sep, ls)[i])
  {
    if |ls| > 1 {
      JoinNoBreak(sep, ls[1..]);
      var rest := Join(sep, ls[1..]);
      assert Join(sep, ls) == ls[0] + sep + rest;
      forall i | 0 <= i < |Join(sep, ls)| ensures !IsLineBreak(Join(sep, ls)[i]) {
        if i < |ls[0]| {
        } else if i < |ls[0]| + |sep| {
          assert Join(sep, ls)[i] == sep[i - |ls[0]|];
        } else {
          assert Join(sep, ls)[i] == rest[i - |ls[0]| - |sep|];
        }
      }
    }
  }

  /** `sep.join(s.splitlines())`: the text has no line boundary left. */
  function JoinLines(sep: string, s: string): (r: string)
    requires forall i :: 0 <= i < |sep| ==> !IsLineBreak(sep[i])
    ensures forall i :: 0 <= i < |r| ==> !IsLineBreak(r[i])
  {
    JoinNoBreak(sep, SplitLines(s));
    Join(sep, SplitLines(s))
  }

  // ---------------------------------------------------------------------
  // The saved table of extract_all

  /** A row of the Grants.gov table an extractor is given. */
  datatype GrantRow = GrantRow(oppNumber: Option<string>, oppTitle: Option<string>, infoUrl: Option<string>)

  /** The page fields a row of `cfp_df` contributes: URL, organisation and description. */
  datatype CfpRow = CfpRow(url: string, organization: Option<string>, description: Option<string>)

  /** A row of the saved file: Opportunity Number, URL, Title, Department, Description. */
  datatype FinalRow = FinalRow(oppNumber: Option<string>, url: string, title: Option<string>,
                               department: Option<string>, description: Option<string>)

  function CfpKey(c: CfpRow): Option<string> { Some(c.url) }
  function GrantKey(g: GrantRow): Option<string> { g.infoUrl }

  function FinalRowOf(m: (CfpRow, Option<GrantRow>)): FinalRow
  {
    match m.1
    case Some(g) => FinalRow(g.oppNumber, m.0.url, g.oppTitle, m.0.organization, m.0.description)
    case None => FinalRow(None, m.0.url, None, m.0.organization, m.0.description)
  }

  /** `pd.merge(cfp_df, main_data, left_on='URL', right_on='AdditionalInformationURL',
    * how='left')` and the column selection and renaming that follow. */
  function FinalTable(cfp: seq<CfpRow>, grants: seq<GrantRow>): seq<FinalRow>
  {
    Map(FinalRowOf, Helpers.LeftMerge(cfp, grants, CfpKey, GrantKey))
  }

  /** Every page row reaches the file: with the opportunity number and title
    * of each listing whose URL is the page's, or with NaN for both when no
    * listing has that URL. */
  lemma FinalTableRows(cfp: seq<CfpRow>, grants: seq<GrantRow>, c: CfpRow)
    requires c in cfp
    ensures (exists g :: g in grants && g.infoUrl == Some(c.url))
            ==> forall g :: g in grants && g.infoUrl == Some(c.url)
                  ==> FinalRow(g.oppNumber, c.url, g.oppTitle, c.organization, c.description) in FinalTable(cfp, grants)
    ensures (forall g :: g in grants ==> g.infoUrl != Some(c.url))
            ==> FinalRow(None, c.url, None, c.organization, c.description) in FinalTable(cfp, grants)
    ensures |FinalTable(cfp, grants)| >= |cfp|
  {
    var merged := Helpers.LeftMerge(cfp, grants, CfpKey, GrantKey);
    Helpers.LeftMergeKeeps(cfp, grants, CfpKey, GrantKey);
    forall g | g in grants && g.infoUrl == Some(c.url)
      ensures FinalRow(g.oppNumber, c.url, g.oppTitle, c.organization, c.description) in FinalTable(cfp, grants)
    {
      Helpers.LeftMergeMembers(cfp, grants, CfpKey, GrantKey, (c, Some(g)));
      var i :| 0 <= i < |merged| && merged[i] == (c, Some(g));
      assert FinalTable(cfp, grants)[i] == FinalRowOf((c, Some(g)));
    }
    if forall g :: g in grants ==> g.infoUrl != Some(c.url) {
      Helpers.LeftMergeMembers(cfp, grants, CfpKey, GrantKey, (c, None));
      var i :| 0 <= i < |merged| && merged[i] == (c, None);
      assert FinalTable(cfp, grants)[i] == FinalRowOf((c, None));
    }
  }
}

=== FILE: nih.dfy ===
/** Agency_proposal_extractor/NIH_Extractor.py: reads an NIH funding
  * announcement into its organisation and description. A page is given as
  * what the parser finds in it: the status code of the response, the texts
  * of the `col-md-8 datacolumn` divs, the text of the div that follows the
  * linked-element label (`None` when the label or the div after it is
  * missing), and the list of all elements. */
module Nih {
  import opened Wrappers
  import opened Seqs
  import opened Text
  import Markup

  /** One element of `soup.find_all()`: its text, whether it is the anchor
    * named `_Section_I._Funding`, and whether it holds a link to
    * `#_Section_VIII._Other`. */
  datatype NihElement = NihElement(text: string, isFundingAnchor: bool, linksOther: bool)

  datatype NihPage = NihPage(status: int, datacolumns: seq<string>, linkedNext: Option<string>,
                             elements: seq<NihElement>)

  /** The row `extract_page_info` returns: URL, organisation and description, NaN or None as `None`. */
  datatype NihRow = NihRow(url: string, organization: Option<string>, description: Option<string>)

  // ---------------------------------------------------------------------
  // get_organisation

  /** `' '.join(text.splitlines())`. */
  function Dept(text: string): (r: string)
    ensures forall i :: 0 <= i < |r| ==> !Markup.IsLineBreak(r[i])
  {
    Markup.JoinLines(" ", text)
  }

  /** The candidate departments the lookups reach, in the order they are
    * tried: the second data column, the div after the linked-element label,
    * the third data column; the lookups stop at the first that fails. */
  function Reached(p: NihPage): (r: seq<string>)
    ensures |r| <= 3
  {
    if |p.datacolumns| < 2 then []
    else if p.linkedNext.None? then [Dept(p.datacolumns[1])]
    else if |p.datacolumns| < 3 then [Dept(p.datacolumns[1]), Dept(p.linkedNext.value)]
    else [Dept(p.datacolumns[1]), Dept(p.linkedNext.value), Dept(p.datacolumns[2])]
  }

  /** The branches of `get_organisation` once the first lookup has bound `dept`. */
  function OrgAfterFirst(p: NihPage): Option<string>
    requires |p.datacolumns| >= 2
  {
    var d1 := Dept(p.datacolumns[1]);
    if d1 != "" then Some(d1)
    else match p.linkedNext
      case None => Some(d1)
      case Some(t) =>
        var d2 := Dept(t);
        if d2 != "" then Some(d2)
        else if |p.datacolumns| < 3 then Some(d2)
        else
          var d3 := Dept(p.datacolumns[2]);
          if d3 != "" then Some(d3) else None
  }

  /** `get_organisation()` as written: when the first lookup fails, the
    * handler returns `dept` before anything has bound it, and raises
    * `UnboundLocalError` (a `NameError`). */
  function OrganisationAsWritten(p: NihPage): (r: Result<Option<string>>)
    ensures r.Err? <==> |p.datacolumns| < 2
    ensures r.Err? ==> r.error == NameError
    ensures r.Ok? ==> r.value == Organisation(p)
  {
    if |p.datacolumns| < 2 then Err(NameError) else Ok(OrgAfterFirst(p))
  }

  /** `get_organisation()` as evidently intended: the first non-empty
    * department the lookups reach; `""` when a lookup fails after only empty
    * ones; `None` when nothing is found or all three are empty. */
  function Organisation(p: NihPage): (r: Option<string>)
    ensures r.Some? ==> forall i :: 0 <= i < |r.value| ==> !Markup.IsLineBreak(r.value[i])
    ensures r.Some? && r.value != "" <==> exists k :: 0 <= k < |Reached(p)| && Reached(p)[k] != ""
    ensures forall k :: 0 <= k < |Reached(p)| && Reached(p)[k] != "" && (forall j :: 0 <= j < k ==> Reached(p)[j] == "")
              ==> r == Some(Reached(p)[k])
    ensures r.None? <==> (|Reached(p)| == 0 || |Reached(p)| == 3) && forall k :: 0 <= k < |Reached(p)| ==> Reached(p)[k] == ""
  {
    if |p.datacolumns| < 2 then None
    else
      OrgAfterFirstReached(p);
      OrgAfterFirst(p)
  }

  lemma OrgAfterFirstReached(p: NihPage)
    requires |p.datacolumns| >= 2
    ensures var R := Reached(p); var r := OrgAfterFirst(p);
            (r.Some? && r.value != "" <==> exists k :: 0 <= k < |R| && R[k] != "")
            && (forall k :: 0 <= k < |R| && R[k] != "" && (forall j :: 0 <= j < k ==> R[j] == "") ==> r == Some(R[k]))
            && (r.None? <==> (|R| == 0 || |R| == 3) && forall k :: 0 <= k < |R| ==> R[k] == "")
  {
    var R := Reached(p);
    if R[0] != "" {
      assert R[0] != "";
    } else if |R| >= 2 && R[1] != "" {
      assert R[1] != "";
    } else if |R| == 3 && R[2] != "" {
      assert R[2] != "";
    }
  }

  // ---------------------------------------------------------------------
  // get_description

  /** `divs.index(soup.find('a', {'name': '_Section_I._Funding'}))`. */
  function FundingStart(es: seq<NihElement>): (r: Option<nat>)
    ensures r.Some? ==> r.value < |es| && es[r.value].isFundingAnchor
                        && forall j :: 0 <= j < r.value ==> !es[j].isFundingAnchor
    ensures r.None? ==> forall j :: 0 <= j < |es| ==> !es[j].isFundingAnchor
  {
    if es == [] then None
    else if es[0].isFundingAnchor then Some(0)
    else match FundingStart(es[1..])
      case None => None
      case Some(k) => Some(k + 1)
  }

  /** The elements the loop visits: up to and including the first that links
    * to section VIII, or all of them. */
  function ThroughOther(es: seq<NihElement>): (r: seq<NihElement>)
    ensures |r| <= |es| && r == es[..|r|]
    ensures forall j :: 0 <= j < |r| - 1 ==> !r[j].linksOther
    ensures |r| < |es| ==> |r| > 0 && r[|r| - 1].linksOther
    ensures es != [] ==> r != []
  {
    if es == [] then []
    else if es[0].linksOther then [es[0]]
    else [es[0]] + ThroughOther(es[1..])
  }

  /** The loop stops at the first link to section VIII, or runs to the end. */
  lemma {:induction false} ThroughOtherUpTo(es: seq<NihElement>, n: nat)
    requires n <= |es| && (n == 0 ==> es == [])
    requires forall j :: 0 <= j < n - 1 ==> !es[j].linksOther
    requires n == |es| || es[n - 1].linksOther
    ensures ThroughOther(es) == es[..n]
  {
    if es != [] && !es[0].linksOther {
      ThroughOtherUpTo(es[1..], n - 1);
      assert es[..n] == [es[0]] + es[1..][..n - 1];
    }
  }

  function TextOf(e: NihElement): string
  {
    e.text
  }

  /** The texts the loop collects, `None` when the page has no funding anchor. */
  function DescriptionTexts(es: seq<NihElement>): Option<seq<string>>
  {
    match FundingStart(es)
    case None => None
    case Some(k) => Some(Map(TextOf, ThroughOther(es[k..])))
  }

  /** `get_description()`: the texts from the funding anchor through the link
    * to section VIII, run together, their line breaks removed, then cleaned;
    * `""` when there is no funding anchor. The result is one line without
    * U+00A0, and each of its characters other than a space comes from the
    * collected texts. */
  function Description(es: seq<NihElement>): (r: string)
    ensures forall i :: 0 <= i < |r| ==> !Markup.IsLineBreak(r[i])
    ensures Markup.Nbsp !in r
    ensures DescriptionTexts(es).None? ==> r == ""
    ensures DescriptionTexts(es).Some? ==> forall c :: c in r && c != ' ' ==> c in Join("", DescriptionTexts(es).value)
  {
    match DescriptionTexts(es)
    case None => ""
    case Some(texts) =>
      var joined := Join("", texts);
      var oneLine := Markup.JoinLines("", joined);
      OneLineChars(oneLine, joined);
      NoBreakChars(oneLine, Markup.CleanText(oneLine));
      Markup.CleanText(oneLine)
  }

  /** A text whose characters other than spaces come from a one-line text is one line. */
  lemma NoBreakChars(s: string, t: string)
    requires forall i :: 0 <= i < |s| ==> !Markup.IsLineBreak(s[i])
    requires forall c :: c in t && c != ' ' ==> c in s
    ensures forall i :: 0 <= i < |t| ==> !Markup.IsLineBreak(t[i])
  {
    forall i | 0 <= i < |t| ensures !Markup.IsLineBreak(t[i]) {
      if t[i] != ' ' {
        assert t[i] in s;
      }
    }
  }

  /** The characters `"".join(s.splitlines())` keeps are characters of `s`. */
  lemma OneLineChars(oneLine: string, s: string)
    requires oneLine == Markup.JoinLines("", s)
    ensures forall c :: c in oneLine ==> c in s
  {
    JoinLinesChars(s);
  }

  lemma {:induction false} JoinLinesChars(s: string)
    ensures forall c :: c in Markup.JoinLines("", s) ==> c in s
    decreases |s|
  {
    var ls := Markup.SplitLines(s);
    assert Markup.JoinLines("", s) == Join("", ls);
    if s != [] {
      var line := Markup.TakeLine(s);
      var rest := s[|line|..];
      assert s == line + rest;
      if rest != [] {
        var next := if |rest| >= 2 && rest[0] == '\r' && rest[1] == '\n' then rest[2..] else rest[1..];
        assert ls == [line] + Markup.SplitLines(next);
        JoinLinesChars(next);
        assert Markup.JoinLines("", next) == Join("", Markup.SplitLines(next));
        JoinEmptySep(line, Markup.SplitLines(next));
        forall c | c in Join("", ls) ensures c in s {
          assert c in line || c in Join("", Markup.SplitLines(next));
          if c in Join("", Markup.SplitLines(next)) {
            assert c in next;
            assert forall x :: x in next ==> x in rest;
          }
        }
      }
    }
  }

  /** With an empty separator, joining a first line to the rest concatenates them. */
  lemma JoinEmptySep(line: string, ls: seq<string>)
    ensures Join("", [line] + ls) == line + Join("", ls)
  {
    if ls != [] {
      assert ([line] + ls)[1..] == ls;
    }
  }

  // ---------------------------------------------------------------------
  // extract_page_info

  /** The row of a request that raised, of a 404 page, or of an error raised
    * while reading the page. */
  function NaNRow(url: string): NihRow
  {
    NihRow(url, None, None)
  }

  /** `extract_page_info(url, i)` as written, on the page fetched for `url`
    * (`None` when a request raised). */
  function PageRowAsWritten(url: string, page: Option<NihPage>): (r: NihRow)
    ensures r.url == url
  {
    match page
    case None => NaNRow(url)
    case Some(p) =>
      if p.status == 404 then NaNRow(url)
      else match OrganisationAsWritten(p)
        case Err(_) => NaNRow(url)
        case Ok(org) => NihRow(url, org, Some(Description(p.elements)))
  }

  /** `extract_page_info(url, i)` with `get_organisation` as intended: every
    * page that answers with a status other than 404 gives its description. */
  function PageRowOf(url: string, page: Option<NihPage>): (r: NihRow)
    ensures r.url == url
    ensures r.description.Some? <==> page.Some? && page.value.status != 404
    ensures r.description.Some? ==> r.description == Some(Description(page.value.elements))
                                    && r.organization == Organisation(page.value)
    ensures r.description.None? ==> r.organization.None?
  {
    match page
    case None => NaNRow(url)
    case Some(p) =>
      if p.status == 404 then NaNRow(url)
      else NihRow(url, Organisation(p), Some(Description(p.elements)))
  }

  /** The discrepancy: a page with fewer than two data columns loses its
    * description, which the intended behaviour keeps. */
  lemma AsWrittenLosesDescription(url: string, p: NihPage)
    requires p.status != 404 && |p.datacolumns| < 2
    ensures PageRowAsWritten(url, Some(p)) == NaNRow(url)
    ensures PageRowOf(url, Some(p)) == NihRow(url, None, Some(Description(p.elements)))
  {
  }

  /** Everywhere else the code as written and the intended behaviour agree. */
  lemma AsWrittenAgrees(url: string, page: Option<NihPage>)
    requires page.Some? ==> page.value.status == 404 || |page.value.datacolumns| >= 2
    ensures PageRowAsWritten(url, page) == PageRowOf(url, page)
  {
  }

  function CfpOf(row: NihRow): Markup.CfpRow
  {
    Markup.CfpRow(row.url, row.organization, row.description)
  }

  function RowFor(fetch: string -> Option<NihPage>): string -> NihRow
  {
    (url: string) => PageRowOf(url, fetch(url))
  }

  class NIHExtractor {
    const urls: seq<string>
    const mainData: seq<Markup.GrantRow>
    const saveFilename: string
    var soup: Option<NihPage>

    constructor(urls: seq<string>, mainData: seq<Markup.GrantRow>, saveFilename: string)
      ensures this.urls == urls && this.mainData == mainData && this.saveFilename == saveFilename
      ensures soup.None?
    {
      this.urls := urls;
      this.mainData := mainData;
      this.saveFilename := saveFilename;
      soup := None;
    }

    /** `get_response(url)`: the parsed page, with its status code, replaces
      * `soup`; a request that raises leaves it as it was. */
    method GetResponse(url: string, fetch: string -> Option<NihPage>) returns (ok: bool)
      modifies this`soup
      ensures ok <==> fetch(url).Some?
      ensures soup == if ok then fetch(url) else old(soup)
    {
      ok := fetch(url).Some?;
      if ok {
        soup := fetch(url);
      }
    }

    /** The loop of `get_description` over the elements of `soup`. */
    method GetDescription() returns (r: string)
      requires soup.Some?
      ensures r == Description(soup.value.elements)
    {
      var divs := soup.value.elements;
      var start := FundingStart(divs);
      if start.None? {
        return "";
      }
      var rest := divs[start.value..];
      var desc: seq<string> := [];
      var i := 0;
      while i < |rest|
        invariant 0 <= i <= |rest|
        invariant desc == Map(TextOf, rest[..i])
        invariant forall j :: 0 <= j < i ==> !rest[j].linksOther
      {
        assert rest[..i + 1] == rest[..i] + [rest[i]];
        desc := desc + [rest[i].text];
        if rest[i].linksOther {
          ThroughOtherUpTo(rest, i + 1);
          assert desc == Map(TextOf, rest[..i + 1]);
          assert Map(TextOf, ThroughOther(rest)) == desc;
          assert DescriptionTexts(divs) == Some(desc);
          return Markup.CleanText(Markup.JoinLines("", Join("", desc)));
        }
        i := i + 1;
      }
      ThroughOtherUpTo(rest, |rest|);
      assert rest[..|rest|] == rest;
      r := Markup.CleanText(Markup.JoinLines("", Join("", desc)));
    }

    /** `extract_page_info(url, i)`, with `get_organisation` as intended. */
    method ExtractPageInfo(url: string, fetch: string -> Option<NihPage>) returns (row: NihRow)
      modifies this`soup
      ensures row == PageRowOf(url, fetch(url))
    {
      var ok := GetResponse(url, fetch);
      if !ok {
        return NaNRow(url);
      }
      ok := GetResponse(url, fetch);
      if soup.value.status == 404 {
        return NaNRow(url);
      }
      var org := Organisation(soup.value);
      var desc := GetDescription();
      row := NihRow(url, org, Some(desc));
    }

    /** `extract_all`: one row per URL in order, then the table that is saved,
      * from the rows and the Grants.gov listing. */
    method ExtractAll(fetch: string -> Option<NihPage>) returns (finalData: seq<Markup.FinalRow>)
      modifies this`soup
      ensures finalData == Markup.FinalTable(Map(CfpOf, Map(RowFor(fetch), urls)), mainData)
    {
      var descs: seq<NihRow> := [];
      for i := 0 to |urls|
        invariant descs == Map(RowFor(fetch), urls[..i])
      {
        var row := ExtractPageInfo(urls[i], fetch);
        descs := descs + [row];
      }
      assert urls[..|urls|] == urls;
      finalData := Markup.FinalTable(Map(CfpOf, descs), mainData);
    }
  }
}

=== FILE: nsf.dfy ===
/** Agency_proposal_extractor/NSF_Extractor.py: reads an NSF solicitation
  * page into a row of keywords. A page is given as what the parser finds
  * in it: the `<title>` element, the cell that names the division, and the
  * list of all elements, each with its tag name, the ids of the anchors it
  * contains and its HTML text. */
module Nsf {
  import opened Wrappers
  import opened Seqs
  import opened Text
  import Helpers
  import Markup

  /** One element of `soup.find_all()`. */
  datatype Element = Element(name: string, anchorIds: set<string>, html: string)

  /** A parsed solicitation page: the HTML of its `<title>` (`None` when it
    * has none), the HTML of the last cell of the first row of the nested
    * table (`None` when that chain of lookups fails), and all its elements. */
  datatype Page = Page(title: Option<string>, dept: Option<string>, elements: seq<Element>)

  /** The row `extract_page_info` returns: the URL and four keyword texts, NaN as `None`. */
  datatype PageRow = PageRow(url: string, title: Option<string>, dept: Option<string>,
                             intro: Option<string>, desc: Option<string>)

  // ---------------------------------------------------------------------
  // processing

  /** The words of the agency's name, which `processing` removes. */
  const AgencyWords: seq<string> := ["national", "science", "foundation"]

  /** Python's `s.isdigit()` over ASCII: non-empty and all digits. */
  predicate IsDigits(s: string)
  {
    |s| > 0 && forall i :: 0 <= i < |s| ==> IsDigit(s[i])
  }

  predicate KeepsToken(t: string)
  {
    t !in AgencyWords && !IsDigits(t)
  }

  function ProcessedTokens(text: string, nlp: Helpers.Nlp): seq<string>
  {
    Filter(KeepsToken, Helpers.Tokens(text, 3, nlp))
  }

  /** The filter drops exactly the name words and the numbers, keeping every
    * other token as often as tokenize produced it. */
  lemma ProcessedTokensExact(text: string, nlp: Helpers.Nlp, t: string)
    ensures multiset(ProcessedTokens(text, nlp))[t]
            == if t in AgencyWords || IsDigits(t) then 0 else multiset(Helpers.Tokens(text, 3, nlp))[t]
  {
    FilterCount(KeepsToken, Helpers.Tokens(text, 3, nlp), t);
  }

  lemma ProcessedTokensClean(text: string, nlp: Helpers.Nlp)
    ensures Helpers.NoSpaceLemmas(nlp)
            ==> forall j :: 0 <= j < |ProcessedTokens(text, nlp)| ==> Clean(ProcessedTokens(text, nlp)[j], " ")
  {
    var ts := ProcessedTokens(text, nlp);
    forall j | 0 <= j < |ts| ensures ts[j] in Helpers.Tokens(text, 3, nlp) {
      FilterMembers(KeepsToken, Helpers.Tokens(text, 3, nlp), ts[j]);
    }
  }

  /** `processing(id_, text)`: the tokens of the text, without the name
    * words and the numbers, joined with spaces; split on spaces the text
    * gives those tokens back. The id is not used. */
  function Processing(text: string, nlp: Helpers.Nlp): (r: string)
    ensures Helpers.NoSpaceLemmas(nlp) ==> Helpers.StoredAs(r, ProcessedTokens(text, nlp))
  {
    ProcessedTokensClean(text, nlp);
    Helpers.JoinStored(ProcessedTokens(text, nlp));
    Join(" ", ProcessedTokens(text, nlp))
  }

  // ---------------------------------------------------------------------
  // isSection and get_intro_desc

  const IntroId: string := "pgm_intr_txt"
  const DescId: string := "pgm_desc_txt"
  const AwardId: string := "awd_info"

  /** `isSection(ele, eleId)`: an `h3` holding an anchor with that id. */
  predicate IsSection(e: Element, eleId: string)
  {
    e.name == "h3" && eleId in e.anchorIds
  }

  /** A header of one of the three sections. */
  predicate IsHeader(e: Element)
  {
    IsSection(e, IntroId) || IsSection(e, DescId) || IsSection(e, AwardId)
  }

  /** What one loop step appends: the index once for each of the three ids it heads. */
  function HitsAt(e: Element, idx: nat): seq<nat>
  {
    (if IsSection(e, IntroId) then [idx] else [])
    + (if IsSection(e, DescId) then [idx] else [])
    + (if IsSection(e, AwardId) then [idx] else [])
  }

  /** `idxList` after the loop over `elements`. */
  function SectionIndices(elements: seq<Element>): seq<nat>
    decreases |elements|
  {
    if elements == [] then []
    else SectionIndices(elements[..|elements| - 1]) + HitsAt(elements[|elements| - 1], |elements| - 1)
  }

  /** Every index found is the index of a section header. */
  lemma {:induction false} SectionIndicesHeaders(elements: seq<Element>)
    ensures forall p :: 0 <= p < |SectionIndices(elements)| ==>
              SectionIndices(elements)[p] < |elements| && IsHeader(elements[SectionIndices(elements)[p]])
    decreases |elements|
  {
    if elements != [] {
      var n := |elements| - 1;
      var init := elements[..n];
      SectionIndicesHeaders(init);
      var ix := SectionIndices(elements);
      var head := SectionIndices(init);
      var hits := HitsAt(elements[n], n);
      assert ix == head + hits;
      assert forall p :: 0 <= p < |hits| ==> hits[p] == n;
      forall p | 0 <= p < |ix| ensures ix[p] < |elements| && IsHeader(elements[ix[p]]) {
        if p < |head| {
          assert ix[p] == head[p] && elements[head[p]] == init[head[p]];
        } else {
          assert ix[p] == hits[p - |head|];
        }
      }
    }
  }

  /** The indices come in document order. */
  lemma {:induction false} SectionIndicesSorted(elements: seq<Element>)
    ensures forall p, q :: 0 <= p < q < |SectionIndices(elements)| ==> SectionIndices(elements)[p] <= SectionIndices(elements)[q]
    decreases |elements|
  {
    if elements != [] {
      var n := |elements| - 1;
      var init := elements[..n];
      SectionIndicesSorted(init);
      SectionIndicesHeaders(init);
      var ix := SectionIndices(elements);
      var head := SectionIndices(init);
      var hits := HitsAt(elements[n], n);
      assert ix == head + hits;
      assert forall p :: 0 <= p < |hits| ==> hits[p] == n;
      forall p, q | 0 <= p < q < |ix| ensures ix[p] <= ix[q] {
        if q >= |head| {
          assert ix[q] == n;
          if p < |head| {
            assert ix[p] == head[p];
          } else {
            assert ix[p] == hits[p - |head|];
          }
        }
      }
    }
  }

  /** Every section header is found. */
  lemma {:induction false} SectionIndicesComplete(elements: seq<Element>)
    ensures forall i :: 0 <= i < |elements| && IsHeader(elements[i]) ==> i in SectionIndices(elements)
    decreases |elements|
  {
    if elements != [] {
      var n := |elements| - 1;
      var init := elements[..n];
      SectionIndicesComplete(init);
      var ix := SectionIndices(elements);
      var head := SectionIndices(init);
      var hits := HitsAt(elements[n], n);
      assert ix == head + hits;
      forall i | 0 <= i < |elements| && IsHeader(elements[i]) ensures i in ix {
        if i < n {
          assert init[i] == elements[i];
          var p :| 0 <= p < |head| && head[p] == i;
          assert ix[p] == i;
        } else {
          assert hits != [] && hits[0] == n;
          assert ix[|head|] == n;
        }
      }
    }
  }

  /** One found index, as a bound the slices below need. */
  lemma IndexInside(elements: seq<Element>, p: nat)
    requires p < |SectionIndices(elements)|
    ensures SectionIndices(elements)[p] < |elements|
  {
    SectionIndicesHeaders(elements);
  }

  /** `elements[from:to]` for `0 <= from <= |elements| + 1`: empty when `from > to`. */
  function Between(elements: seq<Element>, from: nat, to: nat): seq<Element>
    requires to <= |elements|
  {
    if from <= to then elements[from..to] else []
  }

  function ElementText(e: Element): string
  {
    Markup.RemoveTags(e.html)
  }

  /** The elements' texts, tags removed, joined with spaces. */
  function SectionText(elements: seq<Element>): string
  {
    Join(" ", Map(ElementText, elements))
  }

  /** `get_intro_desc()`: the processed text of the elements strictly between
    * the first and the second header found, and between the second and the
    * third; fewer than three headers raise `IndexError`. */
  function IntroDesc(elements: seq<Element>, nlp: Helpers.Nlp): Result<(string, string)>
  {
    var ix := SectionIndices(elements);
    if |ix| < 3 then Err(IndexError)
    else
      IndexInside(elements, 1);
      IndexInside(elements, 2);
      Ok(Texts(elements, ix, nlp))
  }

  /** The processed introduction and description between the first three headers found. */
  function Texts(elements: seq<Element>, ix: seq<nat>, nlp: Helpers.Nlp): (string, string)
    requires |ix| >= 3 && ix[1] <= |elements| && ix[2] <= |elements|
  {
    (Processing(SectionText(Between(elements, ix[0] + 1, ix[1])), nlp),
     Processing(SectionText(Between(elements, ix[1] + 1, ix[2])), nlp))
  }

  /** The page has both texts exactly when three headers are found, and no
    * element used for either text is itself a section header. */
  lemma IntroDescShape(elements: seq<Element>, nlp: Helpers.Nlp)
    ensures IntroDesc(elements, nlp).Ok? <==> |SectionIndices(elements)| >= 3
    ensures |SectionIndices(elements)| >= 3 ==>
              var ix := SectionIndices(elements);
              (forall j :: 0 <= j < |elements| && ix[0] < j < ix[1] ==> !IsHeader(elements[j]))
              && (forall j :: 0 <= j < |elements| && ix[1] < j < ix[2] ==> !IsHeader(elements[j]))
  {
    SectionIndicesHeaders(elements);
    SectionIndicesSorted(elements);
    SectionIndicesComplete(elements);
    var ix := SectionIndices(elements);
    if |ix| >= 3 {
      forall j | 0 <= j < |elements| && ix[0] < j < ix[2] && j != ix[1] ensures !IsHeader(elements[j]) {
        if IsHeader(elements[j]) {
          assert false;
        }
      }
    }
  }

  // ---------------------------------------------------------------------
  // extract_page_info

  /** `str(soup.find("title"))`: "None" when the page has no title. */
  function TitleHtml(p: Page): string
  {
    match p.title
    case None => "None"
    case Some(h) => h
  }

  /** `extract_page_info(url, i)` on the page fetched for `url` (`None` when
    * a request raised): URL, processed title, division, introduction and
    * description, or the URL and four NaNs when anything raises. */
  function PageRowOf(url: string, page: Option<Page>, nlp: Helpers.Nlp): (r: PageRow)
    ensures r.url == url
    ensures r.title.Some? <==> page.Some? && page.value.dept.Some? && IntroDesc(page.value.elements, nlp).Ok?
    ensures r.title.Some? == r.dept.Some? == r.intro.Some? == r.desc.Some?
    ensures page.Some? && page.value.dept.Some? && IntroDesc(page.value.elements, nlp).Ok? ==>
              r.title == Some(Processing(Markup.RemoveTags(TitleHtml(page.value)), nlp))
              && r.dept == Some(Processing(Markup.RemoveTags(page.value.dept.value), nlp))
              && r.intro == Some(IntroDesc(page.value.elements, nlp).value.0)
              && r.desc == Some(IntroDesc(page.value.elements, nlp).value.1)
  {
    match page
    case None => PageRow(url, None, None, None, None)
    case Some(p) =>
      match (p.dept, IntroDesc(p.elements, nlp))
      case (Some(d), Ok((intro, desc))) =>
        PageRow(url, Some(Processing(Markup.RemoveTags(TitleHtml(p)), nlp)),
                Some(Processing(Markup.RemoveTags(d), nlp)), Some(intro), Some(desc))
      case _ => PageRow(url, None, None, None, None)
  }

  /** A page without a `<title>` is not an error: its title row is
    * processed from the text "None". */
  lemma MissingTitleIsNone(url: string, p: Page, nlp: Helpers.Nlp)
    requires p.title.None? && p.dept.Some? && IntroDesc(p.elements, nlp).Ok?
    ensures PageRowOf(url, Some(p), nlp).title == Some(Processing("None", nlp))
  {
    Markup.SubTagsNoTag("None");
    Markup.DeleteCharShape("None", Markup.Nbsp);
  }

/** One more element appends its hits. */
  lemma SectionIndicesStep(elements: seq<Element>, idx: nat)
    requires idx < |elements|
    ensures SectionIndices(elements[..idx + 1]) == SectionIndices(elements[..idx]) + HitsAt(elements[idx], idx)
  {
    var upto := elements[..idx + 1];
    assert upto[..idx] == elements[..idx] && upto[idx] == elements[idx];
  }

    /** The loop of `get_intro_desc()`: the index of every element, once for
    * each of the three section ids it heads. */
  method FindSections(elements: seq<Element>) returns (idxList: seq<nat>)
    ensures idxList == SectionIndices(elements)
  {
    idxList := [];
    for idx := 0 to |elements|
      invariant idxList == SectionIndices(elements[..idx])
    {
      SectionIndicesStep(elements, idx);
      ghost var before := idxList;
      var e := elements[idx];
      if IsSection(e, IntroId) {
        idxList := idxList + [idx];
      }
      ghost var intro := idxList;
      if IsSection(e, DescId) {
        idxList := idxList + [idx];
      }
      ghost var desc := idxList;
      if IsSection(e, AwardId) {
        idxList := idxList + [idx];
      }
      ghost var a, b, c := (if IsSection(e, IntroId) then [idx] else []),
                           (if IsSection(e, DescId) then [idx] else []),
                           (if IsSection(e, AwardId) then [idx] else []);
      assert intro == before + a && desc == intro + b && idxList == desc + c;
      assert HitsAt(e, idx) == a + b + c;
      assert before + (a + b + c) == ((before + a) + b) + c;
    }
    assert elements[..|elements|] == elements;
  }

  /** The `cfp_df` row of a page: its division, and the introduction and
    * description joined by a space (NaN when either is NaN). */
  function CfpOf(row: PageRow): Markup.CfpRow
  {
    var description := if row.intro.Some? && row.desc.Some? then Some(row.intro.value + " " + row.desc.value) else None;
    Markup.CfpRow(row.url, row.dept, description)
  }

  function RowFor(fetch: string -> Option<Page>, nlp: Helpers.Nlp): string -> PageRow
  {
    (url: string) => PageRowOf(url, fetch(url), nlp)
  }

  class NSFExtractor {
    const urls: seq<string>
    const mainData: seq<Markup.GrantRow>
    const saveFilename: string
    var soup: Option<Page>

    constructor(urls: seq<string>, mainData: seq<Markup.GrantRow>, saveFilename: string)
      ensures this.urls == urls && this.mainData == mainData && this.saveFilename == saveFilename
      ensures soup.None?
    {
      this.urls := urls;
      this.mainData := mainData;
      this.saveFilename := saveFilename;
      soup := None;
    }

    /** `get_response(url)`: the parsed page replaces `soup`; a request that
      * raises leaves it as it was. */
    method GetResponse(url: string, fetch: string -> Option<Page>) returns (ok: bool)
      modifies this`soup
      ensures ok <==> fetch(url).Some?
      ensures soup == if ok then fetch(url) else old(soup)
    {
      ok := fetch(url).Some?;
      if ok {
        soup := fetch(url);
      }
    }

    /** `get_intro_desc()` on the elements of `soup`. */
    method GetIntroDesc(nlp: Helpers.Nlp) returns (r: Result<(string, string)>)
      requires soup.Some?
      ensures r == IntroDesc(soup.value.elements, nlp)
    {
      var elements := soup.value.elements;
      var idxList := FindSections(elements);
      if |idxList| < 3 {
        return Err(IndexError);
      }
      IndexInside(elements, 1);
      IndexInside(elements, 2);
      r := Ok(Texts(elements, idxList, nlp));
    }

    /** `extract_page_info(url, i)`. */
    method ExtractPageInfo(url: string, fetch: string -> Option<Page>, nlp: Helpers.Nlp) returns (row: PageRow)
      modifies this`soup
      ensures row == PageRowOf(url, fetch(url), nlp)
    {
      var ok := GetResponse(url, fetch);
      if !ok {
        return PageRow(url, None, None, None, None);
      }
      var title := Processing(Markup.RemoveTags(TitleHtml(soup.value)), nlp);
      if soup.value.dept.None? {
        return PageRow(url, None, None, None, None);
      }
      var dept := Processing(Markup.RemoveTags(soup.value.dept.value), nlp);
      var intrDesc := GetIntroDesc(nlp);
      if intrDesc.Err? {
        return PageRow(url, None, None, None, None);
      }
      row := PageRow(url, Some(title), Some(dept), Some(intrDesc.value.0), Some(intrDesc.value.1));
    }

    /** `extract_all`: one page row per URL in order, then the table that is
      * saved, from the rows and the Grants.gov listing. */
    method ExtractAll(fetch: string -> Option<Page>, nlp: Helpers.Nlp) returns (finalData: seq<Markup.FinalRow>)
      modifies this`soup
      ensures finalData == Markup.FinalTable(Map(CfpOf, Map(RowFor(fetch, nlp), urls)), mainData)
    {
      var descs: seq<PageRow> := [];
      for i := 0 to |urls|
        invariant descs == Map(RowFor(fetch, nlp), urls[..i])
      {
        var row := ExtractPageInfo(urls[i], fetch, nlp);
        descs := descs + [row];
      }
      assert urls[..|urls|] == urls;
      var cfp := Map(CfpOf, descs);
      finalData := Markup.FinalTable(cfp, mainData);
    }
  }
}

=== FILE: profiles.dfy ===
/** user_profile_creation.py: scholar profiles from a university's scholar
  * service. The service's JSON answers are values of `Json`; the requests
  * are a parameter `fetch` from URL to the parsed answer (`None` when the
  * answer is not JSON), and `dumps` stands for `json.dumps`. */
module Profiles {
  import opened Wrappers
  import opened Seqs
  import opened Text

  /** A parsed JSON value. An object keeps its entries in document order;
    * numbers are integers. */
  datatype Json = JNull | JBool(b: bool) | JNum(n: int) | JStr(s: string) | JArr(items: seq<Json>)
                | JObj(fields: seq<(string, Json)>)

  // ---------------------------------------------------------------------
  // Python's operations on parsed JSON

  /** The value `json.loads` keeps for a key: the last entry with that key. */
  function LastValue(fields: seq<(string, Json)>, key: string): Option<Json>
  {
    if fields == [] then None
    else if fields[|fields| - 1].0 == key then Some(fields[|fields| - 1].1)
    else LastValue(fields[..|fields| - 1], key)
  }

  /** The value kept for a key is that of the key's last entry; a key with
    * no entry has none. */
  lemma {:induction false} LastValueLast(fields: seq<(string, Json)>, key: string)
    ensures LastValue(fields, key).Some? <==> exists i :: 0 <= i < |fields| && fields[i].0 == key
    ensures LastValue(fields, key).Some? ==>
              exists i :: 0 <= i < |fields| && fields[i] == (key, LastValue(fields, key).value)
                          && forall j :: i < j < |fields| ==> fields[j].0 != key
  {
    if fields != [] {
      var n := |fields| - 1;
      if fields[n].0 != key {
        var init := fields[..n];
        LastValueLast(init, key);
        if exists i :: 0 <= i < |fields| && fields[i].0 == key {
          var i :| 0 <= i < |fields| && fields[i].0 == key;
          assert init[i] == fields[i];
        }
        if LastValue(init, key).Some? {
          var i :| 0 <= i < |init| && init[i] == (key, LastValue(init, key).value)
                   && forall j :: i < j < |init| ==> init[j].0 != key;
          assert fields[i] == init[i];
          forall j | i < j < |fields| ensures fields[j].0 != key {
            if j < n {
              assert fields[j] == init[j];
            }
          }
        }
      }
    }
  }

  /** `v[key]`: an object's value for the key; `None` where Python raises
    * (`KeyError` for a missing key, `TypeError` for a value that is not an object). */
  function Index(v: Json, key: string): Option<Json>
  {
    match v
    case JObj(fields) => LastValue(fields, key)
    case _ => None
  }

  /** `v[0]` on a non-empty list. On a string it gives a one-character
    * string, on which every later lookup by key raises, so it is `None` here. */
  function First(v: Json): Option<Json>
  {
    match v
    case JArr(items) => if items == [] then None else Some(items[0])
    case _ => None
  }

  function FieldKey(f: (string, Json)): string
  {
    f.0
  }

  /** The keys of an object in the order a dict built by `json.loads` holds them. */
  function Keys(fields: seq<(string, Json)>): seq<string>
  {
    Distinct(Map(FieldKey, fields))
  }

  function CharValue(c: char): Json
  {
    JStr([c])
  }

  function KeyValue(k: string): Json
  {
    JStr(k)
  }

  /** `for x in v`: a list's items, a string's characters, an object's keys;
    * `None` (a `TypeError`) for anything else. */
  function Iterate(v: Json): Option<seq<Json>>
  {
    match v
    case JArr(items) => Some(items)
    case JStr(s) => Some(Map(CharValue, s))
    case JObj(fields) => Some(Map(KeyValue, Keys(fields)))
    case _ => None
  }

  /** `len(v)`. */
  function Len(v: Json): Option<int>
  {
    match v
    case JArr(items) => Some(|items|)
    case JStr(s) => Some(|s|)
    case JObj(fields) => Some(|Keys(fields)|)
    case _ => None
  }

  function AsString(v: Json): Option<string>
  {
    if v.JStr? then Some(v.s) else None
  }

  /** The texts of values that must all be strings for `'||'.join` to succeed. */
  function Strings(vs: seq<Json>): (r: Option<seq<string>>)
    ensures r.Some? <==> forall i :: 0 <= i < |vs| ==> vs[i].JStr?
    ensures r.Some? ==> |r.value| == |vs| && forall i :: 0 <= i < |vs| ==> vs[i] == JStr(r.value[i])
  {
    AllSome(Map(AsString, vs))
  }

  const Bars: string := "||"

  /** `"||".join(v)`. */
  function JoinBars(v: Json): Option<string>
  {
    match Iterate(v)
    case None => None
    case Some(items) =>
      match Strings(items)
      case None => None
      case Some(ss) => Some(Join(Bars, ss))
  }

  /** Values that are the strings `ss`, one for one, give `ss` back. */
  lemma StringsOf(vs: seq<Json>, ss: seq<string>)
    requires |vs| == |ss| && forall j :: 0 <= j < |vs| ==> vs[j] == JStr(ss[j])
    ensures Strings(vs) == Some(ss)
  {
    var r := Strings(vs);
    assert r.Some?;
    assert |r.value| == |ss|;
    forall j | 0 <= j < |vs| ensures r.value[j] == ss[j] {
      assert vs[j] == JStr(r.value[j]);
    }
    assert r.value == ss;
  }

  /** A list of strings without '|' is joined so that splitting on "||"
    * gives the strings back. */
  lemma JoinBarsSplits(ss: seq<string>)
    requires |ss| > 0 && forall j :: 0 <= j < |ss| ==> '|' !in ss[j]
    ensures JoinBars(JArr(Map(KeyValue, ss))) == Some(Join(Bars, ss))
    ensures Split(Join(Bars, ss), Bars) == ss
  {
    StringsOf(Map(KeyValue, ss), ss);
    forall j | 0 <= j < |ss| ensures Clean(ss[j], Bars) {
      forall i | 0 <= i < |ss[j]| ensures ss[j][i] != '|' {
        assert ss[j][i] in ss[j];
      }
    }
    SplitJoin(ss, Bars);
  }

  // ---------------------------------------------------------------------
  // get_userid and the id filter of extract_profiles

  /** `get_userid(d, "id")`: the value, or NaN (`None`) when the lookup raises. */
  function UserIdOf(d: Json): Option<Json>
  {
    Index(d, "id")
  }

  /** `user_ids` after the NaN filter. */
  function UserIds(userJsons: seq<Json>): seq<Json>
  {
    Present(Map(UserIdOf, userJsons))
  }

  /** Exactly the ids of the scholars whose record has one are kept, in
    * order: the ids of a concatenation are the ids of each part. */
  lemma UserIdsExact(xs: seq<Json>, ys: seq<Json>, id: Json)
    ensures id in UserIds(xs) <==> exists d :: d in xs && Index(d, "id") == Some(id)
    ensures UserIds(xs + ys) == UserIds(xs) + UserIds(ys)
  {
    PresentMembers(Map(UserIdOf, xs), id);
    if Some(id) in Map(UserIdOf, xs) {
      var i :| 0 <= i < |xs| && Map(UserIdOf, xs)[i] == Some(id);
      assert xs[i] in xs;
    }
    if exists d :: d in xs && Index(d, "id") == Some(id) {
      var d :| d in xs && Index(d, "id") == Some(id);
      var i :| 0 <= i < |xs| && xs[i] == d;
      assert Map(UserIdOf, xs)[i] == Some(id);
    }
    assert Map(UserIdOf, xs + ys) == Map(UserIdOf, xs) + Map(UserIdOf, ys);
    PresentAppend(Map(UserIdOf, xs), Map(UserIdOf, ys));
  }

  // ---------------------------------------------------------------------
  // The getters

  /** `get_keywords()`: the keywords joined with "||", `None` when they are
    * missing or cannot be joined. */
  function Keywords(user: Json): Option<string>
  {
    match Index(user, "keywords")
    case None => None
    case Some(v) => JoinBars(v)
  }

  /** The `org` of `get_profile`: the organisations joined with "||", or `None`. */
  function Organizations(user: Json): Option<string>
  {
    match Index(user, "organizations")
    case None => None
    case Some(v) => JoinBars(v)
  }

  /** `get_npublications()`: the length of the publications, or `None`. */
  function NPublications(user: Json): Option<int>
  {
    match Index(user, "publications")
    case None => None
    case Some(v) => Len(v)
  }

  /** A profile whose keywords, organisations and publications are lists of
    * strings gets those strings joined and counted. */
  lemma GettersOnLists(user: Json, kws: seq<string>, orgs: seq<string>, pubs: seq<Json>)
    requires Index(user, "keywords") == Some(JArr(Map(KeyValue, kws)))
    requires Index(user, "organizations") == Some(JArr(Map(KeyValue, orgs)))
    requires Index(user, "publications") == Some(JArr(pubs))
    ensures Keywords(user) == Some(Join(Bars, kws))
    ensures Organizations(user) == Some(Join(Bars, orgs))
    ensures NPublications(user) == Some(|pubs|)
  {
    StringsOf(Map(KeyValue, kws), kws);
    StringsOf(Map(KeyValue, orgs), orgs);
  }


  function LabelOf(d: Json): Option<Json>
  {
    Index(d, "label")
  }

  /** The labels `get_research` and `get_awards` collect: all of them, or
    * `None` when the loop raises. */
  function LabelList(v: Json): (r: Option<seq<string>>)
  {
    match Iterate(v)
    case None => None
    case Some(items) =>
      match AllSome(Map(LabelOf, items))
      case None => None
      case Some(labels) => Strings(labels)
  }

  /** `get_research()` and `get_awards()` on the list under `key`: the labels
    * joined with "||" and their number, or `(None, 0)` when anything raises. */
  function CountedLabels(user: Json, key: string): (r: (Option<string>, int))
    ensures r.0.None? ==> r.1 == 0
  {
    match Index(user, key)
    case None => (None, 0)
    case Some(v) =>
      match LabelList(v)
      case None => (None, 0)
      case Some(ss) => (Some(Join(Bars, ss)), |ss|)
  }

  /** All or nothing: a list of entries that all carry a string label gives
    * every label, joined, with the number of entries; one entry without a
    * label, or with a label that is not a string, gives `(None, 0)`. */
  lemma CountedLabelsExact(user: Json, key: string, items: seq<Json>)
    requires Index(user, key) == Some(JArr(items))
    ensures CountedLabels(user, key).0.Some?
            <==> forall i :: 0 <= i < |items| ==> LabelOf(items[i]).Some? && LabelOf(items[i]).value.JStr?
    ensures CountedLabels(user, key).0.Some? ==> CountedLabels(user, key).1 == |items|
    ensures CountedLabels(user, key).0.Some? ==>
              exists ss :: |ss| == |items| && (forall i :: 0 <= i < |items| ==> LabelOf(items[i]) == Some(JStr(ss[i])))
                           && CountedLabels(user, key).0 == Some(Join(Bars, ss))
  {
    var ls := AllSome(Map(LabelOf, items));
    if ls.Some? {
      var ss := Strings(ls.value);
      if ss.Some? {
        assert forall i :: 0 <= i < |items| ==> LabelOf(items[i]) == Some(JStr(ss.value[i]));
      }
    }
  }

  /** `p['organizations'][0]['label']`. */
  function CourseOf(p: Json): Option<Json>
  {
    match Index(p, "organizations")
    case None => None
    case Some(orgs) =>
      match First(orgs)
      case None => None
      case Some(org) => Index(org, "label")
  }

  /** `p['organizations'][0]['parent'][0]['label']`. */
  function DeptOf(p: Json): Option<Json>
  {
    match Index(p, "organizations")
    case None => None
    case Some(orgs) =>
      match First(orgs)
      case None => None
      case Some(org) =>
        match Index(org, "parent")
        case None => None
        case Some(parents) =>
          match First(parents)
          case None => None
          case Some(parent) => Index(parent, "label")
  }

  /** What the loop of `get_department_info` collects before the first
    * lookup that raises: the course of each position, then its department. */
  function PositionLabels(ps: seq<Json>): (seq<Json>, seq<Json>)
  {
    if ps == [] then ([], [])
    else
      match CourseOf(ps[0])
      case None => ([], [])
      case Some(c) =>
        match DeptOf(ps[0])
        case None => ([c], [])
        case Some(d) =>
          var rest := PositionLabels(ps[1..]);
          ([c] + rest.0, [d] + rest.1)
  }

  /** The loop collects a course for every position it gets through and a
    * department for each but the last, and stops at the first position
    * whose course or department lookup raises. */
  lemma {:induction false} PositionLabelsShape(ps: seq<Json>)
    ensures var r := PositionLabels(ps);
            |r.1| <= |r.0| <= |r.1| + 1 && |r.0| <= |ps|
            && (forall j :: 0 <= j < |r.0| ==> CourseOf(ps[j]) == Some(r.0[j]))
            && (forall j :: 0 <= j < |r.1| ==> DeptOf(ps[j]) == Some(r.1[j]))
            && (|r.1| < |ps| ==> (|r.0| == |r.1| + 1 && DeptOf(ps[|r.1|]).None?)
                                 || (|r.0| == |r.1| && CourseOf(ps[|r.1|]).None?))
  {
    if ps != [] && CourseOf(ps[0]).Some? && DeptOf(ps[0]).Some? {
      PositionLabelsShape(ps[1..]);
      var rest := PositionLabels(ps[1..]);
      var r := PositionLabels(ps);
      assert r == ([CourseOf(ps[0]).value] + rest.0, [DeptOf(ps[0]).value] + rest.1);
      forall j | 0 < j < |r.0| ensures CourseOf(ps[j]) == Some(r.0[j]) {
        assert r.0[j] == rest.0[j - 1] && ps[j] == ps[1..][j - 1];
      }
      forall j | 0 < j < |r.1| ensures DeptOf(ps[j]) == Some(r.1[j]) {
        assert r.1[j] == rest.1[j - 1] && ps[j] == ps[1..][j - 1];
      }
      if |r.1| < |ps| {
        assert ps[|r.1|] == ps[1..][|rest.1|];
      }
    }
  }

  /** The courses and departments joined with "||", or `(None, None)`. */
  function JoinedPair(courses: seq<Json>, depts: seq<Json>): (Option<string>, Option<string>)
  {
    match (Strings(courses), Strings(depts))
    case (Some(a), Some(b)) => (Some(Join(Bars, a)), Some(Join(Bars, b)))
    case _ => (None, None)
  }

  /** `get_department_info()`: missing positions give `(None, None)`; a
    * position that raises ends the loop and keeps what was collected; a
    * non-string label makes the join raise, giving `(None, None)`. */
  function DepartmentInfo(user: Json): (r: (Option<string>, Option<string>))
    ensures Index(user, "positions").None? ==> r == (None, None)
    ensures r.0.Some? <==> r.1.Some?
  {
    match Index(user, "positions")
    case None => (None, None)
    case Some(v) =>
      match Iterate(v)
      case None => (Some(""), Some(""))
      case Some(ps) => JoinedPair(PositionLabels(ps).0, PositionLabels(ps).1)
  }

  /** A position without a department after courses that all have one keeps
    * one more course than departments. */
  lemma PartialDepartments(user: Json, ps: seq<Json>, k: nat, courses: seq<string>, depts: seq<string>)
    requires Index(user, "positions") == Some(JArr(ps))
    requires k < |ps| && |courses| == k + 1 && |depts| == k
    requires forall j :: 0 <= j <= k ==> CourseOf(ps[j]) == Some(JStr(courses[j]))
    requires forall j :: 0 <= j < k ==> DeptOf(ps[j]) == Some(JStr(depts[j]))
    requires DeptOf(ps[k]).None?
    ensures DepartmentInfo(user) == (Some(Join(Bars, courses)), Some(Join(Bars, depts)))
  {
    PositionsPrefix(ps, k);
    PositionLabelsShape(ps);
    var r := PositionLabels(ps);
    assert Iterate(JArr(ps)) == Some(ps);
    assert DepartmentInfo(user) == JoinedPair(r.0, r.1);
    forall j | 0 <= j < |r.0| ensures r.0[j] == JStr(courses[j]) {
      assert CourseOf(ps[j]) == Some(r.0[j]);
    }
    forall j | 0 <= j < |r.1| ensures r.1[j] == JStr(depts[j]) {
      assert DeptOf(ps[j]) == Some(r.1[j]);
    }
    StringsOf(r.0, courses);
    StringsOf(r.1, depts);
  }

  lemma {:induction false} PositionsPrefix(ps: seq<Json>, k: nat)
    requires k < |ps|
    requires forall j :: 0 <= j <= k ==> CourseOf(ps[j]).Some?
    requires forall j :: 0 <= j < k ==> DeptOf(ps[j]).Some?
    requires DeptOf(ps[k]).None?
    ensures |PositionLabels(ps).0| == k + 1 && |PositionLabels(ps).1| == k
  {
    PositionLabelsShape(ps);
    var r := PositionLabels(ps);
    if |r.1| < k {
      assert false;
    }
  }

  // ---------------------------------------------------------------------
  // get_profile

  /** The row `get_profile` builds. `name` and `type` are the values of
    * 'name' and 'preferredTitle'; the other cells are `None` where the
    * source stores None or NaN. */
  datatype Profile = Profile(userId: string, netid: Option<Json>, name: Json, email: Option<Json>, type_: Json,
                             overview: Option<Json>, keywords: Option<string>, nPublications: Option<int>,
                             publications: Option<string>, research: Option<string>, nResearch: int,
                             awards: Option<string>, nAwards: int, organizations: Option<string>,
                             course: Option<string>, department: Option<string>)

  /** A row of the scholars table: a scholar's profile, or a row of the
    * fallback frame, which holds only a column name in its one column. */
  datatype FrameRow = ProfileRow(profile: Profile) | ColumnsRow(column: string)

  /** The column names the fallback frame lists. */
  const FallbackColumns: seq<string> := ["User_id", "Netid", "Name", "Email", "Type", "Overview", "Keywords",
                                         "n_publications", "Research", "n_research", "Awards", "n_awards",
                                         "Organizations", "Course", "Department"]

  /** `pd.DataFrame({'columns': [...]})` as written: a frame of fifteen rows,
    * one per column name, that belong to no scholar. */
  function FallbackAsWritten(): (rows: seq<FrameRow>)
    ensures |rows| == 15 && forall j :: 0 <= j < |rows| ==> rows[j].ColumnsRow?
  {
    seq(|FallbackColumns|, j requires 0 <= j < |FallbackColumns| => ColumnsRow(FallbackColumns[j]))
  }

  /** The evidently intended fallback, a frame with those columns and no row. */
  function Fallback(): (rows: seq<FrameRow>)
    ensures rows == []
  {
    []
  }

  /** The profile of a scholar whose record has a name and a title. */
  function ProfileOf(userId: string, user: Json, dumps: Json -> string): Profile
    requires Index(user, "name").Some? && Index(user, "preferredTitle").Some?
  {
    var info := DepartmentInfo(user);
    var research := CountedLabels(user, "researcherOn");
    var awards := CountedLabels(user, "awardsAndHonors");
    var publications := match Index(user, "publications") case None => None case Some(v) => Some(dumps(v));
    Profile(userId, Index(user, "netid"), Index(user, "name").value, Index(user, "primaryEmail"),
            Index(user, "preferredTitle").value, Index(user, "overview"), Keywords(user), NPublications(user),
            publications, research.0, research.1, awards.0, awards.1, Organizations(user), info.0, info.1)
  }

  /** The frame `get_profile` returns for a fetched record, with the fallback
    * as written: `get_name` and `get_title` are the getters that can raise. */
  function ProfileFrameAsWritten(userId: string, user: Json, dumps: Json -> string): seq<FrameRow>
  {
    if Index(user, "name").Some? && Index(user, "preferredTitle").Some? then [ProfileRow(ProfileOf(userId, user, dumps))]
    else FallbackAsWritten()
  }

  /** The frame of `get_profile` with the intended fallback: one row, or none
    * when the record lacks a name or a title. */
  function ProfileFrame(userId: string, user: Json, dumps: Json -> string): (rows: seq<FrameRow>)
    ensures |rows| <= 1
    ensures rows != [] <==> Index(user, "name").Some? && Index(user, "preferredTitle").Some?
    ensures forall j :: 0 <= j < |rows| ==> rows[j].ProfileRow? && rows[j].profile.userId == userId
  {
    if Index(user, "name").Some? && Index(user, "preferredTitle").Some? then [ProfileRow(ProfileOf(userId, user, dumps))]
    else Fallback()
  }

  /** The discrepancy: a record without a name adds fifteen rows of column
    * names to the table as written, and nothing with the intended fallback. */
  lemma FallbackAddsRows(userId: string, user: Json, dumps: Json -> string)
    requires Index(user, "name").None?
    ensures |ProfileFrameAsWritten(userId, user, dumps)| == 15
    ensures forall r :: r in ProfileFrameAsWritten(userId, user, dumps) ==> r.ColumnsRow?
    ensures ProfileFrame(userId, user, dumps) == []
  {
  }

  // ---------------------------------------------------------------------
  // extract_profiles

  /** `url + idx` needs a string id; any other raises `TypeError`. */
  function ProfileUrl(url: string, id: Json): Result<string>
  {
    if id.JStr? then Ok(url + id.s) else Err(TypeError)
  }

  /** The profile frames of `ids` in order, or the first exception: an id
    * that is not a string, or an answer that is not JSON (`ValueError`). */
  function ProfileRows(ids: seq<Json>, url: string, fetch: string -> Option<Json>, dumps: Json -> string): (r: Result<seq<FrameRow>>)
    ensures r.Ok? ==> |r.value| <= |ids|
  {
    if ids == [] then Ok([])
    else
      match ProfileUrl(url, ids[0])
      case Err(e) => Err(e)
      case Ok(u) =>
        match fetch(u)
        case None => Err(ValueError)
        case Some(user) =>
          match ProfileRows(ids[1..], url, fetch, dumps)
          case Err(e) => Err(e)
          case Ok(rest) =>
            Ok(ProfileFrame(ids[0].s, user, dumps) + rest)
  }

  /** `user_url` and `user_dict` after `get_profile` has run over `ids`
    * from the state `(u, d)`: each string id sets the URL and, when its
    * answer is JSON, the record; the first id that raises ends the run. */
  function FieldsAfter(ids: seq<Json>, url: string, fetch: string -> Option<Json>, u: string, d: Json): (string, Json)
  {
    if ids == [] then (u, d)
    else
      match ProfileUrl(url, ids[0])
      case Err(_) => (u, d)
      case Ok(v) =>
        match fetch(v)
        case None => (v, d)
        case Some(user) => FieldsAfter(ids[1..], url, fetch, v, user)
  }

  /** The fields after `extract_profiles()`: untouched when it raises before
    * its loop, otherwise as `get_profile` leaves them over the ids. */
  function ProfilesFields(userJsons: seq<Json>, url: string, fetch: string -> Option<Json>, u: string, d: Json): (string, Json)
  {
    var ids := UserIds(userJsons);
    if |ids| < 2 || !ids[1].JStr? || fetch(url + ids[1].s).None? then (u, d)
    else FieldsAfter(ids, url, fetch, u, d)
  }

  /** One step of the loop of `extract_profiles()` at position `i`: the rows
    * and the fields that remain to be produced from there. */
  lemma LoopStep(ids: seq<Json>, i: nat, url: string, fetch: string -> Option<Json>, dumps: Json -> string,
                 done: seq<FrameRow>, u: string, d: Json)
    requires i < |ids|
    ensures !ids[i].JStr? ==> Then(done, ProfileRows(ids[i..], url, fetch, dumps)) == Err(TypeError)
                              && FieldsAfter(ids[i..], url, fetch, u, d) == (u, d)
    ensures ids[i].JStr? && fetch(url + ids[i].s).None? ==>
              Then(done, ProfileRows(ids[i..], url, fetch, dumps)) == Err(ValueError)
              && FieldsAfter(ids[i..], url, fetch, u, d) == (url + ids[i].s, d)
    ensures ids[i].JStr? && fetch(url + ids[i].s).Some? ==>
              var frame := ProfileFrame(ids[i].s, fetch(url + ids[i].s).value, dumps);
              Then(done, ProfileRows(ids[i..], url, fetch, dumps)) == Then(done + frame, ProfileRows(ids[i + 1..], url, fetch, dumps))
              && FieldsAfter(ids[i..], url, fetch, u, d) == FieldsAfter(ids[i + 1..], url, fetch, url + ids[i].s, fetch(url + ids[i].s).value)
  {
    var rest := ids[i..];
    assert rest[0] == ids[i] && rest[1..] == ids[i + 1..];
    if ids[i].JStr? && fetch(url + ids[i].s).Some? {
      var frame := ProfileFrame(ids[i].s, fetch(url + ids[i].s).value, dumps);
      var tail := ProfileRows(ids[i + 1..], url, fetch, dumps);
      if tail.Ok? {
        assert done + (frame + tail.value) == (done + frame) + tail.value;
      }
    }
  }

  /** When every profile is fetched, the object is left holding the URL and
    * the record of the last id. */
  lemma {:induction false} FieldsAfterLast(ids: seq<Json>, url: string, fetch: string -> Option<Json>, dumps: Json -> string, u: string, d: Json)
    requires ids != [] && ProfileRows(ids, url, fetch, dumps).Ok?
    ensures ids[|ids| - 1].JStr? && fetch(url + ids[|ids| - 1].s).Some?
    ensures FieldsAfter(ids, url, fetch, u, d) == (url + ids[|ids| - 1].s, fetch(url + ids[|ids| - 1].s).value)
  {
    var v := url + ids[0].s;
    if |ids| > 1 {
      FieldsAfterLast(ids[1..], url, fetch, dumps, v, fetch(v).value);
      assert ids[1..][|ids[1..]| - 1] == ids[|ids| - 1];
    }
  }

  /** Every row is a profile row of one of the requested ids. */
  lemma {:induction false} ProfileRowsShape(ids: seq<Json>, url: string, fetch: string -> Option<Json>, dumps: Json -> string)
    ensures var r := ProfileRows(ids, url, fetch, dumps);
      r.Ok? ==> forall j :: 0 <= j < |r.value| ==> r.value[j].ProfileRow? && JStr(r.value[j].profile.userId) in ids
  {
    var r := ProfileRows(ids, url, fetch, dumps);
    if ids != [] && ids[0].JStr? && fetch(url + ids[0].s).Some? && r.Ok? {
      ProfileRowsCons(ids, url, fetch, dumps);
      ProfileRowsShape(ids[1..], url, fetch, dumps);
      var head := ProfileFrame(ids[0].s, fetch(url + ids[0].s).value, dumps);
      var rest := ProfileRows(ids[1..], url, fetch, dumps).value;
      assert r.value == head + rest;
      forall j | 0 <= j < |r.value|
        ensures r.value[j].ProfileRow? && JStr(r.value[j].profile.userId) in ids
      {
        if j < |head| {
          assert r.value[j] == head[j];
        } else {
          assert r.value[j] == rest[j - |head|];
          assert forall x :: x in ids[1..] ==> x in ids;
        }
      }
    }
  }

  /** `extract_profiles()` on the scholar records: the ids, the unused
    * request for the second id (which raises when there are fewer than two
    * ids or it fails), then one frame per id. */
  function Profiles(userJsons: seq<Json>, url: string, fetch: string -> Option<Json>, dumps: Json -> string): Result<seq<FrameRow>>
  {
    var ids := UserIds(userJsons);
    if |ids| < 2 then Err(IndexError)
    else
      match ProfileUrl(url, ids[1])
      case Err(e) => Err(e)
      case Ok(u) =>
        if fetch(u).None? then Err(ValueError)
        else ProfileRows(ids, url, fetch, dumps)
  }

  /** `done` followed by the rows of a result, or its exception. */
  function Then(done: seq<FrameRow>, r: Result<seq<FrameRow>>): Result<seq<FrameRow>>
  {
    match r
    case Err(e) => Err(e)
    case Ok(rest) => Ok(done + rest)
  }

  lemma ProfileRowsCons(ids: seq<Json>, url: string, fetch: string -> Option<Json>, dumps: Json -> string)
    requires ids != []
    ensures !ids[0].JStr? ==> ProfileRows(ids, url, fetch, dumps) == Err(TypeError)
    ensures ids[0].JStr? && fetch(url + ids[0].s).None? ==> ProfileRows(ids, url, fetch, dumps) == Err(ValueError)
    ensures ids[0].JStr? && fetch(url + ids[0].s).Some? ==>
              ProfileRows(ids, url, fetch, dumps)
              == Then(ProfileFrame(ids[0].s, fetch(url + ids[0].s).value, dumps), ProfileRows(ids[1..], url, fetch, dumps))
  {
  }

  /** A scholar id whose record can be fetched and has a name and a title. */
  predicate Complete(id: Json, url: string, fetch: string -> Option<Json>)
  {
    id.JStr? && fetch(url + id.s).Some?
    && Index(fetch(url + id.s).value, "name").Some? && Index(fetch(url + id.s).value, "preferredTitle").Some?
  }

  /** The loop of `get_department_info()`: one course and one department label
    * per position, stopping at the first position that raises. */
  method CollectPositions(ps: seq<Json>) returns (courseArea: seq<Json>, department: seq<Json>)
    ensures (courseArea, department) == PositionLabels(ps)
  {
    courseArea, department := [], [];
    var i := 0;
    assert ps[i..] == ps;
    assert courseArea + PositionLabels(ps).0 == PositionLabels(ps).0;
    assert department + PositionLabels(ps).1 == PositionLabels(ps).1;
    while i < |ps|
      invariant 0 <= i <= |ps| && |courseArea| == i && |department| == i
      invariant PositionLabels(ps) == (courseArea + PositionLabels(ps[i..]).0, department + PositionLabels(ps[i..]).1)
    {
      ghost var rest := ps[i..];
      assert rest[0] == ps[i] && rest[1..] == ps[i + 1..];
      ghost var tail := PositionLabels(ps[i + 1..]);
      var c := CourseOf(ps[i]);
      if c.None? {
        assert PositionLabels(rest) == ([], []);
        assert courseArea + [] == courseArea && department + [] == department;
        return;
      }
      var d := DeptOf(ps[i]);
      if d.None? {
        assert PositionLabels(rest) == ([c.value], []);
        courseArea := courseArea + [c.value];
        assert department + [] == department;
        return;
      }
      assert PositionLabels(rest) == ([c.value] + tail.0, [d.value] + tail.1);
      assert courseArea + ([c.value] + tail.0) == (courseArea + [c.value]) + tail.0;
      assert department + ([d.value] + tail.1) == (department + [d.value]) + tail.1;
      courseArea := courseArea + [c.value];
      department := department + [d.value];
      i := i + 1;
    }
    assert ps[i..] == [];
    assert courseArea + [] == courseArea && department + [] == department;
  }

  /** With records that all have a string id, a name and a title, the table
    * holds one profile per scholar, in the order of the records. */
  lemma {:induction false} ProfileRowsComplete(ids: seq<Json>, url: string, fetch: string -> Option<Json>, dumps: Json -> string)
    requires forall j :: 0 <= j < |ids| ==> Complete(ids[j], url, fetch)
    ensures ProfileRows(ids, url, fetch, dumps).Ok?
    ensures |ProfileRows(ids, url, fetch, dumps).value| == |ids|
    ensures forall j :: 0 <= j < |ids| ==>
              ProfileRows(ids, url, fetch, dumps).value[j].ProfileRow?
              && JStr(ProfileRows(ids, url, fetch, dumps).value[j].profile.userId) == ids[j]
  {
    if ids != [] {
      var id := ids[0];
      assert Complete(id, url, fetch);
      var user := fetch(url + id.s).value;
      ProfileRowsComplete(ids[1..], url, fetch, dumps);
      ProfileRowsCons(ids, url, fetch, dumps);
      var rest := ProfileRows(ids[1..], url, fetch, dumps).value;
      var head := ProfileFrame(id.s, user, dumps);
      assert |head| == 1 && head[0].profile.userId == id.s;
      var r := head + rest;
      assert ProfileRows(ids, url, fetch, dumps) == Ok(r);
      forall j | 0 <= j < |ids| ensures r[j].ProfileRow? && JStr(r[j].profile.userId) == ids[j] {
        if j > 0 {
          assert r[j] == rest[j - 1];
        }
      }
    }
  }

  class ExtractUserProfiles {
    const profileUrl: string
    const scholarsDataset: string
    var userUrl: string
    var userDict: Json

    constructor(profileUrl: string, scholarsDataset: string)
      ensures this.profileUrl == profileUrl && this.scholarsDataset == scholarsDataset
      ensures userUrl == "" && userDict == JNull
    {
      this.profileUrl := profileUrl;
      this.scholarsDataset := scholarsDataset;
      userUrl := "";
      userDict := JNull;
    }

    /** `extract_info(url, user_id)`: the record of the scholar; an answer
      * that is not JSON raises (`ok` false) and leaves `userDict` as it was. */
    method ExtractInfo(url: string, userId: string, fetch: string -> Option<Json>) returns (ok: bool)
      modifies this`userUrl, this`userDict
      ensures userUrl == url + userId
      ensures ok <==> fetch(url + userId).Some?
      ensures userDict == if ok then fetch(url + userId).value else old(userDict)
    {
      userUrl := url + userId;
      var answer := fetch(userUrl);
      ok := answer.Some?;
      if ok {
        userDict := answer.value;
      }
    }

    /** The loop of `get_research` and `get_awards` over the list under `key`. */
    method GetLabelList(key: string) returns (joined: Option<string>, n: int)
      ensures (joined, n) == CountedLabels(userDict, key)
    {
      var v := Index(userDict, key);
      if v.None? {
        return None, 0;
      }
      var items := Iterate(v.value);
      if items.None? {
        return None, 0;
      }
      var rList: seq<Json> := [];
      for i := 0 to |items.value|
        invariant |rList| == i
        invariant forall j :: 0 <= j < i ==> LabelOf(items.value[j]) == Some(rList[j])
      {
        var found := LabelOf(items.value[i]);
        if found.None? {
          return None, 0;
        }
        rList := rList + [found.value];
      }
      var labels := AllSome(Map(LabelOf, items.value));
      assert labels.Some? && labels.value == rList;
      var ss := Strings(rList);
      if ss.None? {
        return None, 0;
      }
      joined, n := Some(Join(Bars, ss.value)), |rList|;
    }

    /** `get_research()`. */
    method GetResearch() returns (research: Option<string>, n: int)
      ensures (research, n) == CountedLabels(userDict, "researcherOn")
    {
      research, n := GetLabelList("researcherOn");
    }

    /** `get_awards()`. */
    method GetAwards() returns (awards: Option<string>, n: int)
      ensures (awards, n) == CountedLabels(userDict, "awardsAndHonors")
    {
      awards, n := GetLabelList("awardsAndHonors");
    }

    /** `get_department_info()`: the loop over the positions. */
    method GetDepartmentInfo() returns (course: Option<string>, dept: Option<string>)
      ensures (course, dept) == DepartmentInfo(userDict)
    {
      var positionList := Index(userDict, "positions");
      if positionList.None? {
        return None, None;
      }
      var courseArea: seq<Json> := [];
      var department: seq<Json> := [];
      var ps := Iterate(positionList.value);
      if ps.Some? {
        courseArea, department := CollectPositions(ps.value);
      }
      course, dept := JoinedPair(courseArea, department).0, JoinedPair(courseArea, department).1;
    }

    /** `get_profile(url, user_id)`, with the intended fallback frame. */
    method GetProfile(url: string, userId: string, fetch: string -> Option<Json>, dumps: Json -> string)
      returns (r: Result<seq<FrameRow>>)
      modifies this`userUrl, this`userDict
      ensures fetch(url + userId).None? ==> r == Err(ValueError)
      ensures fetch(url + userId).Some? ==> r == Ok(ProfileFrame(userId, fetch(url + userId).value, dumps))
      ensures userUrl == url + userId
      ensures userDict == if fetch(url + userId).Some? then fetch(url + userId).value else old(userDict)
    {
      var ok := ExtractInfo(url, userId, fetch);
      if !ok {
        return Err(ValueError);
      }
      var course, dept := GetDepartmentInfo();
      var research, rLen := GetResearch();
      var awards, aLen := GetAwards();
      var org := Organizations(userDict);
      var name := Index(userDict, "name");
      var title := Index(userDict, "preferredTitle");
      if name.None? || title.None? {
        return Ok(Fallback());
      }
      var publications := match Index(userDict, "publications") case None => None case Some(v) => Some(dumps(v));
      var profile := Profile(userId, Index(userDict, "netid"), name.value, Index(userDict, "primaryEmail"),
                             title.value, Index(userDict, "overview"), Keywords(userDict), NPublications(userDict),
                             publications, research, rLen, awards, aLen, org, course, dept);
      r := Ok([ProfileRow(profile)]);
    }

    /** The loop of `extract_profiles()`: `get_profile` for each id, in order. */
    method ProfilesLoop(userIds: seq<Json>, fetch: string -> Option<Json>, dumps: Json -> string)
      returns (r: Result<seq<FrameRow>>)
      modifies this`userUrl, this`userDict
      ensures r == ProfileRows(userIds, profileUrl, fetch, dumps)
      ensures (userUrl, userDict) == FieldsAfter(userIds, profileUrl, fetch, old(userUrl), old(userDict))
    {
      ghost var fields := FieldsAfter(userIds, profileUrl, fetch, userUrl, userDict);
      var userList: seq<FrameRow> := [];
      assert userIds[0..] == userIds;
      assert Then(userList, ProfileRows(userIds, profileUrl, fetch, dumps)) == ProfileRows(userIds, profileUrl, fetch, dumps) by {
        var all := ProfileRows(userIds, profileUrl, fetch, dumps);
        if all.Ok? {
          assert userList + all.value == all.value;
        }
      }
      for i := 0 to |userIds|
        invariant ProfileRows(userIds, profileUrl, fetch, dumps) == Then(userList, ProfileRows(userIds[i..], profileUrl, fetch, dumps))
        invariant fields == FieldsAfter(userIds[i..], profileUrl, fetch, userUrl, userDict)
      {
        LoopStep(userIds, i, profileUrl, fetch, dumps, userList, userUrl, userDict);
        if !userIds[i].JStr? {
          return Err(TypeError);
        }
        var frame := GetProfile(profileUrl, userIds[i].s, fetch, dumps);
        if frame.Err? {
          return frame;
        }
        userList := userList + frame.value;
      }
      assert userIds[|userIds|..] == [];
      assert userList + [] == userList;
      r := Ok(userList);
    }

    /** `extract_profiles()` on the scholar records, with the intended
      * fallback frame; the returned rows are what is saved. */
    method ExtractProfiles(userJsons: seq<Json>, fetch: string -> Option<Json>, dumps: Json -> string)
      returns (r: Result<seq<FrameRow>>)
      modifies this`userUrl, this`userDict
      ensures r == Profiles(userJsons, profileUrl, fetch, dumps)
      ensures (userUrl, userDict) == ProfilesFields(userJsons, profileUrl, fetch, old(userUrl), old(userDict))
    {
      var userIds := Present(Map(UserIdOf, userJsons));
      assert userIds == UserIds(userJsons);
      if |userIds| < 2 {
        return Err(IndexError);
      }
      if !userIds[1].JStr? {
        return Err(TypeError);
      }
      if fetch(profileUrl + userIds[1].s).None? {
        return Err(ValueError);
      }
      r := ProfilesLoop(userIds, fetch, dumps);
    }
  }
}

=== FILE: proposals.dfy ===
/** extract_proposals.py: the Grants.gov listing. The CSV export gives each
  * opportunity's hyperlink field; the XML extract gives, per opportunity,
  * the text of each configured tag; the two are joined on the opportunity
  * number, the open opportunities are kept, and one file is written per
  * agency. Downloads and files are left to the caller: the CSV column, the
  * XML opportunities, the date parser and today's date are parameters, and
  * the files written are a map from file name to rows. */
module Proposals {
  import opened Wrappers
  import opened Seqs
  import opened Text
  import Helpers

  // ---------------------------------------------------------------------
  // ExtractCSVData: the hyperlink field

  const Quote: string := "\""

  /** The Grants.gov export writes the opportunity number as a spreadsheet
    * hyperlink formula. */
  function Hyperlink(url: string, number: string): string
  {
    "=HYPERLINK(" + Quote + url + Quote + "," + Quote + number + Quote + ")"
  }

  /** The two columns the rest of the pipeline reads from the CSV export. */
  datatype MetaRow = MetaRow(oppNumber: string, url: string)

  /** `x.split('"')[1]` and `x.split('"')[-2]`: the URL and the opportunity
    * number; a field without '"' has one piece, and indexing it raises. */
  function MetaRowOf(field: string): (r: Result<MetaRow>)
    ensures r.Ok? <==> '"' in field
    ensures r.Err? ==> r.error == IndexError
    ensures r.Ok? ==> '"' !in r.value.url && '"' !in r.value.oppNumber
  {
    var ps := Split(field, Quote);
    SplitCharPieces(field, '"');
    if |ps| < 2 then Err(IndexError)
    else
      assert Clean(ps[1], Quote) && Clean(ps[|ps| - 2], Quote);
      Ok(MetaRow(ps[|ps| - 2], ps[1]))
  }

  /** The URL and the number are read back from the formula that holds them. */
  lemma HyperlinkRoundTrip(url: string, number: string)
    requires '"' !in url && '"' !in number
    ensures MetaRowOf(Hyperlink(url, number)) == Ok(MetaRow(number, url))
  {
    var pieces := ["=HYPERLINK(", url, ",", number, ")"];
    assert Join(Quote, pieces) == Hyperlink(url, number) by {
      assert Join(Quote, pieces[4..]) == ")";
      assert Join(Quote, pieces[3..]) == number + Quote + ")";
      assert Join(Quote, pieces[2..]) == "," + Quote + number + Quote + ")";
      assert Join(Quote, pieces[1..]) == url + Quote + "," + Quote + number + Quote + ")";
    }
    forall j | 0 <= j < |pieces| ensures Clean(pieces[j], Quote) {
      if j == 1 {
        assert forall i :: 0 <= i < |url| ==> url[i] in url;
      } else if j == 3 {
        assert forall i :: 0 <= i < |number| ==> number[i] in number;
      }
    }
    SplitJoin(pieces, Quote);
  }

  /** The two `apply` calls over the OPPORTUNITY NUMBER column. */
  function Metadata(fields: seq<string>): (r: Result<seq<MetaRow>>)
    ensures r.Ok? <==> forall j :: 0 <= j < |fields| ==> '"' in fields[j]
    ensures r.Ok? ==> |r.value| == |fields|
                      && forall j :: 0 <= j < |fields| ==> MetaRowOf(fields[j]) == Ok(r.value[j])
  {
    Collect(Map(MetaRowOf, fields))
  }

  // ---------------------------------------------------------------------
  // ExtractXMLData: one record per opportunity

  /** An XML opportunity: for each tag, the text of the first element with
    * that tag; a tag that is missing, or whose element has no text, is absent. */
  type XmlOpportunity = map<string, string>

  /** The cell of `tag`: its text, or `''` when the lookup raises. */
  function TagText(opp: XmlOpportunity, tag: string): string
  {
    if tag in opp then opp[tag] else ""
  }

  /** `dict_` after the loop over `tags`: exactly the configured tags, each
    * with its text or `''`. */
  function Record(tags: seq<string>, opp: XmlOpportunity): map<string, string>
  {
    if tags == [] then map[]
    else Record(tags[..|tags| - 1], opp)[tags[|tags| - 1] := TagText(opp, tags[|tags| - 1])]
  }

  lemma {:induction false} RecordShape(tags: seq<string>, opp: XmlOpportunity)
    ensures Record(tags, opp).Keys == set t | t in tags
    ensures forall t :: t in tags ==> Record(tags, opp)[t] == TagText(opp, t)
  {
    if tags != [] {
      var init := tags[..|tags| - 1];
      var last := tags[|tags| - 1];
      assert tags == init + [last];
      RecordShape(init, opp);
    }
  }

  function RecordOf(tags: seq<string>): XmlOpportunity -> map<string, string>
  {
    (opp: XmlOpportunity) => Record(tags, opp)
  }

  // ---------------------------------------------------------------------
  // ProcessXMLData: dates, the join with the CSV export and the open filter

  /** An opportunity once its three dates are reformatted (day numbers). */
  datatype Opportunity = Opportunity(fields: map<string, string>, closeDate: int, postDate: int, lastUpdatedDate: int)

  /** A row of `data`: the opportunity and its CSV row, `None` when the
    * left join finds none. */
  type DataRow = (Opportunity, Option<MetaRow>)

  /** A column of the frame built from the records: present when the frame
    * has rows and every row has that key. */
  predicate HasColumn(rows: seq<map<string, string>>, col: string)
  {
    rows != [] && forall j :: 0 <= j < |rows| ==> col in rows[j]
  }

  function CellOf(col: string): map<string, string> -> string
  {
    (row: map<string, string>) => if col in row then row[col] else ""
  }

  /** `get_formatted_date(data=self.opps_df[col], format_='%m%d%Y')`. */
  function DateColumn(rows: seq<map<string, string>>, col: string, parse: string -> Option<int>, today: int): (r: Result<seq<int>>)
    ensures r.Ok? ==> HasColumn(rows, col) && |r.value| == |rows|
                      && forall j :: 0 <= j < |rows| ==> Helpers.FormattedDate(rows[j][col], parse, today) == Ok(r.value[j])
    ensures r.Ok? <==> HasColumn(rows, col)
                       && forall j :: 0 <= j < |rows| ==> Helpers.FormattedDate(rows[j][col], parse, today).Ok?
  {
    if !HasColumn(rows, col) then Err(KeyError)
    else
      var cells := Map(CellOf(col), rows);
      Helpers.FormattedDates(cells, parse, today)
  }

  function Dated(rows: seq<map<string, string>>, closes: seq<int>, posts: seq<int>, updates: seq<int>): (r: seq<Opportunity>)
    requires |closes| == |rows| && |posts| == |rows| && |updates| == |rows|
    ensures |r| == |rows|
    ensures forall j :: 0 <= j < |rows| ==> r[j] == Opportunity(rows[j], closes[j], posts[j], updates[j])
  {
    seq(|rows|, j requires 0 <= j < |rows| => Opportunity(rows[j], closes[j], posts[j], updates[j]))
  }

  function OppKey(o: Opportunity): string
  {
    CellOf("OpportunityNumber")(o.fields)
  }

  function MetaKey(m: MetaRow): string
  {
    m.oppNumber
  }

  /** `self.data` after `ProcessXMLData`: the three date columns reformatted
    * (a missing column raises `KeyError`, an unparseable date `ValueError`),
    * then the left join with the CSV rows on the opportunity number. */
  function ProcessedData(rows: seq<map<string, string>>, metadata: seq<MetaRow>,
                         parse: string -> Option<int>, today: int): Result<seq<DataRow>>
  {
    match DateColumn(rows, "CloseDate", parse, today)
    case Err(e) => Err(e)
    case Ok(closes) =>
      match DateColumn(rows, "PostDate", parse, today)
      case Err(e) => Err(e)
      case Ok(posts) =>
        match DateColumn(rows, "LastUpdatedDate", parse, today)
        case Err(e) => Err(e)
        case Ok(updates) =>
          if !HasColumn(rows, "OpportunityNumber") then Err(KeyError)
          else Ok(Helpers.LeftMerge(Dated(rows, closes, posts, updates), metadata, OppKey, MetaKey))
  }

  /** The join keeps every opportunity, and each row's close date is its
    * record's `CloseDate` as reformatted. */
  lemma ProcessedRows(rows: seq<map<string, string>>, metadata: seq<MetaRow>,
                      parse: string -> Option<int>, today: int, d: DataRow)
    requires ProcessedData(rows, metadata, parse, today).Ok?
    requires d in ProcessedData(rows, metadata, parse, today).value
    ensures exists j :: 0 <= j < |rows| && d.0.fields == rows[j]
                        && Helpers.FormattedDate(rows[j]["CloseDate"], parse, today) == Ok(d.0.closeDate)
  {
    var closes := DateColumn(rows, "CloseDate", parse, today).value;
    var posts := DateColumn(rows, "PostDate", parse, today).value;
    var updates := DateColumn(rows, "LastUpdatedDate", parse, today).value;
    var opps := Dated(rows, closes, posts, updates);
    Helpers.LeftMergeMembers(opps, metadata, OppKey, MetaKey, d);
    var j :| 0 <= j < |opps| && opps[j] == d.0;
    assert d.0.fields == rows[j];
  }

  /** Every record of the XML extract appears in `data`. */
  lemma ProcessedKeepsAll(rows: seq<map<string, string>>, metadata: seq<MetaRow>,
                          parse: string -> Option<int>, today: int)
    requires ProcessedData(rows, metadata, parse, today).Ok?
    ensures |ProcessedData(rows, metadata, parse, today).value| >= |rows|
    ensures forall j :: 0 <= j < |rows| ==> exists d :: d in ProcessedData(rows, metadata, parse, today).value && d.0.fields == rows[j]
  {
    var closes := DateColumn(rows, "CloseDate", parse, today).value;
    var posts := DateColumn(rows, "PostDate", parse, today).value;
    var updates := DateColumn(rows, "LastUpdatedDate", parse, today).value;
    var opps := Dated(rows, closes, posts, updates);
    Helpers.LeftMergeKeeps(opps, metadata, OppKey, MetaKey);
    forall j | 0 <= j < |rows|
      ensures exists d :: d in ProcessedData(rows, metadata, parse, today).value && d.0.fields == rows[j]
    {
      assert opps[j] in opps;
    }
  }

  function IsOpenOn(today: int): DataRow -> bool
  {
    (d: DataRow) => d.0.closeDate > today
  }

  /** `self.data[self.data['CloseDate'] > today]`. */
  function OpenRows(data: seq<DataRow>, today: int): seq<DataRow>
  {
    Filter(IsOpenOn(today), data)
  }

  /** `open_df` holds, with their multiplicity and in order, exactly the rows
    * whose close date is after today. */
  lemma OpenRowsExact(data: seq<DataRow>, today: int, d: DataRow)
    ensures d in OpenRows(data, today) <==> d in data && d.0.closeDate > today
    ensures multiset(OpenRows(data, today))[d] == if d.0.closeDate > today then multiset(data)[d] else 0
  {
    FilterMembers(IsOpenOn(today), data, d);
    FilterCount(IsOpenOn(today), data, d);
  }

  /** A blank close date becomes today, so such an opportunity is never open. */
  lemma BlankCloseNeverOpen(rows: seq<map<string, string>>, metadata: seq<MetaRow>,
                            parse: string -> Option<int>, today: int, d: DataRow)
    requires ProcessedData(rows, metadata, parse, today).Ok?
    requires d in ProcessedData(rows, metadata, parse, today).value
    requires "CloseDate" in d.0.fields && Helpers.IsBlank(d.0.fields["CloseDate"])
    ensures d !in OpenRows(ProcessedData(rows, metadata, parse, today).value, today)
  {
    ProcessedRows(rows, metadata, parse, today, d);
    OpenRowsExact(ProcessedData(rows, metadata, parse, today).value, today, d);
  }

  // ---------------------------------------------------------------------
  // SaveXMLData: one file per agency

  function OfAgency(agency: string): DataRow -> bool
  {
    (d: DataRow) => CellOf("AgencyName")(d.0.fields) == agency
  }

  /** `self.open_df[self.open_df['AgencyName'] == agency]`. */
  function AgencyRows(open: seq<DataRow>, agency: string): seq<DataRow>
  {
    Filter(OfAgency(agency), open)
  }

  lemma AgencyRowsExact(open: seq<DataRow>, agency: string, d: DataRow)
    ensures d in AgencyRows(open, agency) <==> d in open && CellOf("AgencyName")(d.0.fields) == agency
    ensures multiset(AgencyRows(open, agency))[d]
            == if CellOf("AgencyName")(d.0.fields) == agency then multiset(open)[d] else 0
  {
    FilterMembers(OfAgency(agency), open, d);
    FilterCount(OfAgency(agency), open, d);
  }

  /** The loop over `agencies` from the files written so far: each agency's
    * rows go to its file; a missing `AgencyName` column or an agency
    * without a file name raises `KeyError`, after the earlier files were
    * written. */
  function WriteAgencies(files: map<string, seq<DataRow>>, agencies: seq<string>, filenames: map<string, string>,
                         open: seq<DataRow>, hasAgencyName: bool): (r: (map<string, seq<DataRow>>, Result<bool>))
    ensures r.1.Ok? <==> (agencies == [] || hasAgencyName) && forall a :: a in agencies ==> a in filenames
    ensures r.1.Err? ==> r.1.error == KeyError
    ensures forall f :: f in files && (forall a :: a in agencies && a in filenames ==> filenames[a] != f)
              ==> f in r.0 && r.0[f] == files[f]
    decreases |agencies|
  {
    if agencies == [] then (files, Ok(true))
    else if !hasAgencyName || agencies[0] !in filenames then (files, Err(KeyError))
    else
      assert forall a :: a in agencies[1..] ==> a in agencies;
      WriteAgencies(files[filenames[agencies[0]] := AgencyRows(open, agencies[0])], agencies[1..], filenames, open, hasAgencyName)
  }

  /** The file of an agency holds exactly that agency's open rows, unless a
    * later agency shares its file name and overwrites it. */
  lemma {:induction false} AgencyFile(files: map<string, seq<DataRow>>, agencies: seq<string>, filenames: map<string, string>,
                                      open: seq<DataRow>, hasAgencyName: bool, k: nat)
    requires WriteAgencies(files, agencies, filenames, open, hasAgencyName).1.Ok?
    requires k < |agencies|
    requires forall j :: k < j < |agencies| ==> filenames[agencies[j]] != filenames[agencies[k]]
    ensures filenames[agencies[k]] in WriteAgencies(files, agencies, filenames, open, hasAgencyName).0
    ensures WriteAgencies(files, agencies, filenames, open, hasAgencyName).0[filenames[agencies[k]]]
            == AgencyRows(open, agencies[k])
    decreases k
  {
    var next := files[filenames[agencies[0]] := AgencyRows(open, agencies[0])];
    assert agencies[0] in agencies;
    if k == 0 {
      var f := filenames[agencies[0]];
      forall a | a in agencies[1..] && a in filenames ensures filenames[a] != f {
        var j :| 0 <= j < |agencies[1..]| && agencies[1..][j] == a;
        assert agencies[j + 1] == a;
      }
    } else {
      forall j | k - 1 < j < |agencies[1..]| ensures filenames[agencies[1..][j]] != filenames[agencies[1..][k - 1]] {
        assert agencies[1..][j] == agencies[j + 1];
      }
      AgencyFile(next, agencies[1..], filenames, open, hasAgencyName, k - 1);
    }
  }

  // ---------------------------------------------------------------------
  // The extractor

  /** The entries of CONFIG.yml the extractor reads. */
  datatype Params = Params(xmlUrl: string, csvUrl: string, agenciesFilenameDict: map<string, string>,
                           agencies: seq<string>, tags: seq<string>,
                           openProposalsDataset: string, grantsDataset: string)

  class GrantsDataExtractor {
    const xmlUrl: string
    const csvUrl: string
    const agenciesFilenames: map<string, string>
    const agencies: seq<string>
    const tags: seq<string>
    const openProposalFilename: string
    const grantsFilename: string
    var metadata: Option<seq<MetaRow>>
    var oppsDf: Option<seq<map<string, string>>>
    var data: Option<seq<DataRow>>
    var openDf: Option<seq<DataRow>>
    /** The files written so far, by name. */
    var files: map<string, seq<DataRow>>

    /** Empty URLs and an empty agency list fall back to the configuration. */
    constructor(xmlUrl: string, csvUrl: string, agencies: seq<string>, params: Params)
      ensures this.xmlUrl == (if xmlUrl == "" then params.xmlUrl else xmlUrl)
      ensures this.csvUrl == (if csvUrl == "" then params.csvUrl else csvUrl)
      ensures this.agencies == (if agencies == [] then params.agencies else agencies)
      ensures agenciesFilenames == params.agenciesFilenameDict && tags == params.tags
      ensures openProposalFilename == params.openProposalsDataset && grantsFilename == params.grantsDataset
      ensures metadata.None? && oppsDf.None? && data.None? && openDf.None? && files == map[]
    {
      this.xmlUrl := if xmlUrl == "" then params.xmlUrl else xmlUrl;
      this.csvUrl := if csvUrl == "" then params.csvUrl else csvUrl;
      this.agencies := if agencies == [] then params.agencies else agencies;
      agenciesFilenames := params.agenciesFilenameDict;
      tags := params.tags;
      openProposalFilename := params.openProposalsDataset;
      grantsFilename := params.grantsDataset;
      metadata := None;
      oppsDf := None;
      data := None;
      openDf := None;
      files := map[];
    }

    /** `ExtractCSVData()` on the OPPORTUNITY NUMBER column of the export. */
    method ExtractCSVData(fields: seq<string>) returns (r: Result<bool>)
      modifies this`metadata
      ensures r.Ok? <==> Metadata(fields).Ok?
      ensures metadata == if r.Ok? then Some(Metadata(fields).value) else old(metadata)
    {
      var m := Metadata(fields);
      if m.Err? {
        return Err(m.error);
      }
      metadata := Some(m.value);
      r := Ok(true);
    }

    /** `ExtractXMLData()` on the opportunities of the XML extract. */
    method ExtractXMLData(opps: seq<XmlOpportunity>)
      modifies this`oppsDf
      ensures oppsDf == Some(Map(RecordOf(tags), opps))
    {
      var oppList: seq<map<string, string>> := [];
      for i := 0 to |opps|
        invariant oppList == Map(RecordOf(tags), opps[..i])
      {
        var dict: map<string, string> := map[];
        for k := 0 to |tags|
          invariant dict == Record(tags[..k], opps[i])
        {
          assert tags[..k + 1][..k] == tags[..k];
          dict := dict[tags[k] := TagText(opps[i], tags[k])];
        }
        assert tags[..|tags|] == tags;
        oppList := oppList + [dict];
      }
      assert opps[..|opps|] == opps;
      oppsDf := Some(oppList);
    }

    /** `ProcessXMLData()`. */
    method ProcessXMLData(parse: string -> Option<int>, today: int) returns (r: Result<bool>)
      requires metadata.Some? && oppsDf.Some?
      modifies this`data, this`openDf
      ensures r.Ok? <==> ProcessedData(oppsDf.value, metadata.value, parse, today).Ok?
      ensures r.Ok? ==> data == Some(ProcessedData(oppsDf.value, metadata.value, parse, today).value)
                        && openDf == Some(OpenRows(data.value, today))
      ensures r.Err? ==> data == old(data) && openDf == old(openDf)
    {
      var processed := ProcessedData(oppsDf.value, metadata.value, parse, today);
      if processed.Err? {
        return Err(processed.error);
      }
      data := Some(processed.value);
      openDf := Some(OpenRows(processed.value, today));
      r := Ok(true);
    }

    /** `SaveXMLData()`: one file per agency, then the whole table and the
      * open opportunities. */
    method SaveXMLData() returns (r: Result<bool>)
      requires oppsDf.Some? && data.Some? && openDf.Some?
      modifies this`files
      ensures var w := WriteAgencies(old(files), agencies, agenciesFilenames, openDf.value, HasColumn(oppsDf.value, "AgencyName"));
              r == w.1
              && files == if r.Ok? then w.0[grantsFilename := data.value][openProposalFilename := openDf.value] else w.0
    {
      var hasAgencyName := HasColumn(oppsDf.value, "AgencyName");
      var i := 0;
      while i < |agencies|
        invariant 0 <= i <= |agencies|
        invariant WriteAgencies(files, agencies[i..], agenciesFilenames, openDf.value, hasAgencyName)
                  == WriteAgencies(old(files), agencies, agenciesFilenames, openDf.value, hasAgencyName)
      {
        if !hasAgencyName || agencies[i] !in agenciesFilenames {
          return Err(KeyError);
        }
        assert agencies[i..][1..] == agencies[i + 1..];
        files := files[agenciesFilenames[agencies[i]] := AgencyRows(openDf.value, agencies[i])];
        i := i + 1;
      }
      files := files[grantsFilename := data.value][openProposalFilename := openDf.value];
      r := Ok(true);
    }
  }
}

=== FILE: publications.dfy ===
/** extract_publications.py: the publications of every scholar. The
  * scholars table is given as its (User_id, Publications) pairs; `parse`
  * stands for `ast.literal_eval` (`None` when it raises), `fetch` for the
  * request and `json.loads` of its answer (`None` when that raises), and
  * `show` for `str` on a publication id. A request that raises inside
  * `get_request` is not caught by the script and ends it; the model's one
  * `None` answer covers both that case and an answer that is not JSON, which
  * the script catches and records as `{"id": idx}`. */
module Publications {
  import opened Wrappers
  import opened Seqs
  import Helpers
  import opened Profiles

  // ---------------------------------------------------------------------
  // get_publication_ids

  /** The ids the loop appends before the first entry whose `d_["id"]` raises. */
  function IdsBefore(entries: seq<Json>): seq<Json>
  {
    if entries == [] then []
    else
      match Index(entries[0], "id")
      case None => []
      case Some(id) => [id] + IdsBefore(entries[1..])
  }

  /** The ids are those of a prefix of the entries, and when the prefix is
    * not all of them, the entry after it has no id. */
  lemma {:induction false} IdsBeforeShape(entries: seq<Json>)
    ensures |IdsBefore(entries)| <= |entries|
    ensures forall j :: 0 <= j < |IdsBefore(entries)| ==> Index(entries[j], "id") == Some(IdsBefore(entries)[j])
    ensures |IdsBefore(entries)| < |entries| ==> Index(entries[|IdsBefore(entries)|], "id").None?
  {
    if entries != [] && Index(entries[0], "id").Some? {
      IdsBeforeShape(entries[1..]);
      var r := IdsBefore(entries);
      var rest := IdsBefore(entries[1..]);
      assert r == [Index(entries[0], "id").value] + rest;
      forall j | 0 < j < |r| ensures Index(entries[j], "id") == Some(r[j]) {
        assert entries[j] == entries[1..][j - 1] && r[j] == rest[j - 1];
      }
      if |r| < |entries| {
        assert entries[|r|] == entries[1..][|rest|];
      }
    }
  }

  /** The ids `get_publication_ids` stores for a user: an empty list when the
    * cell is missing, cannot be evaluated or is not iterable. */
  function PublicationIds(cell: Option<string>, parse: string -> Option<Json>): seq<Json>
  {
    match cell
    case None => []
    case Some(s) =>
      match parse(s)
      case None => []
      case Some(v) =>
        match Iterate(v)
        case None => []
        case Some(entries) => IdsBefore(entries)
  }

  /** A cell holding a list of entries that all have an id gives all the ids,
    * in order; one that cannot be evaluated gives none. */
  lemma PublicationIdsExact(s: string, parse: string -> Option<Json>, entries: seq<Json>, ids: seq<Json>)
    ensures parse(s).None? ==> PublicationIds(Some(s), parse) == []
    ensures parse(s) == Some(JArr(entries)) && |ids| == |entries|
            && (forall j :: 0 <= j < |entries| ==> Index(entries[j], "id") == Some(ids[j]))
            ==> PublicationIds(Some(s), parse) == ids
  {
    if parse(s) == Some(JArr(entries)) && |ids| == |entries|
       && (forall j :: 0 <= j < |entries| ==> Index(entries[j], "id") == Some(ids[j])) {
      IdsBeforeShape(entries);
      var r := IdsBefore(entries);
      if |r| < |entries| {
        assert false;
      }
      assert r == ids;
    }
  }

  // ---------------------------------------------------------------------
  // The merge of create_univ_publication_data

  type IdsDict = map<string, seq<Json>>

  /** A (User_id, Publications) row of the scholars table. */
  type UserRow = (string, Option<string>)

  /** An item of `user_pub_dict`: a user id and its publication ids. */
  type PubItem = (string, seq<Json>)

  /** `{k: v for d in ds for k, v in d.items()}`: a later dict overwrites an
    * earlier one. */
  function MergeDicts(ds: seq<IdsDict>): IdsDict
  {
    if ds == [] then map[] else MergeDicts(ds[..|ds| - 1]) + ds[|ds| - 1]
  }

  /** A key of the merge is a key of some dict, and its value is that of the
    * last dict holding it. */
  lemma {:induction false} MergeDictsLast(ds: seq<IdsDict>, k: string)
    ensures k in MergeDicts(ds) <==> exists i :: 0 <= i < |ds| && k in ds[i]
    ensures k in MergeDicts(ds) ==>
              exists i :: 0 <= i < |ds| && k in ds[i] && MergeDicts(ds)[k] == ds[i][k]
                          && forall j :: i < j < |ds| ==> k !in ds[j]
  {
    if ds != [] {
      var n := |ds| - 1;
      var init := ds[..n];
      MergeDictsLast(init, k);
      if k !in ds[n] {
        if exists i :: 0 <= i < |ds| && k in ds[i] {
          var i :| 0 <= i < |ds| && k in ds[i];
          assert init[i] == ds[i];
        }
        if k in MergeDicts(init) {
          var i :| 0 <= i < |init| && k in init[i] && MergeDicts(init)[k] == init[i][k]
                   && forall j :: i < j < |init| ==> k !in init[j];
          assert ds[i] == init[i];
          forall j | i < j < |ds| ensures k !in ds[j] {
            if j < n {
              assert ds[j] == init[j];
            }
          }
        }
      }
    }
  }

  /** The one-key dict `get_publication_ids` returns for a row of the table. */
  function DictOf(row: UserRow, parse: string -> Option<Json>): IdsDict
  {
    map[row.0 := PublicationIds(row.1, parse)]
  }

  function DictFor(parse: string -> Option<Json>): UserRow -> IdsDict
  {
    row => DictOf(row, parse)
  }

  function UserOf(row: UserRow): string
  {
    row.0
  }

  /** `user_pub_dict`. */
  function UserPubDict(rows: seq<UserRow>, parse: string -> Option<Json>): IdsDict
  {
    MergeDicts(Map(DictFor(parse), rows))
  }

  /** Every user of the table has an entry, and it holds the ids of the
    * user's last row. */
  lemma UserPubDictLast(rows: seq<UserRow>, parse: string -> Option<Json>, u: string)
    ensures u in UserPubDict(rows, parse) <==> u in Map(UserOf, rows)
    ensures u in UserPubDict(rows, parse) ==>
              exists i :: 0 <= i < |rows| && rows[i].0 == u && UserPubDict(rows, parse)[u] == PublicationIds(rows[i].1, parse)
                          && forall j :: i < j < |rows| ==> rows[j].0 != u
  {
    var ds := Map(DictFor(parse), rows);
    MergeDictsLast(ds, u);
    if u in Map(UserOf, rows) {
      var i :| 0 <= i < |rows| && Map(UserOf, rows)[i] == u;
      assert u in ds[i];
    }
    if u in MergeDicts(ds) {
      var i :| 0 <= i < |ds| && u in ds[i] && MergeDicts(ds)[u] == ds[i][u]
               && forall j :: i < j < |ds| ==> u !in ds[j];
      assert rows[i].0 == u && Map(UserOf, rows)[i] == u;
      forall j | i < j < |rows| ensures rows[j].0 != u {
        assert u !in ds[j];
      }
    }
  }

  lemma UserPubDictKeys(rows: seq<UserRow>, parse: string -> Option<Json>)
    ensures forall u :: u in UserPubDict(rows, parse) <==> u in Map(UserOf, rows)
  {
    forall u ensures u in UserPubDict(rows, parse) <==> u in Map(UserOf, rows) {
      UserPubDictLast(rows, parse, u);
    }
  }

  /** `pub_list`, the items of the dict in insertion order. */
  function PubList(rows: seq<UserRow>, parse: string -> Option<Json>): seq<PubItem>
  {
    UserPubDictKeys(rows, parse);
    var d := UserPubDict(rows, parse);
    var order := Distinct(Map(UserOf, rows));
    seq(|order|, i requires 0 <= i < |order| => (order[i], d[order[i]]))
  }

  /** Each user of the table once, in order of first appearance, with the
    * ids of the user's last row. */
  lemma PubListShape(rows: seq<UserRow>, parse: string -> Option<Json>)
    ensures var r := PubList(rows, parse);
            (forall i, j :: 0 <= i < j < |r| ==> r[i].0 != r[j].0)
            && (forall u :: u in Map(UserOf, rows) <==> exists i :: 0 <= i < |r| && r[i].0 == u)
            && (forall i :: 0 <= i < |r| ==> r[i].0 in UserPubDict(rows, parse) && r[i].1 == UserPubDict(rows, parse)[r[i].0])
  {
    UserPubDictKeys(rows, parse);
    var r := PubList(rows, parse);
    var order := Distinct(Map(UserOf, rows));
    assert |r| == |order| && forall i :: 0 <= i < |r| ==> r[i].0 == order[i];
    forall u | u in Map(UserOf, rows) ensures exists i :: 0 <= i < |r| && r[i].0 == u {
      assert u in order;
      var i :| 0 <= i < |order| && order[i] == u;
      assert r[i].0 == u;
    }
  }

  // ---------------------------------------------------------------------
  // create_user_publication_data

  /** A row of the publications table: a publication of a user, or the one
    * row holding only the user id of a user without publications. */
  datatype PubRow = Publication(userId: string, record: Json) | NoPublications(userId: string)

  /** The record of one id: the answer, or `{"id": idx}` when it is not JSON. */
  function RecordOf(idx: Json, url: string, fetch: string -> Option<Json>, show: Json -> string): Json
  {
    match fetch(url + show(idx))
    case None => JObj([("id", idx)])
    case Some(v) => v
  }

  function RowFor(userId: string, url: string, fetch: string -> Option<Json>, show: Json -> string): Json -> PubRow
  {
    idx => Publication(userId, RecordOf(idx, url, fetch, show))
  }

  /** `create_user_publication_data(user_id, pub_ids)`: one row per id, in
    * order, each carrying the user id; a single id-only row when there are no ids. */
  function UserPublications(userId: string, pubIds: seq<Json>, url: string, fetch: string -> Option<Json>, show: Json -> string)
    : (rows: seq<PubRow>)
    ensures |rows| == if pubIds == [] then 1 else |pubIds|
    ensures forall j :: 0 <= j < |rows| ==> rows[j].userId == userId
    ensures rows[0].NoPublications? <==> pubIds == []
  {
    if |pubIds| > 0 then Map(RowFor(userId, url, fetch, show), pubIds) else [NoPublications(userId)]
  }

  function Found(id: Json): Option<Json>
  {
    Some(id)
  }

  /** The id of a row's record, if it has one. */
  function RowId(row: PubRow): Option<Json>
  {
    if row.Publication? then Index(row.record, "id") else None
  }

  /** When every answer that is JSON is an object carrying the requested id
    * as its last "id" entry, the rows' ids are the user's ids, in order;
    * an answer that is not JSON keeps its id through the fallback record. */
  lemma RowIdsAreIds(userId: string, pubIds: seq<Json>, url: string, fetch: string -> Option<Json>, show: Json -> string)
    requires pubIds != []
    requires forall j :: 0 <= j < |pubIds| && fetch(url + show(pubIds[j])).Some? ==>
               Index(fetch(url + show(pubIds[j])).value, "id") == Some(pubIds[j])
    ensures Map(RowId, UserPublications(userId, pubIds, url, fetch, show)) == Map(Found, pubIds)
  {
    var rows := UserPublications(userId, pubIds, url, fetch, show);
    forall j | 0 <= j < |pubIds| ensures RowId(rows[j]) == Some(pubIds[j]) {
      var rec := RecordOf(pubIds[j], url, fetch, show);
      assert rows[j] == Publication(userId, rec);
      if fetch(url + show(pubIds[j])).None? {
        assert rec == JObj([("id", pubIds[j])]);
        assert LastValue([("id", pubIds[j])], "id") == Some(pubIds[j]);
      }
    }
  }

  function UserPublicationsFor(url: string, fetch: string -> Option<Json>, show: Json -> string): PubItem -> seq<PubRow>
  {
    (p: PubItem) => UserPublications(p.0, p.1, url, fetch, show)
  }

  // ---------------------------------------------------------------------
  // save_user_publications

  /** The columns `save_user_publications` selects. */
  const SavedColumns: seq<string> := ["user_id", "id", "class", "title", "abstract", "publicationVenue", "authors",
                                      "publicationDate", "publisher", "identifier", "doi", "pageStart", "pageEnd",
                                      "volume", "issue", "altmetricScore", "citationCount", "authorList", "type",
                                      "modTime", "_links", "bookTitle", "keywords"]

  /** Whether some row of the concatenated table has the column. */
  predicate HasColumn(rows: seq<PubRow>, c: string)
  {
    c == "user_id" || exists j :: 0 <= j < |rows| && rows[j].Publication? && Index(rows[j].record, c).Some?
  }

  /** One cell of the concatenated table: the user id in the "user_id"
    * column, otherwise the record's value for the column; NaN where a row
    * has no such value (and everywhere but "user_id" in a row of a user
    * without publications). */
  function Cell(row: PubRow, c: string): Option<Json>
  {
    if c == "user_id" then Some(JStr(row.userId))
    else
      match row
      case Publication(_, record) => Index(record, c)
      case NoPublications(_) => None
  }

  /** A saved line: the row's cells in the selected columns, in their order. */
  function SavedLine(row: PubRow): (line: seq<Option<Json>>)
    ensures |line| == |SavedColumns|
    ensures forall k :: 0 <= k < |SavedColumns| ==> line[k] == Cell(row, SavedColumns[k])
  {
    seq(|SavedColumns|, k requires 0 <= k < |SavedColumns| => Cell(row, SavedColumns[k]))
  }

  /** `pd.concat` of the users' tables and the selection of the columns:
    * no table at all raises `ValueError`, a column no row has raises
    * `KeyError`; otherwise the saved table has one line per row, holding
    * exactly that row's cells in the selected columns. */
  function Saved(pubData: seq<seq<PubRow>>): (r: Result<seq<seq<Option<Json>>>>)
    ensures r.Ok? <==> pubData != [] && forall c :: c in SavedColumns ==> HasColumn(Flatten(pubData), c)
    ensures r.Ok? ==> |r.value| == |Flatten(pubData)|
    ensures r.Ok? ==> forall j, k :: 0 <= j < |r.value| && 0 <= k < |SavedColumns| ==>
                        |r.value[j]| == |SavedColumns| && r.value[j][k] == Cell(Flatten(pubData)[j], SavedColumns[k])
  {
    if pubData == [] then Err(ValueError)
    else if forall c :: c in SavedColumns ==> HasColumn(Flatten(pubData), c) then Ok(Map(SavedLine, Flatten(pubData)))
    else Err(KeyError)
  }

  /** The selection drops every other key of an answer: two records that
    * agree on the selected columns are saved as the same line. */
  lemma {:induction false} OtherKeysDropped(userId: string, rec1: Json, rec2: Json)
    requires forall c :: c in SavedColumns ==> Index(rec1, c) == Index(rec2, c)
    ensures SavedLine(Publication(userId, rec1)) == SavedLine(Publication(userId, rec2))
  {
    var l1, l2 := SavedLine(Publication(userId, rec1)), SavedLine(Publication(userId, rec2));
    forall k | 0 <= k < |SavedColumns| ensures l1[k] == l2[k] {
      assert SavedColumns[k] in SavedColumns;
    }
  }

  /** A university none of whose scholars has a publication cannot be saved:
    * the table has no "id" column. */
  lemma NoPublicationsNotSaved(pubData: seq<seq<PubRow>>)
    requires forall i :: 0 <= i < |pubData| ==> forall j :: 0 <= j < |pubData[i]| ==> pubData[i][j].NoPublications?
    ensures Saved(pubData).Err?
  {
    var rows := Flatten(pubData);
    if HasColumn(rows, "id") {
      var j :| 0 <= j < |rows| && rows[j].Publication? && Index(rows[j].record, "id").Some?;
      FlattenMembers(pubData, rows[j]);
      assert false;
    }
    assert "id" in SavedColumns;
  }

  // ---------------------------------------------------------------------

  class ExtractPublications {
    const nCores: int
    /** `univ_details['PROFILE_URL']`. */
    const profileUrl: string
    /** The (User_id, Publications) pairs of the scholars table. */
    const userRows: seq<UserRow>
    var pubData: seq<seq<PubRow>>

    constructor(nCores: int, cpuCount: int, profileUrl: string, userRows: seq<UserRow>)
      ensures this.nCores == (if nCores == 0 then cpuCount else nCores)
      ensures this.profileUrl == profileUrl && this.userRows == userRows && pubData == []
    {
      this.nCores := if nCores == 0 then cpuCount else nCores;
      this.profileUrl := profileUrl;
      this.userRows := userRows;
      pubData := [];
    }

    /** `get_publication_ids(user_id, str_)`: the loop over the entries. */
    method GetPublicationIds(userId: string, cell: Option<string>, parse: string -> Option<Json>)
      returns (userDict: IdsDict)
      ensures userDict.Keys == {userId}
      ensures userDict[userId] == PublicationIds(cell, parse)
    {
      var publicationsIds: seq<Json> := [];
      if cell.None? {
        return map[userId := publicationsIds];
      }
      var dictList := parse(cell.value);
      if dictList.None? {
        return map[userId := publicationsIds];
      }
      var entries := Iterate(dictList.value);
      if entries.None? {
        return map[userId := publicationsIds];
      }
      var es := entries.value;
      for i := 0 to |es|
        invariant IdsBefore(es) == publicationsIds + IdsBefore(es[i..])
      {
        assert es[i..][0] == es[i] && es[i..][1..] == es[i + 1..];
        var id := Index(es[i], "id");
        if id.None? {
          assert publicationsIds + [] == publicationsIds;
          return map[userId := publicationsIds];
        }
        assert publicationsIds + ([id.value] + IdsBefore(es[i + 1..])) == (publicationsIds + [id.value]) + IdsBefore(es[i + 1..]);
        publicationsIds := publicationsIds + [id.value];
      }
      assert es[|es|..] == [] && publicationsIds + [] == publicationsIds;
      userDict := map[userId := publicationsIds];
    }

    /** `create_user_publication_data(user_id, pub_ids)`: the loop over the ids. */
    method CreateUserPublicationData(userId: string, pubIds: seq<Json>, fetch: string -> Option<Json>, show: Json -> string)
      returns (rows: seq<PubRow>)
      ensures rows == UserPublications(userId, pubIds, profileUrl, fetch, show)
    {
      if |pubIds| > 0 {
        var pubs: seq<PubRow> := [];
        for i := 0 to |pubIds|
          invariant pubs == Map(RowFor(userId, profileUrl, fetch, show), pubIds[..i])
        {
          var pubUrl := profileUrl + show(pubIds[i]);
          var responseJson := fetch(pubUrl);
          var record := if responseJson.None? then JObj([("id", pubIds[i])]) else responseJson.value;
          assert pubIds[..i + 1][..i] == pubIds[..i];
          pubs := pubs + [Publication(userId, record)];
        }
        assert pubIds[..|pubIds|] == pubIds;
        rows := pubs;
      } else {
        rows := [NoPublications(userId)];
      }
    }

    /** `create_univ_publication_data()`: one table per user of the merged dict. */
    method CreateUnivPublicationData(parse: string -> Option<Json>, fetch: string -> Option<Json>, show: Json -> string)
      modifies this`pubData
      ensures pubData == Map(UserPublicationsFor(profileUrl, fetch, show), PubList(userRows, parse))
    {
      var pubTokens := Helpers.Parallelize(nCores, DictFor(parse), userRows);
      assert pubTokens == Map(DictFor(parse), userRows);
      var pubList := PubList(userRows, parse);
      var data := Helpers.Parallelize(nCores, UserPublicationsFor(profileUrl, fetch, show), pubList);
      pubData := data;
    }

    /** `save_user_publications()`: the table that is written, or the exception. */
    method SaveUserPublications() returns (r: Result<seq<seq<Option<Json>>>>)
      ensures r == Saved(pubData)
    {
      r := Saved(pubData);
    }
  }
}

=== FILE: ranker.dfy ===
/** model.py: the ranking of scholars for one proposal. Every scholar's five
  * text channels are compared with the proposal's three keyword lists (15
  * counter-cosine scores), the scores are summed, the rows are sorted by the
  * sum and cut to the top K, and the scholars' metadata is selected in that
  * order and turned into JSON records. Tables are lists of rows; a NaN cell
  * is `None`. */
module Ranker {
  import opened Wrappers
  import opened Seqs
  import Cosine
  import Helpers

  // ---------------------------------------------------------------------
  // get_column_names

  /** The scholar channels, in the order the score columns use them. */
  const FeatCols: seq<string> := ["Keywords", "Overview", "Organization", "pub_keyword", "pub_title"]

  /** The proposal fields each channel is compared with. */
  const CfpFields: seq<string> := ["desc", "title", "dept"]

  /** When every inner list has three elements, element `j` of list `i` is
    * element `3 * i + j` of the concatenation. */
  lemma {:induction false} FlattenTriples<T>(xss: seq<seq<T>>)
    requires forall k :: 0 <= k < |xss| ==> |xss[k]| == 3
    ensures |Flatten(xss)| == 3 * |xss|
    ensures forall i, j :: 0 <= i < |xss| && 0 <= j < 3 ==> Flatten(xss)[3 * i + j] == xss[i][j]
  {
    if xss != [] {
      FlattenTriples(xss[1..]);
      forall i, j | 0 <= i < |xss| && 0 <= j < 3
        ensures Flatten(xss)[3 * i + j] == xss[i][j]
      {
        if i > 0 {
          assert xss[1..][i - 1] == xss[i];
        }
      }
    }
  }

  function ColumnsOf(feat: string): seq<string>
  {
    Map((f: string) => feat + "_" + f + "_sim", CfpFields)
  }

  /** `get_column_names()`: `<channel>_<field>_sim` for every channel and
    * field, channel-major: column `3 * c + f` pairs channel `c` with field `f`. */
  function ColumnNames(): (r: seq<string>)
    ensures |r| == 15
    ensures forall c, f {:trigger FeatCols[c], CfpFields[f]} :: 0 <= c < 5 && 0 <= f < 3
              ==> r[3 * c + f] == FeatCols[c] + "_" + CfpFields[f] + "_sim"
  {
    var xss := Map(ColumnsOf, FeatCols);
    FlattenTriples(xss);
    Flatten(xss)
  }

  // ---------------------------------------------------------------------
  // Configuration: __init__

  /** The entries of the configuration file the ranker reads. */
  datatype Params = Params(
    cpuCount: int,
    proposalId: string,
    topKScholars: int,
    agencyFiles: map<string, string>,
    analyticalDataset: string,
    scholarsDataset: string)

  /** The settings of a `Top_Scholar_Identifier`. */
  datatype Config = Config(
    nCores: int,
    idNo: string,
    topK: int,
    generator: string,
    proposalDataFile: string,
    analyticalFilename: string,
    scholarsFilename: string)

  const AgencyMap: map<string, string> := map[
    "NSF" := "National Science Foundation",
    "nsf" := "National Science Foundation",
    "nih" := "National Institutes of Health",
    "NIH" := "National Institutes of Health"]

  /** `Top_Scholar_Identifier.__init__`: a zero core count, an empty proposal
    * id and a zero K fall back to the configuration; the agency must be one
    * of four spellings and its full name must have a proposal file, or the
    * lookup raises `KeyError`. */
  function Configure(nCores: int, idNo: string, topK: int, generator: string, agency: string, params: Params): (r: Result<Config>)
    ensures r.Ok? ==> agency in {"NSF", "nsf", "NIH", "nih"}
    ensures r.Ok? <==> agency in AgencyMap && AgencyMap[agency] in params.agencyFiles
    ensures r.Err? ==> r.error == KeyError
    ensures r.Ok? ==> (nCores != 0 ==> r.value.nCores == nCores) && (nCores == 0 ==> r.value.nCores == params.cpuCount)
    ensures r.Ok? ==> (idNo != "" ==> r.value.idNo == idNo) && (idNo == "" ==> r.value.idNo == params.proposalId)
    ensures r.Ok? ==> (topK != 0 ==> r.value.topK == topK) && (topK == 0 ==> r.value.topK == params.topKScholars)
  {
    if agency !in AgencyMap || AgencyMap[agency] !in params.agencyFiles then Err(KeyError)
    else
      Ok(Config(
        if nCores == 0 then params.cpuCount else nCores,
        if idNo == "" then params.proposalId else idNo,
        if topK == 0 then params.topKScholars else topK,
        generator,
        params.agencyFiles[AgencyMap[agency]],
        params.analyticalDataset,
        params.scholarsDataset))
  }

  // ---------------------------------------------------------------------
  // The tables

  /** A row of the analytical table: the scholar's id and five text channels. */
  datatype AdRow = AdRow(
    userId: string,
    keywords: Option<string>,
    overview: Option<string>,
    organization: Option<string>,
    pubKeyword: Option<string>,
    pubTitle: Option<string>)

  /** `ad[FeatCols[c]]` of a row. */
  function Channel(row: AdRow, c: nat): Option<string>
    requires c < 5
  {
    if c == 0 then row.keywords
    else if c == 1 then row.overview
    else if c == 2 then row.organization
    else if c == 3 then row.pubKeyword
    else row.pubTitle
  }

  /** A row of the proposal table as read, and after `fillna(" ")`. */
  datatype ProposalRow = ProposalRow(oppNumber: Option<string>, title: Option<string>, description: Option<string>, department: Option<string>)
  datatype Proposal = Proposal(oppNumber: string, title: string, description: string, department: string)

  function Filled(row: ProposalRow): Proposal
  {
    Proposal(row.oppNumber.GetOr(" "), row.title.GetOr(" "), row.description.GetOr(" "), row.department.GetOr(" "))
  }

  /** A row of the scholars table: its `User_id` and the twelve columns `recommend` reports. */
  datatype ScholarRow = ScholarRow(
    userId: string,
    netid: Option<string>,
    name: Option<string>,
    email: Option<string>,
    kind: Option<string>,
    keywords: Option<string>,
    nPublications: Option<string>,
    nResearch: Option<string>,
    awards: Option<string>,
    nAwards: Option<string>,
    organizations: Option<string>,
    course: Option<string>,
    department: Option<string>)

  // ---------------------------------------------------------------------
  // read_data

  /** `read_data`'s lookup: after `fillna(" ")`, the first proposal whose
    * opportunity number is `idNo`; `iloc[0]` of an empty selection raises. */
  function FindProposal(rows: seq<ProposalRow>, idNo: string): (r: Result<Proposal>)
    ensures r.Err? <==> forall i :: 0 <= i < |rows| ==> Filled(rows[i]).oppNumber != idNo
    ensures r.Err? ==> r.error == IndexError
    ensures r.Ok? ==> exists i :: 0 <= i < |rows| && r.value == Filled(rows[i]) && r.value.oppNumber == idNo
                       && forall j :: 0 <= j < i ==> Filled(rows[j]).oppNumber != idNo
  {
    if rows == [] then Err(IndexError)
    else if Filled(rows[0]).oppNumber == idNo then Ok(Filled(rows[0]))
    else
      var r := FindProposal(rows[1..], idNo);
      assert forall i :: 0 < i < |rows| ==> rows[i] == rows[1..][i - 1];
      if r.Ok? then
        var i :| 0 <= i < |rows[1..]| && r.value == Filled(rows[1..][i]) && r.value.oppNumber == idNo
                 && forall j :: 0 <= j < i ==> Filled(rows[1..][j]).oppNumber != idNo;
        assert forall j :: 0 <= j < i + 1 ==> Filled(rows[j]).oppNumber != idNo by {
          forall j | 0 <= j < i + 1 ensures Filled(rows[j]).oppNumber != idNo {
            if j > 0 { assert rows[j] == rows[1..][j - 1]; }
          }
        }
        r
      else r
  }

  // ---------------------------------------------------------------------
  // get_section_keys_for_proposal

  /** The keyword lists of the proposal's description, title and department. */
  datatype SectionKeys = SectionKeys(desc: seq<string>, title: seq<string>, dept: seq<string>)

  function Field(keys: SectionKeys, f: nat): seq<string>
    requires f < 3
  {
    if f == 0 then keys.desc else if f == 1 then keys.title else keys.dept
  }

  function LongerThanThree(k: string): bool { |k| > 3 }

  /** `[i for i in get_keys(text, generator=..., ntop=top_k) if len(i) > 3]`:
    * iterating the `None` of an unknown generator raises `TypeError`. */
  function SectionKeysOf(text: string, generator: string, ntop: int, lib: Helpers.KeywordLibrary): (r: Result<seq<string>>)
    ensures r.Ok? <==> generator in {"Spacy", "Yake", "Rake"}
    ensures r == Err(TypeError) <==> generator !in Helpers.GeneratorNames
    ensures r.Ok? ==> forall i :: 0 <= i < |r.value| ==> |r.value[i]| > 3
  {
    match Helpers.GetKeys(text, 1, ntop, generator, lib)
    case Keys(ks) =>
      FilterAll(LongerThanThree, ks);
      Ok(Filter(LongerThanThree, ks))
    case NoGenerator => Err(TypeError)
    case Raises(e) => Err(e)
  }

  /** `get_section_keys_for_proposal`: the three lists, or what the first call raises. */
  function ProposalKeys(p: Proposal, generator: string, ntop: int, lib: Helpers.KeywordLibrary): (r: Result<SectionKeys>)
    ensures r.Ok? <==> generator in {"Spacy", "Yake", "Rake"}
  {
    match SectionKeysOf(p.description, generator, ntop, lib)
    case Err(e) => Err(e)
    case Ok(desc) =>
      match SectionKeysOf(p.title, generator, ntop, lib)
      case Err(e) => Err(e)
      case Ok(title) =>
        match SectionKeysOf(p.department, generator, ntop, lib)
        case Err(e) => Err(e)
        case Ok(dept) => Ok(SectionKeys(desc, title, dept))
  }

  // ---------------------------------------------------------------------
  // get_top_scholars: the score lists

  /** One argument tuple of `counter_cosine_similarity`. */
  type Task = (string, Option<string>, seq<string>)

  /** `[(i, j, k) for i, j, k in zip(ad["user_id"], ad[channel], [keys] * n)]`. */
  function Tasks(ad: seq<AdRow>, c: nat, keys: seq<string>): (r: seq<Task>)
    requires c < 5
    ensures |r| == |ad|
    ensures forall i :: 0 <= i < |ad| ==> r[i] == (ad[i].userId, Channel(ad[i], c), keys)
  {
    Map((row: AdRow) => (row.userId, Channel(row, c), keys), ad)
  }

  /** `similarity_lists`: one list per channel and proposal field, channel-major. */
  function SimilarityLists(ad: seq<AdRow>, keys: SectionKeys): (r: seq<seq<Task>>)
    ensures |r| == 15
    ensures forall k :: 0 <= k < 15 ==> r[k] == Tasks(ad, k / 3, Field(keys, k % 3))
  {
    seq(15, k requires 0 <= k < 15 => Tasks(ad, k / 3, Field(keys, k % 3)))
  }

  /** `counter_cosine_similarity(*task)`. */
  function Score(t: Task): (string, Cosine.Similarity)
  {
    Cosine.CounterCosine(t.0, t.1, t.2)
  }

  /** `score_lists`: every list scored in order. */
  function ScoreLists(lists: seq<seq<Task>>): (r: seq<seq<(string, Cosine.Similarity)>>)
    ensures |r| == |lists|
    ensures forall k :: 0 <= k < |lists| ==> r[k] == Map(Score, lists[k])
  {
    Map((l: seq<Task>) => Map(Score, l), lists)
  }

  // ---------------------------------------------------------------------
  // get_top_scholars: the similarity table

  /** A row of `sim_df`: the scholar, the 15 scores in column order, and `total_sim`. */
  datatype SimRow = SimRow(userId: string, scores: seq<real>, total: real)

  function SumReals(xs: seq<real>): real
  {
    if xs == [] then 0.0 else xs[0] + SumReals(xs[1..])
  }

  /** The row of scholar `r`: its id from the last score list, its score in
    * each column `k` from list `k`, and their sum. `value` is the number a
    * similarity stands for. */
  function SimRowAt(scoreLists: seq<seq<(string, Cosine.Similarity)>>, r: nat, value: Cosine.Similarity -> real): (row: SimRow)
    requires |scoreLists| == 15
    requires forall k :: 0 <= k < 15 ==> r < |scoreLists[k]|
    ensures |row.scores| == 15
    ensures forall k :: 0 <= k < 15 ==> row.scores[k] == value(scoreLists[k][r].1)
    ensures row.userId == scoreLists[14][r].0
    ensures row.total == SumReals(row.scores)
  {
    var scores := seq(15, k requires 0 <= k < 15 => value(scoreLists[k][r].1));
    SimRow(scoreLists[14][r].0, scores, SumReals(scores))
  }

  /** `sim_df` before sorting: one row per scholar, in `ad` order. */
  function SimRows(scoreLists: seq<seq<(string, Cosine.Similarity)>>, value: Cosine.Similarity -> real): (rows: seq<SimRow>)
    requires |scoreLists| == 15
    requires forall k :: 0 <= k < 15 ==> |scoreLists[k]| == |scoreLists[14]|
    ensures |rows| == |scoreLists[14]|
    ensures forall r :: 0 <= r < |rows| ==> rows[r] == SimRowAt(scoreLists, r, value)
  {
    seq(|scoreLists[14]|, r requires 0 <= r < |scoreLists[14]| => SimRowAt(scoreLists, r, value))
  }

  lemma ScoreListsShape(ad: seq<AdRow>, keys: SectionKeys)
    ensures |ScoreLists(SimilarityLists(ad, keys))| == 15
    ensures forall k :: 0 <= k < 15 ==> |ScoreLists(SimilarityLists(ad, keys))[k]| == |ad|
  {
  }

  /** The similarity table of the analytical rows against the section keys. */
  function Table(ad: seq<AdRow>, keys: SectionKeys, value: Cosine.Similarity -> real): (rows: seq<SimRow>)
    ensures |rows| == |ad|
  {
    ScoreListsShape(ad, keys);
    SimRows(ScoreLists(SimilarityLists(ad, keys)), value)
  }

  /** Row `r` of the table is scholar `r` of `ad`, and its score in column
    * `3 * c + f` compares the scholar's channel `c` with proposal field `f`. */
  lemma TableLayout(ad: seq<AdRow>, keys: SectionKeys, value: Cosine.Similarity -> real, r: nat, c: nat, f: nat)
    requires r < |ad| && c < 5 && f < 3
    ensures Table(ad, keys, value)[r].userId == ad[r].userId
    ensures Table(ad, keys, value)[r].scores[3 * c + f]
            == value(Cosine.CounterCosine(ad[r].userId, Channel(ad[r], c), Field(keys, f)).1)
  {
    var lists := ScoreLists(SimilarityLists(ad, keys));
    assert lists[14] == Map(Score, Tasks(ad, 4, keys.dept));
    var k := 3 * c + f;
    assert k / 3 == c && k % 3 == f;
    assert lists[k][r] == Score(Tasks(ad, c, Field(keys, f))[r]);
  }

  /** `value` gives every similarity its number: the score of `counter_cosine_similarity`. */
  ghost predicate Sound(value: Cosine.Similarity -> real)
  {
    forall s :: Cosine.WellFormed(s) ==> Cosine.IsValue(s, value(s))
  }

  lemma {:induction false} SumRealsRange(xs: seq<real>)
    requires forall i :: 0 <= i < |xs| ==> 0.0 <= xs[i] <= 100.0
    ensures 0.0 <= SumReals(xs) <= 100.0 * (|xs| as real)
  {
    if xs != [] {
      SumRealsRange(xs[1..]);
    }
  }

  /** Every `total_sim` lies between 0 and 1500: fifteen scores in [0, 100]. */
  lemma TotalInRange(ad: seq<AdRow>, keys: SectionKeys, value: Cosine.Similarity -> real, r: nat)
    requires Sound(value)
    requires r < |ad|
    ensures 0.0 <= Table(ad, keys, value)[r].total <= 1500.0
  {
    var row := Table(ad, keys, value)[r];
    forall k | 0 <= k < 15 ensures 0.0 <= row.scores[k] <= 100.0 {
      var c, f := k / 3, k % 3;
      TableLayout(ad, keys, value, r, c, f);
      var s := Cosine.CounterCosine(ad[r].userId, Channel(ad[r], c), Field(keys, f)).1;
      Cosine.ScoreInRange(s, value(s));
    }
    SumRealsRange(row.scores);
  }

  // ---------------------------------------------------------------------
  // get_top_scholars: sorting and the cut-off

  predicate NonIncreasing(rows: seq<SimRow>)
  {
    forall i, j :: 0 <= i < j < |rows| ==> rows[i].total >= rows[j].total
  }

  /** `x` placed before the first row whose total it reaches. */
  function Insert(x: SimRow, sorted: seq<SimRow>): (r: seq<SimRow>)
    ensures |r| == |sorted| + 1
  {
    if sorted == [] || x.total >= sorted[0].total then [x] + sorted
    else [sorted[0]] + Insert(x, sorted[1..])
  }

  /** Inserting into a sorted list keeps it sorted and adds exactly `x`. */
  lemma {:induction false} InsertShape(x: SimRow, sorted: seq<SimRow>)
    requires NonIncreasing(sorted)
    ensures NonIncreasing(Insert(x, sorted))
    ensures multiset(Insert(x, sorted)) == multiset(sorted) + multiset{x}
  {
    if !(sorted == [] || x.total >= sorted[0].total) {
      InsertShape(x, sorted[1..]);
      InsertStep(x, sorted, Insert(x, sorted[1..]));
    }
  }

  lemma InsertStep(x: SimRow, sorted: seq<SimRow>, rest: seq<SimRow>)
    requires sorted != [] && NonIncreasing(sorted) && x.total < sorted[0].total
    requires NonIncreasing(rest) && multiset(rest) == multiset(sorted[1..]) + multiset{x}
    ensures NonIncreasing([sorted[0]] + rest)
    ensures multiset([sorted[0]] + rest) == multiset(sorted) + multiset{x}
  {
    assert sorted == [sorted[0]] + sorted[1..];
    forall j | 0 <= j < |rest| ensures sorted[0].total >= rest[j].total {
      assert rest[j] in multiset(rest);
      if rest[j] != x {
        assert rest[j] in sorted[1..];
        var i :| 0 <= i < |sorted[1..]| && sorted[1..][i] == rest[j];
        assert sorted[i + 1] == rest[j];
      }
    }
    var r := [sorted[0]] + rest;
    forall i, j | 0 <= i < j < |r| ensures r[i].total >= r[j].total {
      if i > 0 {
        assert r[i] == rest[i - 1] && r[j] == rest[j - 1];
      } else {
        assert r[j] == rest[j - 1];
      }
    }
  }

  /** `sort_values("total_sim", ascending=False)`, as an insertion sort. The
    * order among equal totals is not modelled. */
  function SortDesc(rows: seq<SimRow>): (r: seq<SimRow>)
    ensures |r| == |rows|
  {
    if rows == [] then [] else Insert(rows[0], SortDesc(rows[1..]))
  }

  /** The sorted table holds the same rows, by non-increasing total. */
  lemma {:induction false} SortDescShape(rows: seq<SimRow>)
    ensures NonIncreasing(SortDesc(rows))
    ensures multiset(SortDesc(rows)) == multiset(rows)
  {
    if rows != [] {
      SortDescShape(rows[1..]);
      InsertShape(rows[0], SortDesc(rows[1..]));
      assert rows == [rows[0]] + rows[1..];
      assert multiset(rows) == multiset{rows[0]} + multiset(rows[1..]);
    }
  }

  /** `sim_df[:top_k]` after sorting. */
  function Ranked(rows: seq<SimRow>, topK: int): seq<SimRow>
  {
    SortDesc(rows)[..SliceEnd(|rows|, topK)]
  }

  /** In a list sorted by non-increasing total, every row of a prefix has a
    * total at least that of every row after it. */
  lemma PrefixIsTop(s: seq<SimRow>, m: nat)
    requires NonIncreasing(s) && m <= |s|
    ensures NonIncreasing(s[..m])
    ensures forall x, y :: x in s[..m] && y in multiset(s[m..]) ==> x.total >= y.total
  {
    forall x, y | x in s[..m] && y in multiset(s[m..]) ensures x.total >= y.total {
      var i :| 0 <= i < m && s[..m][i] == x;
      var j :| 0 <= j < |s| - m && s[m..][j] == y;
      assert s[i] == x && s[m + j] == y;
    }
  }

  /** The cut-off keeps min(K, n) rows (for K >= 0), taken from the table,
    * in non-increasing order, and no dropped row has a larger total than a kept one. */
  lemma RankedIsTop(rows: seq<SimRow>, topK: int)
    ensures topK >= 0 ==> |Ranked(rows, topK)| == if topK < |rows| then topK else |rows|
    ensures multiset(Ranked(rows, topK)) <= multiset(rows)
    ensures NonIncreasing(Ranked(rows, topK))
    ensures forall x, y :: x in Ranked(rows, topK) && y in multiset(rows) - multiset(Ranked(rows, topK))
              ==> x.total >= y.total
  {
    SortDescShape(rows);
    var s := SortDesc(rows);
    var m := SliceEnd(|rows|, topK);
    var kept := s[..m];
    assert Ranked(rows, topK) == kept;
    PrefixIsTop(s, m);
    assert s == kept + s[m..];
    assert multiset(rows) == multiset(kept) + multiset(s[m..]);
    SubBag(multiset(kept), multiset(s[m..]));
  }

  lemma SubBag(a: multiset<SimRow>, b: multiset<SimRow>)
    ensures a <= a + b && (a + b) - a == b
  {
  }

  /** `ids`: the user ids of the kept rows, in ranking order. */
  function UserIdOf(row: SimRow): string { row.userId }

  // ---------------------------------------------------------------------
  // get_top_scholars: selecting the scholars

  function ScholarId(u: ScholarRow): string { u.userId }

  /** The scholars rows carrying `id`, in table order. */
  function RowsOf(users: seq<ScholarRow>, id: string): seq<ScholarRow>
  {
    Filter((u: ScholarRow) => u.userId == id, users)
  }

  /** `user_df[user_df["User_id"].isin(ids)].set_index("User_id").loc[ids]`:
    * for each id in ranking order, the scholars rows with that id; an id no
    * row carries makes `.loc` raise `KeyError`. */
  function Select(users: seq<ScholarRow>, ids: seq<string>): (r: Result<seq<ScholarRow>>)
    ensures r.Err? <==> exists i :: 0 <= i < |ids| && RowsOf(users, ids[i]) == []
    ensures r.Err? ==> r.error == KeyError
    ensures r.Ok? ==> forall j :: 0 <= j < |r.value| ==> r.value[j].userId in ids
  {
    if ids == [] then Ok([])
    else
      var here := RowsOf(users, ids[0]);
      var rest := Select(users, ids[1..]);
      assert forall i :: 0 < i < |ids| ==> ids[i] == ids[1..][i - 1];
      if here == [] then Err(KeyError)
      else if rest.Err? then
        var i :| 0 <= i < |ids[1..]| && RowsOf(users, ids[1..][i]) == [];
        assert RowsOf(users, ids[i + 1]) == [];
        rest
      else
        SelectedIds(users, ids[0]);
        Ok(here + rest.value)
  }

  lemma SelectedIds(users: seq<ScholarRow>, id: string)
    ensures forall j :: 0 <= j < |RowsOf(users, id)| ==> RowsOf(users, id)[j].userId == id
  {
    FilterAll((u: ScholarRow) => u.userId == id, users);
  }

  /** Every id names exactly one scholars row. */
  predicate UniqueRows(users: seq<ScholarRow>, ids: seq<string>)
  {
    forall i :: 0 <= i < |ids| ==> |RowsOf(users, ids[i])| == 1
  }

  /** When each ranked id names exactly one scholar, `recommend_df` lists
    * exactly those scholars, one per id, in ranking order. */
  lemma {:induction false} SelectInOrder(users: seq<ScholarRow>, ids: seq<string>)
    requires UniqueRows(users, ids)
    ensures Select(users, ids).Ok?
    ensures Map(ScholarId, Select(users, ids).value) == ids
  {
    if ids != [] {
      var tail := ids[1..];
      assert UniqueRows(users, tail) by {
        forall i | 0 <= i < |tail| ensures |RowsOf(users, tail[i])| == 1 {
          assert tail[i] == ids[i + 1];
        }
      }
      SelectInOrder(users, tail);
      SelectedIds(users, ids[0]);
      var here := RowsOf(users, ids[0]);
      var rest := Select(users, tail).value;
      assert Select(users, ids) == Ok(here + rest);
      var m := Map(ScholarId, here + rest);
      forall i | 0 <= i < |ids| ensures m[i] == ids[i] {
        if i > 0 {
          assert (here + rest)[i] == rest[i - 1];
          assert Map(ScholarId, rest)[i - 1] == tail[i - 1];
        }
      }
    }
  }

  // ---------------------------------------------------------------------
  // recommend: the records

  /** One JSON record of `recommend`, the twelve fields it copies. */
  datatype Record = Record(
    netid: string,
    name: string,
    email: string,
    kind: string,
    keywords: string,
    nPublications: string,
    nResearch: string,
    awards: string,
    nAwards: string,
    organizations: string,
    course: string,
    department: string)

  function NotQuote(c: char): bool { c != '\'' && c != '"' }

  /** `.replace("'", "").replace('"', "")`. */
  function StripQuotes(s: string): string
  {
    Filter(NotQuote, s)
  }

  /** The keywords lose every quote mark and keep every other character, in order. */
  lemma StripQuotesExact(s: string, more: string, c: char)
    ensures c in StripQuotes(s) <==> c in s && c != '\'' && c != '"'
    ensures multiset(StripQuotes(s))[c] == if NotQuote(c) then multiset(s)[c] else 0
    ensures StripQuotes(s + more) == StripQuotes(s) + StripQuotes(more)
  {
    FilterMembers(NotQuote, s, c);
    FilterCount(NotQuote, s, c);
    FilterAppend(NotQuote, s, more);
  }

  /** The record of one scholar row after `fillna('')`. */
  function RecordOf(u: ScholarRow): Record
  {
    Record(
      u.netid.GetOr(""), u.name.GetOr(""), u.email.GetOr(""), u.kind.GetOr(""),
      StripQuotes(u.keywords.GetOr("")),
      u.nPublications.GetOr(""), u.nResearch.GetOr(""), u.awards.GetOr(""), u.nAwards.GetOr(""),
      u.organizations.GetOr(""), u.course.GetOr(""), u.department.GetOr(""))
  }

  /** The record loop of `recommend`: one record per row, in row order. */
  method BuildRecords(rows: seq<ScholarRow>) returns (d: seq<Record>)
    ensures |d| == |rows|
    ensures forall i :: 0 <= i < |rows| ==> d[i] == RecordOf(rows[i])
  {
    d := [];
    var i := 0;
    while i < |rows|
      invariant 0 <= i <= |rows|
      invariant |d| == i
      invariant forall j :: 0 <= j < i ==> d[j] == RecordOf(rows[j])
    {
      d := d + [RecordOf(rows[i])];
      i := i + 1;
    }
  }

  // ---------------------------------------------------------------------
  // The whole ranking, as a function

  /** The three tables `read_data` loads. */
  datatype Tables = Tables(users: seq<ScholarRow>, ad: seq<AdRow>, proposals: seq<ProposalRow>)

  /** What `get_top_scholars` returns once the object is configured and its
    * data and section keys are in place. */
  function TopScholars(users: seq<ScholarRow>, ad: seq<AdRow>, keys: SectionKeys, topK: int,
                       value: Cosine.Similarity -> real): Result<seq<ScholarRow>>
  {
    Select(users, Map(UserIdOf, Ranked(Table(ad, keys, value), topK)))
  }

  /** The steps of `recommend` before the records: configure, look up the
    * proposal, extract its keys, rank. */
  function Recommendation(cfg: Config, tables: Tables, lib: Helpers.KeywordLibrary,
                          value: Cosine.Similarity -> real): Result<seq<ScholarRow>>
  {
    match FindProposal(tables.proposals, cfg.idNo)
    case Err(e) => Err(e)
    case Ok(p) =>
      match ProposalKeys(p, cfg.generator, cfg.topK, lib)
      case Err(e) => Err(e)
      case Ok(keys) => TopScholars(tables.users, tables.ad, keys, cfg.topK, value)
  }

  /** With unique scholar rows, the ranking returns min(K, n) scholars (for
    * K >= 0), in order of non-increasing total, each listed once per ranked row. */
  lemma TopScholarsCount(users: seq<ScholarRow>, ad: seq<AdRow>, keys: SectionKeys, topK: int,
                         value: Cosine.Similarity -> real)
    requires topK >= 0
    requires UniqueRows(users, Map(UserIdOf, Ranked(Table(ad, keys, value), topK)))
    ensures TopScholars(users, ad, keys, topK, value).Ok?
    ensures |TopScholars(users, ad, keys, topK, value).value| == if topK < |ad| then topK else |ad|
    ensures Map(ScholarId, TopScholars(users, ad, keys, topK, value).value)
            == Map(UserIdOf, Ranked(Table(ad, keys, value), topK))
  {
    var ids := Map(UserIdOf, Ranked(Table(ad, keys, value), topK));
    RankedIsTop(Table(ad, keys, value), topK);
    SelectInOrder(users, ids);
  }

  // ---------------------------------------------------------------------
  // The Top_Scholar_Identifier object

  /** `Top_Scholar_Identifier`: its settings, the tables it reads, the keys
    * it extracts, and the lists and tables `get_top_scholars` builds. */
  class TopScholarIdentifier {
    const cfg: Config
    var userDf: seq<ScholarRow>
    var ad: seq<AdRow>
    var cfpDf: seq<ProposalRow>
    var proposal: Option<Proposal>
    var sectionKeys: Option<SectionKeys>
    var similarityLists: seq<seq<Task>>
    var scoreLists: seq<seq<(string, Cosine.Similarity)>>
    var simDf: seq<SimRow>
    var ids: seq<string>
    var recommendDf: seq<ScholarRow>

    constructor (cfg: Config)
      ensures this.cfg == cfg && proposal == None && sectionKeys == None
    {
      this.cfg := cfg;
      userDf, ad, cfpDf := [], [], [];
      proposal, sectionKeys := None, None;
      similarityLists, scoreLists, simDf, ids, recommendDf := [], [], [], [], [];
    }

    /** `read_data`: keep the tables and look up the proposal. */
    method ReadData(tables: Tables) returns (r: Result<Proposal>)
      modifies this
      ensures r == FindProposal(tables.proposals, cfg.idNo)
      ensures userDf == tables.users && ad == tables.ad && cfpDf == tables.proposals
      ensures proposal == if r.Ok? then Some(r.value) else old(proposal)
      ensures sectionKeys == old(sectionKeys)
    {
      userDf, ad, cfpDf := tables.users, tables.ad, tables.proposals;
      r := FindProposal(cfpDf, cfg.idNo);
      if r.Ok? {
        proposal := Some(r.value);
      }
    }

    /** `get_section_keys_for_proposal`. */
    method GetSectionKeys(lib: Helpers.KeywordLibrary) returns (r: Result<SectionKeys>)
      requires proposal.Some?
      modifies this
      ensures proposal == old(proposal)
      ensures r == ProposalKeys(proposal.value, cfg.generator, cfg.topK, lib)
      ensures sectionKeys == if r.Ok? then Some(r.value) else old(sectionKeys)
      ensures userDf == old(userDf) && ad == old(ad)
    {
      r := ProposalKeys(proposal.value, cfg.generator, cfg.topK, lib);
      if r.Ok? {
        sectionKeys := Some(r.value);
      }
    }

    /** The nested loop over channels and proposal fields. */
    method BuildSimilarityLists()
      requires sectionKeys.Some?
      modifies this`similarityLists
      ensures similarityLists == SimilarityLists(ad, sectionKeys.value)
    {
      var keys := sectionKeys.value;
      similarityLists := [];
      var c := 0;
      while c < 5
        invariant 0 <= c <= 5
        invariant |similarityLists| == 3 * c
        invariant forall k :: 0 <= k < 3 * c ==> similarityLists[k] == Tasks(ad, k / 3, Field(keys, k % 3))
      {
        var f := 0;
        while f < 3
          invariant 0 <= f <= 3
          invariant |similarityLists| == 3 * c + f
          invariant forall k :: 0 <= k < 3 * c + f ==> similarityLists[k] == Tasks(ad, k / 3, Field(keys, k % 3))
        {
          similarityLists := similarityLists + [Tasks(ad, c, Field(keys, f))];
          f := f + 1;
        }
        c := c + 1;
      }
      assert |similarityLists| == 15;
    }

    /** The scoring loop: every list through `parallelize`. */
    method ComputeScores()
      modifies this`scoreLists
      ensures scoreLists == ScoreLists(similarityLists)
    {
      scoreLists := [];
      var i := 0;
      while i < |similarityLists|
        invariant 0 <= i <= |similarityLists|
        invariant |scoreLists| == i
        invariant forall k :: 0 <= k < i ==> scoreLists[k] == Map(Score, similarityLists[k])
      {
        var sims := Helpers.Parallelize(cfg.nCores, Score, similarityLists[i]);
        assert sims == Map(Score, similarityLists[i]);
        scoreLists := scoreLists + [sims];
        i := i + 1;
      }
    }

    /** `get_top_scholars(ntop_)`. `ntop_` is never read: the cut-off is `top_k`. */
    method GetTopScholars(ntop: int, value: Cosine.Similarity -> real) returns (r: Result<seq<ScholarRow>>)
      requires sectionKeys.Some?
      modifies this`similarityLists, this`scoreLists, this`simDf, this`ids, this`recommendDf
      ensures similarityLists == SimilarityLists(ad, sectionKeys.value)
      ensures scoreLists == ScoreLists(similarityLists)
      ensures simDf == SortDesc(Table(ad, sectionKeys.value, value))
      ensures ids == Map(UserIdOf, Ranked(Table(ad, sectionKeys.value, value), cfg.topK))
      ensures r == Select(userDf, ids) == TopScholars(userDf, ad, sectionKeys.value, cfg.topK, value)
    {
      BuildSimilarityLists();
      ComputeScores();
      ghost var keys := sectionKeys.value;
      ScoreListsShape(ad, keys);
      var table := SimRows(scoreLists, value);
      assert table == Table(ad, keys, value);
      simDf := SortDesc(table);
      var subDf := simDf[..SliceEnd(|simDf|, cfg.topK)];
      ids := Map(UserIdOf, subDf);
      r := Select(userDf, ids);
      if r.Ok? {
        recommendDf := r.value;
      }
    }
  }

  /** `recommend`: the configuration (`None` when the file cannot be
    * loaded: exit), the object, its three steps, then the records. */
  method Recommend(params: Option<Params>, topK: int, proposalId: string, generator: string, cpuCount: int,
                   agency: string, tables: Tables, lib: Helpers.KeywordLibrary, value: Cosine.Similarity -> real)
    returns (r: Result<seq<Record>>)
    ensures params.None? ==> r == Err(SystemExit)
    ensures params.Some? ==>
      match Configure(cpuCount, proposalId, topK, generator, agency, params.value)
      case Err(e) => r == Err(e)
      case Ok(cfg) =>
        match Recommendation(cfg, tables, lib, value)
        case Err(e) => r == Err(e)
        case Ok(rows) => r.Ok? && |r.value| == |rows| && forall i :: 0 <= i < |rows| ==> r.value[i] == RecordOf(rows[i])
  {
    if params.None? {
      return Err(SystemExit);
    }
    var c := Configure(cpuCount, proposalId, topK, generator, agency, params.value);
    if c.Err? {
      return Err(c.error);
    }
    var obj := new TopScholarIdentifier(c.value);
    var p := obj.ReadData(tables);
    if p.Err? {
      return Err(p.error);
    }
    var keys := obj.GetSectionKeys(lib);
    if keys.Err? {
      return Err(keys.error);
    }
    var rows := obj.GetTopScholars(topK, value);
    if rows.Err? {
      return Err(rows.error);
    }
    var d := BuildRecords(rows.value);
    r := Ok(d);
  }
}

=== FILE: recommend_scholars.dfy ===
/** recommend_scholars.py: the command-line copy of the ranker. Its
  * `get_column_names` and `Top_Scholar_Identifier` repeat model.py line for
  * line and are modelled once, in `Ranker`. What is its own is the entry
  * point: argparse admits only four agency spellings, `get_top_scholars` is
  * called with `ntop_=20`, and the rows are saved as they are, without the
  * `fillna('')` and the records of `recommend`. */
module RecommendScholars {
  import opened Wrappers
  import Cosine
  import Helpers
  import Ranker

  /** The command-line arguments; `agency` is `None` when it is not given. */
  datatype Args = Args(configFile: string, topK: int, proposalId: string, generator: string, nCores: int, agency: Option<string>)

  /** The defaults of every optional argument. */
  function DefaultArgs(agency: Option<string>): (a: Args)
    ensures a.agency == agency
    ensures a.topK == 0 && a.nCores == 0 && a.proposalId == ""
    ensures a.configFile == "config.yml" && a.generator == "Spacy"
  {
    Args("config.yml", 0, "", "Spacy", 0, agency)
  }

  const AgencyChoices: set<string> := {"nsf", "nih", "NSF", "NIH"}

  /** argparse: the agency is required and must be one of the choices, or the program exits. */
  function ParseAgency(agency: Option<string>): (r: Result<string>)
    ensures r.Ok? <==> agency.Some? && agency.value in AgencyChoices
    ensures r.Ok? ==> r.value == agency.value
    ensures r.Err? ==> r.error == SystemExit
  {
    match agency
    case Some(a) => if a in AgencyChoices then Ok(a) else Err(SystemExit)
    case None => Err(SystemExit)
  }

  /** What the script produces: the ranked scholars rows it saves. A
    * configuration file that cannot be loaded reaches `sys.exit(1)`, but the
    * script never imports `sys` (neither do the modules it star-imports), so
    * that call raises `NameError`. */
  function CliOutcome(args: Args, params: Option<Ranker.Params>, tables: Ranker.Tables,
                      lib: Helpers.KeywordLibrary, value: Cosine.Similarity -> real): Result<seq<Ranker.ScholarRow>>
  {
    match ParseAgency(args.agency)
    case Err(e) => Err(e)
    case Ok(agency) =>
      match params
      case None => Err(NameError)
      case Some(ps) =>
        match Ranker.Configure(args.nCores, args.proposalId, args.topK, args.generator, agency, ps)
        case Err(e) => Err(e)
        case Ok(cfg) => Ranker.Recommendation(cfg, tables, lib, value)
  }

  /** The script's main block. The `ntop_=20` it passes does not reach the
    * cut-off, which stays `top_k`. */
  method Run(args: Args, params: Option<Ranker.Params>, tables: Ranker.Tables,
             lib: Helpers.KeywordLibrary, value: Cosine.Similarity -> real)
    returns (r: Result<seq<Ranker.ScholarRow>>)
    ensures r == CliOutcome(args, params, tables, lib, value)
    ensures args.agency.Some? && args.agency.value in AgencyChoices && params.None? ==> r == Err(NameError)
  {
    var agency := ParseAgency(args.agency);
    if agency.Err? {
      return Err(agency.error);
    }
    if params.None? {
      return Err(NameError);
    }
    var c := Ranker.Configure(args.nCores, args.proposalId, args.topK, args.generator, agency.value, params.value);
    if c.Err? {
      return Err(c.error);
    }
    var obj := new Ranker.TopScholarIdentifier(c.value);
    var p := obj.ReadData(tables);
    if p.Err? {
      return Err(p.error);
    }
    var keys := obj.GetSectionKeys(lib);
    if keys.Err? {
      return Err(keys.error);
    }
    r := obj.GetTopScholars(20, value);
  }

  /** Since argparse admits only the four spellings, a `KeyError` from the
    * constructor means the configuration has no file for the agency, never
    * an unknown spelling. */
  lemma AgencyAlwaysKnown(args: Args, params: Option<Ranker.Params>, tables: Ranker.Tables,
                          lib: Helpers.KeywordLibrary, value: Cosine.Similarity -> real)
    requires args.agency.Some? && params.Some?
    requires Ranker.Configure(args.nCores, args.proposalId, args.topK, args.generator, args.agency.value, params.value).Err?
    ensures CliOutcome(args, params, tables, lib, value) == Err(SystemExit)
            || Ranker.AgencyMap[args.agency.value] !in params.value.agencyFiles
  {
  }
}

=== FILE: seqs.dfy ===
/** Python list comprehensions over one list: `[f(x) for x in xs]` and
  * `[x for x in xs if p(x)]`, with the facts the rest of the model uses. */
module Seqs {

  /** `[f(x) for x in xs]`. */
  function Map<T, U>(f: T -> U, xs: seq<T>): (r: seq<U>)
    ensures |r| == |xs|
    ensures forall i :: 0 <= i < |xs| ==> r[i] == f(xs[i])
  {
    seq(|xs|, i requires 0 <= i < |xs| => f(xs[i]))
  }

  /** `[x for x in xs if p(x)]`. */
  function Filter<T>(p: T -> bool, xs: seq<T>): (r: seq<T>)
    ensures |r| <= |xs|
  {
    if xs == [] then []
    else if p(xs[0]) then [xs[0]] + Filter(p, xs[1..])
    else Filter(p, xs[1..])
  }

  /** An element survives the filter exactly when it was in the list and passes the test. */
  lemma {:induction false} FilterMembers<T>(p: T -> bool, xs: seq<T>, x: T)
    ensures x in Filter(p, xs) <==> x in xs && p(x)
  {
    if xs != [] {
      FilterMembers(p, xs[1..], x);
      assert xs == [xs[0]] + xs[1..];
    }
  }

  /** Duplicates are kept: each passing value occurs as often as it did, the others never. */
  lemma {:induction false} FilterCount<T>(p: T -> bool, xs: seq<T>, x: T)
    ensures multiset(Filter(p, xs))[x] == if p(x) then multiset(xs)[x] else 0
  {
    if xs != [] {
      FilterCount(p, xs[1..], x);
      assert xs == [xs[0]] + xs[1..];
      assert multiset(xs) == multiset{xs[0]} + multiset(xs[1..]);
    }
  }

  /** Order is kept: filtering distributes over concatenation. */
  lemma {:induction false} FilterAppend<T>(p: T -> bool, xs: seq<T>, ys: seq<T>)
    ensures Filter(p, xs + ys) == Filter(p, xs) + Filter(p, ys)
  {
    if xs == [] {
      assert xs + ys == ys;
    } else {
      assert (xs + ys)[0] == xs[0];
      assert (xs + ys)[1..] == xs[1..] + ys;
      FilterAppend(p, xs[1..], ys);
    }
  }

  /** Every survivor passes the test. */
  lemma FilterAll<T>(p: T -> bool, xs: seq<T>)
    ensures forall i :: 0 <= i < |Filter(p, xs)| ==> p(Filter(p, xs)[i])
  {
    forall i | 0 <= i < |Filter(p, xs)|
      ensures p(Filter(p, xs)[i])
    {
      FilterMembers(p, xs, Filter(p, xs)[i]);
    }
  }

  /** The elements of `xs` once each, in order of first appearance
    * (`pd.unique`; `list(set(xs))` holds the same elements in an order that
    * is not modelled). */
  function Distinct<T(==,!new)>(xs: seq<T>): (r: seq<T>)
    ensures forall k :: k in r <==> k in xs
    ensures forall i, j :: 0 <= i < j < |r| ==> r[i] != r[j]
    decreases |xs|
  {
    if xs == [] then []
    else
      var init := Distinct(xs[..|xs| - 1]);
      assert xs == xs[..|xs| - 1] + [xs[|xs| - 1]];
      if xs[|xs| - 1] in init then init else init + [xs[|xs| - 1]]
  }

  /** How many elements `xs[:k]` keeps of `n`: a negative `k` drops that many from the end. */
  function SliceEnd(n: nat, k: int): (m: nat)
    ensures m <= n
    ensures k >= 0 ==> m == if k < n then k else n
    ensures k < 0 ==> m == if n + k > 0 then n + k else 0
  {
    if k >= 0 then (if k < n then k else n)
    else if n + k > 0 then n + k else 0
  }

  /** Concatenation of a list of lists (a nested comprehension). */
  function Flatten<T>(xss: seq<seq<T>>): seq<T>
  {
    if xss == [] then [] else xss[0] + Flatten(xss[1..])
  }

  /** An element is in the concatenation exactly when it is in one of the lists. */
  lemma {:induction false} FlattenMembers<T>(xss: seq<seq<T>>, x: T)
    ensures x in Flatten(xss) <==> exists i :: 0 <= i < |xss| && x in xss[i]
  {
    if xss != [] {
      FlattenMembers(xss[1..], x);
      if exists i :: 0 <= i < |xss[1..]| && x in xss[1..][i] {
        var i :| 0 <= i < |xss[1..]| && x in xss[1..][i];
        assert x in xss[i + 1];
      }
      if exists i :: 0 <= i < |xss| && x in xss[i] {
        var i :| 0 <= i < |xss| && x in xss[i];
        if i > 0 {
          assert x in xss[1..][i - 1];
        }
      }
    }
  }

  /** A filter every element passes leaves the list as it is. */
  lemma {:induction false} FilterKeepsAll<T>(p: T -> bool, xs: seq<T>)
    requires forall x :: x in xs ==> p(x)
    ensures Filter(p, xs) == xs
  {
    if xs != [] {
      assert xs == [xs[0]] + xs[1..];
      FilterKeepsAll(p, xs[1..]);
    }
  }
}

=== FILE: text.dfy ===
/** The Python string operations the pipeline is built from: `str.lower()`,
  * `re.sub('[^A-Za-z0-9]+', rep, s)`, `str.split()`, `str.split(sep)` and
  * `sep.join(xs)`. Strings are sequences of characters. */
module Text {

  predicate IsUpper(c: char) { 'A' <= c <= 'Z' }

  predicate IsDigit(c: char) { '0' <= c <= '9' }

  /** The character class `[A-Za-z0-9]` of the regular expressions. */
  predicate IsAlnum(c: char) { IsUpper(c) || 'a' <= c <= 'z' || IsDigit(c) }

  /** `[a-z0-9]`: what a token of the normaliser is drawn from. */
  predicate IsLowerAlnum(c: char) { 'a' <= c <= 'z' || IsDigit(c) }

  /** The characters Python's argument-less `str.split()` cuts on. */
  predicate IsSpace(c: char)
  {
    c == ' ' || '\t' <= c <= '\r' || '\U{1c}' <= c <= '\U{1f}' || c == '\U{85}'
    || c == '\U{a0}' || c == '\U{1680}' || '\U{2000}' <= c <= '\U{200a}'
    || c == '\U{2028}' || c == '\U{2029}' || c == '\U{202f}' || c == '\U{205f}'
    || c == '\U{3000}'
  }

  function LowerChar(c: char): (d: char)
    ensures !IsUpper(d)
    ensures IsAlnum(c) <==> IsAlnum(d)
  {
    if IsUpper(c) then (c as int + 32) as char else c
  }

  /** `s.lower()`, for the ASCII letters. */
  function Lower(s: string): (r: string)
    ensures |r| == |s|
    ensures forall i :: 0 <= i < |s| ==> r[i] == LowerChar(s[i])
  {
    seq(|s|, i requires 0 <= i < |s| => LowerChar(s[i]))
  }

  /** Drops the leading run of characters outside `[A-Za-z0-9]`. */
  function DropNonAlnum(s: string): (r: string)
    ensures |r| <= |s| && r == s[|s| - |r|..]
    ensures r == [] || IsAlnum(r[0])
  {
    if s == [] || IsAlnum(s[0]) then s else DropNonAlnum(s[1..])
  }

  /** `re.sub('[^A-Za-z0-9]+', rep, s)`: every maximal run of characters
    * outside `[A-Za-z0-9]` is replaced by one copy of `rep`. */
  function SubNonAlnum(s: string, rep: string): (r: string)
    decreases |s|
  {
    if s == [] then []
    else if IsAlnum(s[0]) then [s[0]] + SubNonAlnum(s[1..], rep)
    else rep + SubNonAlnum(DropNonAlnum(s[1..]), rep)
  }

  /** The shape `remove_characters` leaves: only `[A-Za-z0-9]` and spaces,
    * never two spaces in a row. */
  predicate Collapsed(s: string)
  {
    (forall i :: 0 <= i < |s| ==> IsAlnum(s[i]) || s[i] == ' ')
    && (forall i :: 0 <= i < |s| - 1 ==> s[i] != ' ' || s[i + 1] != ' ')
  }

  /** `[c for c in s if c.isalnum()]` restricted to ASCII: the alphanumerics of `s`, in order. */
  function AlnumOnly(s: string): (r: string)
    ensures forall i :: 0 <= i < |r| ==> IsAlnum(r[i])
    ensures |r| <= |s|
  {
    if s == [] then []
    else if IsAlnum(s[0]) then [s[0]] + AlnumOnly(s[1..])
    else AlnumOnly(s[1..])
  }

  lemma {:induction false} AlnumOnlyAppend(a: string, b: string)
    ensures AlnumOnly(a + b) == AlnumOnly(a) + AlnumOnly(b)
  {
    if a == [] {
      assert a + b == b;
    } else {
      assert (a + b)[0] == a[0];
      assert (a + b)[1..] == a[1..] + b;
      AlnumOnlyAppend(a[1..], b);
    }
  }

  lemma {:induction false} DropNonAlnumKeepsAlnum(s: string)
    ensures AlnumOnly(DropNonAlnum(s)) == AlnumOnly(s)
  {
    if s != [] && !IsAlnum(s[0]) {
      DropNonAlnumKeepsAlnum(s[1..]);
    }
  }

  /** Replacing a run with a separator that holds no alphanumerics keeps every
    * alphanumeric character of the input, in order, and adds none. */
  lemma {:induction false} SubKeepsAlnum(s: string, rep: string)
    requires forall i :: 0 <= i < |rep| ==> !IsAlnum(rep[i])
    ensures AlnumOnly(SubNonAlnum(s, rep)) == AlnumOnly(s)
    decreases |s|
  {
    if s == [] {
    } else if IsAlnum(s[0]) {
      SubKeepsAlnum(s[1..], rep);
      AlnumOnlyAppend([s[0]], SubNonAlnum(s[1..], rep));
    } else {
      var t := DropNonAlnum(s[1..]);
      SubKeepsAlnum(t, rep);
      AlnumOnlyAppend(rep, SubNonAlnum(t, rep));
      RepHasNoAlnum(rep);
      DropNonAlnumKeepsAlnum(s[1..]);
    }
  }

  lemma {:induction false} RepHasNoAlnum(rep: string)
    requires forall i :: 0 <= i < |rep| ==> !IsAlnum(rep[i])
    ensures AlnumOnly(rep) == []
  {
    if rep != [] {
      RepHasNoAlnum(rep[1..]);
    }
  }

  /** With an empty replacement the substitution deletes every character
    * outside `[A-Za-z0-9]` and keeps the rest in order. */
  lemma {:induction false} SubEmptyIsAlnumOnly(s: string)
    ensures SubNonAlnum(s, "") == AlnumOnly(s)
    decreases |s|
  {
    if s != [] {
      if IsAlnum(s[0]) {
        SubEmptyIsAlnumOnly(s[1..]);
      } else {
        SubEmptyIsAlnumOnly(DropNonAlnum(s[1..]));
        DropNonAlnumKeepsAlnum(s[1..]);
      }
    }
  }

  /** The substitution starts with an alphanumeric when its input does. */
  lemma SubStartsAlnum(s: string, rep: string)
    requires s != [] && IsAlnum(s[0])
    ensures SubNonAlnum(s, rep) != [] && SubNonAlnum(s, rep)[0] == s[0]
  {
  }

  /** After `re.sub('[^A-Za-z0-9]+', ' ', s)` the text holds only
    * `[A-Za-z0-9]` and single spaces. */
  lemma {:induction false} SubSpaceCollapsed(s: string)
    ensures Collapsed(SubNonAlnum(s, " "))
    decreases |s|
  {
    if s == [] {
    } else if IsAlnum(s[0]) {
      var rest := SubNonAlnum(s[1..], " ");
      SubSpaceCollapsed(s[1..]);
      assert SubNonAlnum(s, " ") == [s[0]] + rest;
    } else {
      var t := DropNonAlnum(s[1..]);
      var rest := SubNonAlnum(t, " ");
      SubSpaceCollapsed(t);
      if t != [] {
        SubStartsAlnum(t, " ");
      }
      assert SubNonAlnum(s, " ") == [' '] + rest;
    }
  }

  /** Every character of the substitution comes from the input or from the replacement. */
  lemma {:induction false} SubCharsFrom(s: string, rep: string, c: char)
    requires c in SubNonAlnum(s, rep)
    ensures c in s || c in rep
    decreases |s|
  {
    if IsAlnum(s[0]) {
      if c != s[0] {
        SubCharsFrom(s[1..], rep, c);
      }
    } else {
      var t := DropNonAlnum(s[1..]);
      if c !in rep {
        SubCharsFrom(t, rep, c);
        assert t == s[|s| - |t|..];
      }
    }
  }

  /** The longest prefix without whitespace. */
  function TakeWord(s: string): (w: string)
    ensures |w| <= |s| && w == s[..|w|]
    ensures forall i :: 0 <= i < |w| ==> !IsSpace(w[i])
    ensures |w| == |s| || IsSpace(s[|w|])
    ensures s != [] && !IsSpace(s[0]) ==> |w| > 0
  {
    if s == [] || IsSpace(s[0]) then [] else [s[0]] + TakeWord(s[1..])
  }

  /** `s.split()`: the maximal runs of non-whitespace characters. */
  function Words(s: string): (ws: seq<string>)
    decreases |s|
  {
    if s == [] then []
    else if IsSpace(s[0]) then Words(s[1..])
    else
      var w := TakeWord(s);
      [w] + Words(s[|w|..])
  }

  /** A word is non-empty, holds no whitespace, and is made of characters of the text. */
  predicate IsWordOf(w: string, s: string)
  {
    w != [] && (forall i :: 0 <= i < |w| ==> !IsSpace(w[i]) && w[i] in s)
  }

  lemma {:induction false} WordsShape(s: string)
    ensures forall j :: 0 <= j < |Words(s)| ==> IsWordOf(Words(s)[j], s)
    decreases |s|
  {
    if s == [] {
    } else if IsSpace(s[0]) {
      WordsShape(s[1..]);
      forall j | 0 <= j < |Words(s)|
        ensures IsWordOf(Words(s)[j], s)
      {
        assert IsWordOf(Words(s[1..])[j], s[1..]);
        forall i | 0 <= i < |Words(s)[j]| ensures Words(s)[j][i] in s {
          assert Words(s)[j][i] in s[1..];
        }
      }
    } else {
      var w := TakeWord(s);
      var rest := s[|w|..];
      WordsShape(rest);
      forall j | 0 <= j < |Words(s)|
        ensures IsWordOf(Words(s)[j], s)
      {
        if j == 0 {
          forall i | 0 <= i < |w| ensures w[i] in s {
            assert w[i] == s[i];
          }
        } else {
          assert Words(s)[j] == Words(rest)[j - 1];
          assert IsWordOf(Words(rest)[j - 1], rest);
          forall i | 0 <= i < |Words(s)[j]| ensures Words(s)[j][i] in s {
            assert Words(s)[j][i] in rest;
          }
        }
      }
    }
  }

  /** A text without whitespace is one word, or none when empty. */
  lemma WordsOfWord(w: string)
    requires forall i :: 0 <= i < |w| ==> !IsSpace(w[i])
    ensures Words(w) == if w == [] then [] else [w]
  {
    if w != [] {
      TakeWordAll(w);
      assert w[|w|..] == [];
    }
  }

  lemma {:induction false} TakeWordAll(w: string)
    requires forall i :: 0 <= i < |w| ==> !IsSpace(w[i])
    ensures TakeWord(w) == w
  {
    if w != [] {
      TakeWordAll(w[1..]);
    }
  }

  /** `sep.join(xs)`. */
  function Join(sep: string, xs: seq<string>): (r: string)
  {
    if |xs| == 0 then ""
    else if |xs| == 1 then xs[0]
    else xs[0] + sep + Join(sep, xs[1..])
  }

  lemma JoinConsHead(sep: string, c: char, x: string, rest: seq<string>)
    ensures Join(sep, [[c] + x] + rest) == [c] + Join(sep, [x] + rest)
  {
    if rest != [] {
      assert ([[c] + x] + rest)[1..] == rest;
      assert ([x] + rest)[1..] == rest;
    }
  }

  /** `s.split(sep)` for a non-empty separator: cut at every leftmost
    * non-overlapping occurrence; empty pieces are kept. */
  function Split(s: string, sep: string): (r: seq<string>)
    requires |sep| > 0
    ensures |r| > 0
    decreases |s|
  {
    if |sep| <= |s| && s[..|sep|] == sep then [""] + Split(s[|sep|..], sep)
    else if s == [] then [""]
    else
      var r := Split(s[1..], sep);
      [[s[0]] + r[0]] + r[1..]
  }

  /** Joining the pieces of a split with the same separator gives the text back. */
  lemma {:induction false} JoinSplit(s: string, sep: string)
    requires |sep| > 0
    ensures Join(sep, Split(s, sep)) == s
    decreases |s|
  {
    if |sep| <= |s| && s[..|sep|] == sep {
      var rest := s[|sep|..];
      JoinSplit(rest, sep);
      var r := Split(rest, sep);
      assert ([""] + r)[1..] == r;
      assert s == sep + rest;
    } else if s == [] {
    } else {
      var r := Split(s[1..], sep);
      JoinSplit(s[1..], sep);
      assert r == [r[0]] + r[1..];
      JoinConsHead(sep, s[0], r[0], r[1..]);
      assert s == [s[0]] + s[1..];
    }
  }

  /** A piece that holds no copy of the separator's first character. */
  predicate Clean(p: string, sep: string)
    requires |sep| > 0
  {
    forall i :: 0 <= i < |p| ==> p[i] != sep[0]
  }

  lemma {:induction false} SplitPiece(p: string, sep: string, rest: string)
    requires |sep| > 0 && Clean(p, sep)
    ensures Split(p + sep + rest, sep) == [p] + Split(rest, sep)
    decreases |p|
  {
    var s := p + sep + rest;
    if p == [] {
      assert s == sep + rest;
      assert s[..|sep|] == sep;
      assert s[|sep|..] == rest;
    } else {
      assert s[0] == p[0] != sep[0];
      assert s[1..] == p[1..] + sep + rest;
      SplitPiece(p[1..], sep, rest);
      assert [p[0]] + p[1..] == p;
    }
  }

  lemma {:induction false} SplitClean(p: string, sep: string)
    requires |sep| > 0 && Clean(p, sep)
    ensures Split(p, sep) == [p]
    decreases |p|
  {
    if p != [] {
      SplitClean(p[1..], sep);
      assert [p[0]] + p[1..] == p;
    }
  }

  /** Split on one character, no piece holds that character, and there is
    * more than one piece exactly when the character occurs. */
  lemma {:induction false} SplitCharPieces(s: string, c: char)
    ensures forall j :: 0 <= j < |Split(s, [c])| ==> Clean(Split(s, [c])[j], [c])
    ensures c in s <==> |Split(s, [c])| >= 2
    decreases |s|
  {
    if s != [] {
      SplitCharPieces(s[1..], c);
      var r := Split(s[1..], [c]);
      if s[0] == c {
        assert s[..1] == [c];
        assert Split(s, [c]) == [""] + r;
      } else {
        assert s[..1] != [c];
        assert Split(s, [c]) == [[s[0]] + r[0]] + r[1..];
        assert c in s <==> c in s[1..] by {
          assert s == [s[0]] + s[1..];
        }
      }
    }
  }

  /** Splitting a join gives the pieces back, when no piece holds the
    * separator's first character. */
  lemma {:induction false} SplitJoin(xs: seq<string>, sep: string)
    requires |sep| > 0 && |xs| > 0
    requires forall j :: 0 <= j < |xs| ==> Clean(xs[j], sep)
    ensures Split(Join(sep, xs), sep) == xs
  {
    if |xs| == 1 {
      SplitClean(xs[0], sep);
    } else {
      SplitJoin(xs[1..], sep);
      SplitPiece(xs[0], sep, Join(sep, xs[1..]));
      assert [xs[0]] + xs[1..] == xs;
    }
  }
}

=== FILE: titles_db.dfy ===
/** extract_proposals_titles_db.py: the autocomplete table from the cleaned
  * NIH and NSF proposal files. Every title is entered under itself and under
  * the suffixes that drop its first one, two and three words, each pointing
  * at the proposal's id and agency. The files are given as rows; the JSON
  * file the table is written to is left out. */
module TitlesDb {
  import opened Text

  /** A row of a cleaned proposals file: its Opportunity Number and Title. */
  datatype ProposalRow = ProposalRow(oppNumber: string, title: string)

  /** A value of the table: `{'pid': ..., 'agency': ...}`. */
  datatype Entry = Entry(pid: string, agency: string)

  /** `' '.join(title[j:])`, where a start past the end gives the empty list. */
  function SuffixKey(words: seq<string>, j: nat): string
  {
    Join(" ", if j <= |words| then words[j..] else [])
  }

  /** The four keys one row writes, in the order it writes them. */
  function SuffixKeys(title: string): (ks: seq<string>)
    ensures |ks| == 4
  {
    var words := Words(title);
    [SuffixKey(words, 0), SuffixKey(words, 1), SuffixKey(words, 2), SuffixKey(words, 3)]
  }

  /** The four writes of one loop iteration. */
  function AddRow(db: map<string, Entry>, row: ProposalRow, agency: string): map<string, Entry>
  {
    var ks := SuffixKeys(row.title);
    var e := Entry(row.oppNumber, agency);
    db[ks[0] := e][ks[1] := e][ks[2] := e][ks[3] := e]
  }

  /** The table after the loop over `rows`, starting from `db`. */
  function AddRows(db: map<string, Entry>, rows: seq<ProposalRow>, agency: string): map<string, Entry>
    decreases |rows|
  {
    if rows == [] then db
    else AddRow(AddRows(db, rows[..|rows| - 1], agency), rows[|rows| - 1], agency)
  }

  /** The whole script: the NIH rows first, then the NSF rows. */
  function TitlesDb(nihRows: seq<ProposalRow>, nsfRows: seq<ProposalRow>): map<string, Entry>
  {
    AddRows(AddRows(map[], nihRows, "nih"), nsfRows, "nsf")
  }

  lemma AddRowKeys(db: map<string, Entry>, row: ProposalRow, agency: string)
    ensures AddRow(db, row, agency).Keys == db.Keys + set k | k in SuffixKeys(row.title)
    ensures forall k :: k in SuffixKeys(row.title) ==> AddRow(db, row, agency)[k] == Entry(row.oppNumber, agency)
    ensures forall k :: k in db && k !in SuffixKeys(row.title) ==> AddRow(db, row, agency)[k] == db[k]
  {
  }

  /** Keys come from the table started from or from a row's suffixes. */
  lemma {:induction false} AddRowsKeys(db: map<string, Entry>, rows: seq<ProposalRow>, agency: string, k: string)
    ensures k in AddRows(db, rows, agency) <==> k in db || exists i :: 0 <= i < |rows| && k in SuffixKeys(rows[i].title)
    decreases |rows|
  {
    if rows != [] {
      var init := rows[..|rows| - 1];
      var last := rows[|rows| - 1];
      AddRowsKeys(db, init, agency, k);
      AddRowKeys(AddRows(db, init, agency), last, agency);
      if exists i :: 0 <= i < |init| && k in SuffixKeys(init[i].title) {
        var i :| 0 <= i < |init| && k in SuffixKeys(init[i].title);
        assert rows[i] == init[i];
      }
      if exists i :: 0 <= i < |rows| && k in SuffixKeys(rows[i].title) {
        var i :| 0 <= i < |rows| && k in SuffixKeys(rows[i].title);
        if i < |init| {
          assert init[i] == rows[i];
        }
      }
    }
  }

  /** At most four keys per row. */
  lemma {:induction false} AddRowsSize(db: map<string, Entry>, rows: seq<ProposalRow>, agency: string)
    ensures |AddRows(db, rows, agency).Keys| <= |db.Keys| + 4 * |rows|
    decreases |rows|
  {
    if rows != [] {
      var init := rows[..|rows| - 1];
      var last := rows[|rows| - 1];
      AddRowsSize(db, init, agency);
      AddRowKeys(AddRows(db, init, agency), last, agency);
      var before := AddRows(db, init, agency).Keys;
      var added := set k' | k' in SuffixKeys(last.title);
      CardinalityOfKeys(SuffixKeys(last.title));
      UnionSize(before, added);
    }
  }

  lemma UnionSize(a: set<string>, b: set<string>)
    ensures |a + b| <= |a| + |b|
  {
    assert |a + b| == |a| + |b| - |a * b|;
  }

  lemma CardinalityOfKeys(ks: seq<string>)
    requires |ks| == 4
    ensures |set k | k in ks| <= 4
  {
    assert (set k | k in ks) == {ks[0], ks[1], ks[2], ks[3]};
  }

  /** Later writes win: a key of row `i` that no later row writes points at row `i`. */
  lemma {:induction false} LastWriterWins(db: map<string, Entry>, rows: seq<ProposalRow>, agency: string, i: nat, k: string)
    requires i < |rows| && k in SuffixKeys(rows[i].title)
    requires forall j :: i < j < |rows| ==> k !in SuffixKeys(rows[j].title)
    ensures k in AddRows(db, rows, agency)
    ensures AddRows(db, rows, agency)[k] == Entry(rows[i].oppNumber, agency)
    decreases |rows|
  {
    var init := rows[..|rows| - 1];
    var last := rows[|rows| - 1];
    AddRowKeys(AddRows(db, init, agency), last, agency);
    if i < |rows| - 1 {
      forall j | i < j < |init| ensures k !in SuffixKeys(init[j].title) {
        assert init[j] == rows[j];
      }
      LastWriterWins(db, init, agency, i, k);
    }
  }

  /** A key no row writes keeps the value it had. */
  lemma {:induction false} UnwrittenKept(db: map<string, Entry>, rows: seq<ProposalRow>, agency: string, k: string)
    requires k in db
    requires forall j :: 0 <= j < |rows| ==> k !in SuffixKeys(rows[j].title)
    ensures k in AddRows(db, rows, agency) && AddRows(db, rows, agency)[k] == db[k]
    decreases |rows|
  {
    if rows != [] {
      var init := rows[..|rows| - 1];
      forall j | 0 <= j < |init| ensures k !in SuffixKeys(init[j].title) {
        assert init[j] == rows[j];
      }
      UnwrittenKept(db, init, agency, k);
      AddRowKeys(AddRows(db, init, agency), rows[|rows| - 1], agency);
    }
  }

  /** Every value names one of the rows and the agency of its file. */
  lemma {:induction false} AddRowsValues(db: map<string, Entry>, rows: seq<ProposalRow>, agency: string, k: string)
    requires k in AddRows(db, rows, agency)
    ensures (k in db && AddRows(db, rows, agency)[k] == db[k])
            || exists i :: 0 <= i < |rows| && AddRows(db, rows, agency)[k] == Entry(rows[i].oppNumber, agency)
    decreases |rows|
  {
    if rows != [] {
      var init := rows[..|rows| - 1];
      var last := rows[|rows| - 1];
      AddRowKeys(AddRows(db, init, agency), last, agency);
      if k !in SuffixKeys(last.title) {
        AddRowsValues(db, init, agency, k);
        if !(k in db && AddRows(db, init, agency)[k] == db[k]) {
          var i :| 0 <= i < |init| && AddRows(db, init, agency)[k] == Entry(init[i].oppNumber, agency);
          assert rows[i] == init[i];
        }
      } else {
        assert AddRows(db, rows, agency)[k] == Entry(rows[|rows| - 1].oppNumber, agency);
      }
    }
  }

  /** Every value of the table has agency "nih" or "nsf" and the id of a row
    * of that agency's file. */
  lemma TitlesDbShape(nihRows: seq<ProposalRow>, nsfRows: seq<ProposalRow>, k: string)
    requires k in TitlesDb(nihRows, nsfRows)
    ensures TitlesDb(nihRows, nsfRows)[k].agency in {"nih", "nsf"}
    ensures TitlesDb(nihRows, nsfRows)[k].agency == "nih"
            ==> exists i :: 0 <= i < |nihRows| && TitlesDb(nihRows, nsfRows)[k].pid == nihRows[i].oppNumber
    ensures TitlesDb(nihRows, nsfRows)[k].agency == "nsf"
            ==> exists i :: 0 <= i < |nsfRows| && TitlesDb(nihRows, nsfRows)[k].pid == nsfRows[i].oppNumber
  {
    var nih := AddRows(map[], nihRows, "nih");
    AddRowsValues(nih, nsfRows, "nsf", k);
    if k in nih && TitlesDb(nihRows, nsfRows)[k] == nih[k] {
      AddRowsValues(map[], nihRows, "nih", k);
    }
  }

  /** NSF entries replace NIH entries under the same key. */
  lemma NsfWins(nihRows: seq<ProposalRow>, nsfRows: seq<ProposalRow>, i: nat, k: string)
    requires i < |nsfRows| && k in SuffixKeys(nsfRows[i].title)
    requires forall j :: i < j < |nsfRows| ==> k !in SuffixKeys(nsfRows[j].title)
    ensures k in TitlesDb(nihRows, nsfRows)
    ensures TitlesDb(nihRows, nsfRows)[k] == Entry(nsfRows[i].oppNumber, "nsf")
  {
    LastWriterWins(AddRows(map[], nihRows, "nih"), nsfRows, "nsf", i, k);
  }

  /** A title of at most three words writes the empty key. */
  lemma ShortTitleEmptyKey(title: string)
    requires |Words(title)| <= 3
    ensures "" in SuffixKeys(title)
  {
    assert SuffixKeys(title)[3] == "";
  }

  // ---------------------------------------------------------------------
  // Keys are in whitespace-normal form

  lemma {:induction false} TakeWordBeforeSpace(w: string, t: string)
    requires forall i :: 0 <= i < |w| ==> !IsSpace(w[i])
    ensures TakeWord(w + " " + t) == w
    decreases |w|
  {
    if w == [] {
      assert (w + " " + t)[0] == ' ';
    } else {
      assert (w + " " + t)[1..] == w[1..] + " " + t;
      TakeWordBeforeSpace(w[1..], t);
      assert [w[0]] + w[1..] == w;
    }
  }

  /** Splitting a space-joined list of words gives the words back. */
  lemma {:induction false} WordsOfJoin(ws: seq<string>)
    requires forall j :: 0 <= j < |ws| ==> ws[j] != [] && forall i :: 0 <= i < |ws[j]| ==> !IsSpace(ws[j][i])
    ensures Words(Join(" ", ws)) == ws
  {
    if |ws| == 1 {
      WordsOfWord(ws[0]);
    } else if |ws| > 1 {
      var w := ws[0];
      var t := Join(" ", ws[1..]);
      var s := w + " " + t;
      assert Join(" ", ws) == s;
      TakeWordBeforeSpace(w, t);
      assert s[|w|..] == " " + t;
      assert (" " + t)[1..] == t;
      WordsOfJoin(ws[1..]);
      assert [w] + ws[1..] == ws;
    }
  }

  /** Each key is the title's words from the j-th on, separated by single
    * spaces: splitting it gives exactly those words. */
  lemma SuffixKeyWords(title: string, j: nat)
    requires j < 4
    ensures Words(SuffixKeys(title)[j]) == if j <= |Words(title)| then Words(title)[j..] else []
  {
    var words := Words(title);
    WordsShape(title);
    if j <= |words| {
      WordsOfJoin(words[j..]);
    }
  }

  // ---------------------------------------------------------------------
  // The script

  /** The two loops of the script writing into `db`. */
  method BuildTitlesDb(nihRows: seq<ProposalRow>, nsfRows: seq<ProposalRow>) returns (db: map<string, Entry>)
    ensures db == TitlesDb(nihRows, nsfRows)
  {
    db := map[];
    for i := 0 to |nihRows|
      invariant db == AddRows(map[], nihRows[..i], "nih")
    {
      assert nihRows[..i + 1][..i] == nihRows[..i];
      var title := Words(nihRows[i].title);
      var e := Entry(nihRows[i].oppNumber, "nih");
      db := db[SuffixKey(title, 0) := e];
      db := db[SuffixKey(title, 1) := e];
      db := db[SuffixKey(title, 2) := e];
      db := db[SuffixKey(title, 3) := e];
    }
    assert nihRows[..|nihRows|] == nihRows;
    ghost var nih := db;
    for i := 0 to |nsfRows|
      invariant db == AddRows(nih, nsfRows[..i], "nsf")
    {
      assert nsfRows[..i + 1][..i] == nsfRows[..i];
      var title := Words(nsfRows[i].title);
      var e := Entry(nsfRows[i].oppNumber, "nsf");
      db := db[SuffixKey(title, 0) := e];
      db := db[SuffixKey(title, 1) := e];
      db := db[SuffixKey(title, 2) := e];
      db := db[SuffixKey(title, 3) := e];
    }
    assert nsfRows[..|nsfRows|] == nsfRows;
  }
}

=== FILE: wrappers.dfy ===
/** Option and Result, the two wrappers the model uses for Python's
  * `None`/NaN values and for exceptions. */
module Wrappers {

  datatype Option<T> = None | Some(value: T)
  {
    function GetOr(default: T): (r: T)
      ensures this.Some? ==> r == value
      ensures this.None? ==> r == default
    {
      match this
      case Some(v) => v
      case None => default
    }
  }

  /** What a Python call raises; the kind only matters for documentation. */
  datatype Raised =
    | KeyError
    | IndexError
    | AttributeError
    | NameError
    | TypeError
    | ZeroDivisionError
    | ValueError
    | SystemExit

  datatype Result<T> = Ok(value: T) | Err(error: Raised)

  /** The values of a list of optional cells, or `None` as soon as one is missing. */
  function AllSome<T>(xs: seq<Option<T>>): (r: Option<seq<T>>)
    ensures r.Some? <==> forall i :: 0 <= i < |xs| ==> xs[i].Some?
    ensures r.Some? ==> |r.value| == |xs| && forall i :: 0 <= i < |xs| ==> r.value[i] == xs[i].value
  {
    if xs == [] then Some([])
    else if xs[0].None? then None
    else
      match AllSome(xs[1..])
      case None => None
      case Some(rest) => Some([xs[0].value] + rest)
  }

  /** `[x for x in cells if not pd.isna(x)]`: the values of the `Some` cells, in order. */
  function Present<T>(cells: seq<Option<T>>): (r: seq<T>)
    ensures |r| <= |cells|
  {
    if cells == [] then []
    else if cells[0].Some? then [cells[0].value] + Present(cells[1..])
    else Present(cells[1..])
  }

  lemma {:induction false} PresentMembers<T>(cells: seq<Option<T>>, x: T)
    ensures x in Present(cells) <==> Some(x) in cells
  {
    if cells != [] {
      PresentMembers(cells[1..], x);
      assert cells == [cells[0]] + cells[1..];
    }
  }

  lemma {:induction false} PresentAppend<T>(xs: seq<Option<T>>, ys: seq<Option<T>>)
    ensures Present(xs + ys) == Present(xs) + Present(ys)
  {
    if xs == [] {
      assert xs + ys == ys;
    } else {
      PresentAppend(xs[1..], ys);
      assert (xs + ys)[0] == xs[0];
      assert (xs + ys)[1..] == xs[1..] + ys;
      if xs[0].Some? {
        assert [xs[0].value] + (Present(xs[1..]) + Present(ys)) == ([xs[0].value] + Present(xs[1..])) + Present(ys);
      }
    }
  }

  /** The results of a list of calls, or the first exception raised. */
  function Collect<T>(xs: seq<Result<T>>): (r: Result<seq<T>>)
    ensures r.Ok? <==> forall i :: 0 <= i < |xs| ==> xs[i].Ok?
    ensures r.Ok? ==> |r.value| == |xs| && forall i :: 0 <= i < |xs| ==> r.value[i] == xs[i].value
    ensures r.Err? ==> exists i :: 0 <= i < |xs| && xs[i] == Err(r.error)
  {
    if xs == [] then Ok([])
    else if xs[0].Err? then Err(xs[0].error)
    else
      match Collect(xs[1..])
      case Err(e) => Err(e)
      case Ok(rest) => Ok([xs[0].value] + rest)
  }
}
